=== FILE: README.md ===
# GroqChatbot core in Dafny

A model of the core of GroqChatbot, a chat front end for the Groq and Google
Gemini APIs with read-aloud (text to speech) for assistant replies. Modelled:

- **Message rendering (`formatMessage`).** This is the regex-based
  markdown-to-HTML renderer of the page script (`static/js/app.js`) and of the
  React component (`components/ChatMessages.tsx`). Each global `replace` is
  one pass:
  - `Rewrite.Scan` is an unanchored global replace. It is driven by a matcher
    that says what the regular expression matches at a position.
  - `Rewrite.LineMap` is a `^…$` pattern with the `gm` flags, applied line by
    line.
  - The two clients differ in one pass: only the page has the ordered-list
    pass.
- **Speech text cleaning.** The cleaner strips tags, collapses white space,
  restores the three entities and trims (module `SpeechText`).
- **Read-aloud buttons.** These are event-driven state machines:
  - `Playback` is the page's `speakText`, with DOM classes `playing` and
    `disabled`, one current `Audio`, and object URLs.
  - `ReactPlayback` is the component's `handleSpeak`, with the state
    `playingAudio` and `playingButton`.
  - Network answers, audio end and audio errors are events.
  - Alerts, `play()` and `URL.revokeObjectURL` are effects.
- **Session titles.** The sidebar title and its 30-character cut (`Sessions`).
- **Flask endpoints** (`app.py`):
  - `/api/chat` with its in-memory history;
  - `/api/clear`, `/api/new-chat` and `/api/stats`;
  - `/api/models`, including the `all` merge;
  - `/api/tts`: validation, the 10 000-character cut, defaults and the
    terms-acceptance classification.
- **Gemini client** (`gemini_client.py`):
  - `list_models`: filter, id extraction, sort by id, and fallback list;
  - the history and prompt built by `chat`, and its error wrapping.

Strings are `seq<char>`. JavaScript's `\s`, `.`, `\w`, `\d`, `^`/`$` (with the
`m` flag) and `trim()` use the ECMAScript character sets (`Text.IsSpace`,
`Text.IsLineTerminator`, `Text.IsWordChar`, `Text.IsDigit`).

Some behaviours of the code that the model keeps:

- Both clients give the speech cleaner the message's raw content, not the
  rendered HTML.
- The page's teardown of a superseded sound pauses it but neither revokes its
  object URL (`Playback.PausedUrlKept`) nor re-enables its button.
- Neither client guards against a stale TTS answer. Two requests sent while
  nothing plays both start their audio (`Playback.Overlap`,
  `ReactPlayback.HighlightDrifts`).
- The page's "click the playing button to stop" branch can never run. A
  button gets `playing` and `disabled` together, and a disabled button takes
  no click, so an enabled button never carries `playing`
  (`Playback.StopBranchDead`). When no audio is held the teardown does not
  run, and a button whose request is still pending keeps `playing`; it is
  disabled, so the branch stays unreachable. The component's version does
  work (`ReactPlayback.ToggleStops`).

## Model

| member | source | states |
|---|---|---|
| Entities.Escape | static/js/app.js:426 | the escaped text has no `<` or `>`; on text without `&`, it has an ampersand exactly when the input had an angle bracket; it is never shorter |
| Entities.EscapeIsCharwise | static/js/app.js:426 | the two whole-text replaces equal replacing each character on its own |
| Entities.UnescapeEscape | static/js/app.js:111-113 | restoring `&lt;`, `&gt;`, `&amp;` undoes the escape pass on every text without `&` |
| Entities.UnescapeOrder | static/js/app.js:111-113 | `&amp;` is restored last, so `&amp;lt;` becomes `&lt;` and not `<` |
| Entities.Unescape | static/js/app.js:111-113 | every restored entity starts with `&`, so text without `&` is left unchanged |
| Code.FenceAt | static/js/app.js:429-432 | a fenced block matches only at three backticks and spans at least seven characters |
| Code.FencedBlocks | static/js/app.js:429-432 | a block opens with three backticks, so text without a backtick is left unchanged |
| Code.FencedBlockRendered | static/js/app.js:429-432 | a fence with a word-character language, a newline and a body holding no three backticks (even with two more after it) becomes `<pre><code class="language-…">` with the trimmed body, and the plain `<pre><code>` when there is no language; the text after the closing fence is scanned on |
| Code.FencedExample | static/js/app.js:429-432 | a `js` fence around `const x=1;` becomes a `language-js` code element holding the trimmed line |
| Code.InlineCodeAt | static/js/app.js:435 | an inline span starts and ends with a backtick, holds at least one character and no backtick, and becomes `<code>` around its body |
| Code.InlineCodeRendered | static/js/app.js:435 | a backtick-delimited span is replaced and the text after it is scanned on |
| Code.InlineCode | static/js/app.js:435 | a span opens with a backtick, so text without a backtick is left unchanged |
| Tables.TableAt | static/js/app.js:438 | a table match starts at `\|` |
| Tables.Tables | static/js/app.js:438-452 | a table starts with `\|`, so text without `\|` is left unchanged |
| Tables.TableRendered | static/js/app.js:438-452 | a header, a separator of `-`, `:`, white space and `\|`, and one or more row lines, each followed by a newline, become one table whose body comes from the trimmed row lines, and the text after the rows is scanned on; this holds when the first row has a character other than `-`, `:`, `\|` and white space (otherwise the greedy separator would swallow that row) and the text after the rows is empty or does not start with `\|` |
| Tables.TableRenderedAtEnd | static/js/app.js:438-452 | under the same conditions, a table that ends the message, its last row without a newline (the pattern's `\n?`), becomes one table built from the row lines joined by newlines |
| Tables.JoinedRowTextLines | static/js/app.js:443 | trimming the rows of such a table and splitting them on newlines gives back the row lines |
| Tables.CellsBordered | static/js/app.js:440 | splitting a bordered row on `\|` and dropping blank parts gives back exactly its trimmed, non-empty cells |
| Tables.BlankCellDropped | static/js/app.js:445 | a cell holding only white space is dropped, so later cells shift left |
| Tables.RowTextLines | static/js/app.js:443 | trimming the row block and splitting it on newlines gives back the row lines |
| Lines.HeadingLine | static/js/app.js:455-457 | a line that does not start with `#` is left alone by all three heading passes |
| Lines.Headings | static/js/app.js:455-457 | every heading marker starts with `#`, so text without `#` is left unchanged |
| Lines.HeadingsPrecedence | static/js/app.js:455-457 | the three heading passes equal one per-line function, so `### ` wins over `## ` and `# ` |
| Lines.H3Rendered | static/js/app.js:455 | a `### ` line becomes an `<h3>` around the rest of the line |
| Lines.Items | static/js/app.js:468-469 | an item line starts with `* ` or `- `, so text with neither `*` nor `-` is left unchanged |
| Lines.BulletItem | static/js/app.js:468-469 | a `* x` or `- x` line with non-empty one-line `x` becomes `<li>x</li>`, by the first pass for `*` and the second for `-` |
| Lines.ItemsRendered | static/js/app.js:468-469 | consecutive `* `/`- ` lines with text become `<li>` lines, and the lines after them go through the item passes on their own |
| Lines.ListRendered | static/js/app.js:468-470 | a maximal run of such lines becomes items wrapped in exactly one `<ul>`, when the next line starts with neither `*`, `-` nor `<` |
| Lines.WrapLists | static/js/app.js:470 | a wrapped run starts with `<li>`, so text without `<` is left unchanged |
| Lines.WrapRun | static/js/app.js:470 | consecutive item lines are wrapped in exactly one `<ul>`, and wrapping goes on after the run |
| Lines.OrderedNotWrapped | static/js/app.js:470-473 | a numbered line after a line of plain text becomes an `<li>` after the wrap pass has run, so no `<ul>` encloses it |
| Lines.NumberedAfterItems | static/js/app.js:470-473 | a numbered line right after a run of item lines is not an item at all: the wrap pass takes the newline before it into the `<ul>`, so the number no longer starts a line |
| Lines.Ordered | static/js/app.js:473 | a numbered item needs `. ` after its number, so text without `.` is left unchanged |
| Lines.RulesPrecedence | static/js/app.js:479-480 | the two rule passes equal one per-line function: a line is a rule exactly when it is `---` or `***` |
| Lines.Rules | static/js/app.js:479-480 | a rule line is made of `-` or `*`, so text with neither is left unchanged |
| Lines.QuoteLine | static/js/app.js:483 | a line changes exactly when it starts with the escaped `&gt; ` and has text after it |
| Lines.Quotes | static/js/app.js:483 | a quotation needs the escaped `&gt;`, so text without `&` is left unchanged |
| Lines.QuoteRendered | static/js/app.js:483 | an escaped `> x` line with non-empty `x` becomes one `<blockquote>` of `x`, its newline stays, and the lines after it are quoted on |
| Inline.DelimAt | static/js/app.js:460-465 | an emphasis match starts with its delimiter and covers both delimiters around at least one character |
| Inline.CloseFromIsFirst | static/js/app.js:460 | the lazy body ends at the first closing delimiter on the same line, and there is none before it |
| Inline.DelimAtCloses | static/js/app.js:460-465 | an emphasis match closes at the first legal closing delimiter; no match means no closing delimiter on the line |
| Inline.BoldRendered | static/js/app.js:460 | `**x**` becomes `<strong>x</strong>` when `x` is one line without `*` |
| Inline.ItalicRendered | static/js/app.js:464 | `*x*` becomes `<em>x</em>` when `x` is one line without `*` |
| Inline.BoldBeforeItalic | static/js/app.js:460-465 | the bold pass runs first, so `**x**` ends bold and not as nested italics |
| Inline.Bold | static/js/app.js:460-461 | bold needs `**` or `__`, so text with neither `*` nor `_` is left unchanged |
| Inline.Italic | static/js/app.js:464-465 | italics need `*` or `_`, so text with neither is left unchanged |
| Inline.LinkRendered | static/js/app.js:476 | `[caption](url)` becomes an anchor opening in a new tab with `noopener noreferrer` |
| Inline.Links | static/js/app.js:476 | a link opens with `[`, so text without `[` is left unchanged |
| Paragraphs.ParagraphBreak | static/js/app.js:486 | a blank line between two lines becomes a paragraph boundary |
| Paragraphs.LineBreak | static/js/app.js:487 | a single newline becomes `<br>` |
| Paragraphs.Breaks | static/js/app.js:486-487 | no newline is left after the break passes |
| Paragraphs.EmptyParaAt | static/js/app.js:492 | the clean-up matches exactly a `<p>`, white space and `</p>`, and deletes it |
| Paragraphs.TwoParagraphs | static/js/app.js:486-492 | two plain lines separated by a blank line become two paragraphs |
| Paragraphs.BlankDropped | static/js/app.js:488-492 | the paragraph passes turn a line of white space only into nothing |
| Paragraphs.LoneNewline | static/js/app.js:486-492 | a lone newline renders as a paragraph holding `<br>`; it is not dropped as empty |
| Paragraphs.Paragraphs | static/js/app.js:486-492 | no newline is left after the break, wrapping and clean-up passes |
| Renderer.Render | static/js/app.js:424-495 | the rendered HTML holds no newline |
| Renderer.RenderPlainLine | components/ChatMessages.tsx:25-89 | a plain line renders, in both clients, as one paragraph of its escaped text |
| Renderer.RenderHeading | static/js/app.js:457 | `# x` renders as a paragraph holding an `<h1>` of the escaped text |
| Renderer.RenderQuote | static/js/app.js:483 | `> x` is first escaped to `&gt; x` and then becomes a `<blockquote>` |
| Renderer.RenderNumbered | components/ChatMessages.tsx:64-70 | `1. x` becomes an `<li>` on the page but stays text in the component, which has no ordered-list pass |
| Renderer.RenderDashRule | static/js/app.js:479 | a `---` line renders as `<hr>` |
| Renderer.StarsEmphasised | static/js/app.js:464 | the italic pass turns a `***` line into `<em>*</em>` |
| Renderer.RenderStars | static/js/app.js:464-480 | a `***` line renders as `<em>*</em>`, not as a rule |
| Renderer.RenderCorrectedStars | static/js/app.js:479-480 | with the rule passes run before emphasis, a `***` line renders as `<hr>` |
| Renderer.RenderCorrected | static/js/app.js:424-495 | with the rule passes moved before emphasis, the rendered HTML still holds no newline |
| Renderer.RenderEmpty | static/js/app.js:486-492 | the empty message renders as nothing, by both renderers |
| Renderer.RenderBlank | static/js/app.js:486-492 | a one-line message of white space only renders as nothing, by both renderers |
| Renderer.FencedBold | static/js/app.js:429-465 | the emphasis passes see the text inside a fenced block: `**x**` alone in a block becomes `<strong>x</strong>` inside the code element |
| SpeechText.TagAt | static/js/app.js:109 | a tag match is a `<` up to the first following `>`, and is replaced by one space |
| SpeechText.SpaceAt | static/js/app.js:110 | a white-space match is the maximal run of white space, and is replaced by one space |
| SpeechText.Clean | static/js/app.js:109-114 | the spoken text is trimmed, holds only plain single spaces, and is no longer than the input |
| SpeechText.StripTagsLeavesNoTag | static/js/app.js:109 | after stripping, no `<` is followed by a `>` |
| SpeechText.StripTagsSpan | static/js/app.js:109 | a tag becomes one space and nothing else changes |
| SpeechText.StripTags | static/js/app.js:109 | a tag starts with `<`, so text without `<` is left unchanged |
| SpeechText.Collapse | static/js/app.js:110 | text without white space is left unchanged |
| SpeechText.CollapseSpec | static/js/app.js:110 | collapsing leaves single plain spaces, empties only the empty text, and keeps whether the text starts with white space |
| SpeechText.CollapseKeeps | static/js/app.js:110 | text already single-spaced with plain spaces is left alone |
| SpeechText.CleanEscaped | components/ChatMessages.tsx:106-111 | cleaning the escaped form of speakable text without `&` gives back the text |
| SpeechText.CleanNoTag | static/js/app.js:109-114 | without `&` in the input, no tag survives the cleaner |
| SpeechText.CleanDropsSpan | static/js/app.js:109-114 | a tag between two words is dropped and the spaces around it collapse to one |
| Playback.ParseMode | static/js/app.js:106 | the model is the text before the first `\|`, with no `\|` in model or voice; the voice is absent exactly when the mode has no `\|` |
| Playback.ParseModeJoin | static/js/app.js:106 | splitting `model\|voice` gives back both parts |
| Playback.Teardown | static/js/app.js:90-97 | stopping the current audio pauses it, clears every `playing` class and drops the audio; pending requests stay, and no button becomes disabled |
| Playback.Finish | static/js/app.js:153-166 | the end or error of a sound re-enables its button, drops the sound and revokes its URL |
| Playback.Notices | static/js/app.js:134-174 | a failed request shows the set-up notice first exactly when terms must be accepted, and always ends with the failure alert |
| Playback.Step | static/js/app.js:88-176 | a click on a disabled button does nothing; URLs are only added and revoked; only the clicked button can become pending; a refused request re-enables its button and shows the notices; an arrived sound becomes current and, when started, sounds, and otherwise re-enables its button with the failure alert; an undecodable answer revokes its URL and re-enables its button; an end or error finishes the sound |
| Playback.StepInv | static/js/app.js:88-176 | every valid event keeps the invariant: playing and pending buttons are disabled, a sounding button is disabled and not pending, one sound per button, and the current sound is its owner's |
| Playback.RunInv | static/js/app.js:88-176 | the invariant holds after any valid run |
| Playback.RunAppend | static/js/app.js:88-176 | running two event sequences one after the other is running them joined, and the joined run is valid exactly when both parts are, the second from where the first ends |
| Playback.StopBranchDead | static/js/app.js:99-103 | no enabled button is still `playing` after the teardown, so every click ends in a request |
| Playback.ClickRequests | static/js/app.js:105-132 | a click tears down, then marks its button playing, disabled and pending and asks for the cleaned text with the parsed model and voice |
| Playback.PausedUrlKept | static/js/app.js:90-97 | a superseded sound is paused but its URL is never revoked |
| Playback.Overlap | static/js/app.js:116-168 | two clicks before either answer arrives lead to two sounds at once |
| Playback.SupersedeStrands | static/js/app.js:90-97 | clicking another button while a sound plays pauses it and leaves its button disabled, with nothing pending and no sound |
| Playback.StuckStays | static/js/app.js:88-176 | a stranded button stays stranded through every valid event |
| Playback.StuckForever | static/js/app.js:88-176 | a stranded button stays disabled after any valid run |
| Playback.CorrectedStep | static/js/app.js:90-97 | with the teardown re-enabling the superseded button, every disabled button is pending or sounding after each valid event |
| Playback.CorrectedRun | static/js/app.js:90-97 | with that correction, no button is ever stranded on any valid run |
| ReactPlayback.Step | components/ChatMessages.tsx:91-161 | object URLs are only ever added and revoked; a click pauses any held audio and drops it; a click on a message that is not highlighted highlights it; a click on the highlighted one leaves the pending requests as they were; a refusal clears the highlight, drops one pending request and shows the notices; an arrival holds the new audio; an undecodable answer or an end or error drops the audio and the highlight and revokes the URL |
| ReactPlayback.StepInv | components/ChatMessages.tsx:91-161 | every valid event keeps the invariant: only created URLs are revoked, the held and sounding audio play from live URLs, and no two sounds share a URL |
| ReactPlayback.RunInv | components/ChatMessages.tsx:91-161 | the invariant holds after any valid run |
| ReactPlayback.ToggleStops | components/ChatMessages.tsx:93-102 | clicking the highlighted message while its audio is held stops it and sends no request |
| ReactPlayback.PendingClickIgnored | components/ChatMessages.tsx:100-102 | clicking the highlighted message while its answer is on its way changes nothing |
| ReactPlayback.ClickRequests | components/ChatMessages.tsx:104-126 | any other click highlights the message and asks for its cleaned content with the parsed model and voice |
| ReactPlayback.HighlightDrifts | components/ChatMessages.tsx:114-141 | after two quick clicks, the first answer plays under the second message's highlight |
| ReactPlayback.ToggleDuringRequest | components/ChatMessages.tsx:100-141 | toggling a message off while its request is pending does not cancel it; the answer still plays |
| Sessions.Title | static/js/app.js:269 | a non-empty stored title is used; otherwise `Chat ` and the id's first eight characters, or the whole id when it is shorter |
| Sessions.Shown | static/js/app.js:270 | the shown title has at most 30 characters; a title of up to 30 is shown whole; a longer one is its first 27 characters and `...` |
| Sessions.ShownIdempotent | static/js/app.js:270 | cutting a shown title again changes nothing |
| Sessions.ShownSame | static/js/app.js:270 | two long titles look the same exactly when their first 27 characters agree |
| Sessions.ShownPrefix | static/js/app.js:270 | the shown text is the title or a 27-character prefix of it |
| Sessions.DefaultNotCut | static/js/app.js:269-270 | a default title is never cut, and an empty title counts as none |
| Sessions.DefaultTitleOfLongId | static/js/app.js:269 | an id of eight or more characters contributes exactly its first eight |
| Sessions.DefaultTitleOfShortId | static/js/app.js:269 | an id shorter than eight characters is shown whole after `Chat ` |
| Gemini.IdOf | gemini_client.py:38-39 | the id is the part of the name after its last `/`: a suffix with no `/`, which is the whole name or follows a `/` |
| Gemini.IdAfterSlash | gemini_client.py:39 | `models/x` has id `x` |
| Gemini.ToInfo | gemini_client.py:40-49 | the record is owned by `google` and active; its name is the display name, or the id when that is missing or empty |
| Gemini.Keep | gemini_client.py:27-35 | only generative models are kept unless `include_all`, and each kept model appears exactly as often as in the input |
| Gemini.SortById | gemini_client.py:52 | the result is sorted by id and is a permutation of the input |
| Gemini.LexTotal | gemini_client.py:52 | any two ids are comparable |
| Gemini.LexTrans | gemini_client.py:52 | the id order is transitive |
| Gemini.ListModels | gemini_client.py:19-60 | a failing SDK gives the three fallback models; otherwise the list is sorted by id; every entry is owned by `google` and active |
| Gemini.ListedExactly | gemini_client.py:26-52 | a model is listed exactly when the SDK reports it and it passes the filter |
| Gemini.IncludeAllKeepsCount | gemini_client.py:27 | with `include_all`, every model of the SDK is listed |
| Gemini.GeminiRole | gemini_client.py:80 | `assistant` maps to `model`, every other role to `user` |
| Gemini.History | gemini_client.py:76-81 | the history is every message but the last, each as one part under its mapped role |
| Gemini.Prompt | gemini_client.py:84-85 | the prompt is the last message's content, or empty when there are none |
| Gemini.Chat | gemini_client.py:62-113 | the reply is an answer exactly when the SDK answers; a failure is re-raised with the `Error getting Gemini chat response: ` prefix |
| Gemini.ShapeRoundTrip | gemini_client.py:76-85 | history plus prompt lose nothing: the messages can be rebuilt from them |
| Gemini.Restore | gemini_client.py:76-85 | reading the history and prompt back gives one message per history entry, with its part as content and `model` turned back into `assistant`, and the prompt last |
| Server.Provider | app.py:83-86 | a missing, empty or Groq provider (in any case) means Groq, or Gemini when only Gemini is configured; any other name is used lower-cased (ASCII letters only, see below) |
| Server.ProviderGemini | app.py:83-86 | Gemini is chosen exactly when asked for in any case, or when Groq is asked for or implied and only Gemini is configured |
| Server.ProviderLower | app.py:83-86 | the chosen provider holds no upper-case ASCII letter |
| Server.Turns | app.py:103 | the provider sees role and content of every history entry, in order |
| Server.Chat | app.py:74-134 | a missing or empty message is a 400 that leaves the history alone, and only it; otherwise the history keeps its entries and grows by the user entry and, exactly on a 200, the assistant entry |
| Server.ChatAnswered | app.py:95-128 | an answered message appends the user and the assistant entries with the chosen model and returns the answer with its timestamp |
| Server.ChatUnanswered | app.py:95-134 | a failed call keeps the user entry it already appended |
| Server.ChatPaired | app.py:74-134 | roles stay `user`/`assistant`, and every assistant entry follows a user entry |
| Server.PairedCounts | app.py:182-192 | in a paired history, assistant messages never outnumber user messages |
| Server.Clear | app.py:144-153 | the history is emptied and the call succeeds |
| Server.NewChat | app.py:155-164 | the history is emptied and the call succeeds |
| Server.Stats | app.py:182-192 | the total is the history length, the user and assistant counts are the numbers of entries with those roles, and together they never exceed the total |
| Server.CountBoth | app.py:189-190 | user and assistant counts together never exceed the total |
| Server.Count | app.py:189-190 | a role count is zero exactly when no entry has that role, and the history length exactly when every entry has it |
| Server.StatsAfterAnswer | app.py:182-192 | an answered chat adds two to the total and one to each role |
| Server.StatsAfterClear | app.py:144-192 | after clear or new-chat, all counts are zero |
| Server.Tag | app.py:51-63 | each copied record gains the provider and keeps every other field |
| Server.GeminiRecord | gemini_client.py:42-49 | the record has exactly `id`, `name`, `owned_by` and `active` |
| Server.GetModels | app.py:35-72 | by lower-cased provider: Gemini lists its models or is a 400 when not configured; `all` merges both; anything else asks Groq, a 500 without a client or on its error; models are returned exactly on status 200 |
| Server.UnknownProviderIsGroq | app.py:35-72 | a provider that is neither Gemini nor `all` is answered as Groq |
| Server.GetModelsIgnoresCase | app.py:38 | two provider names equal up to letter case give the same answer |
| Server.AllModels | app.py:47-66 | every record of the `all` list names its provider, Groq or Gemini |
| Server.AllOrder | app.py:47-66 | the `all` list is Groq's records, then Gemini's in id order, each tagged with its provider; a Gemini record has exactly its id, name, owner and active flag |
| Server.AllSkipsFailures | app.py:49-65 | a failing or missing provider adds nothing, and the other is still listed |
| TtsEndpoint.Truncate | app.py:231-232 | the text is cut to its first 10 000 characters when longer, otherwise kept |
| TtsEndpoint.TruncateIdempotent | app.py:231-232 | cutting twice is cutting once, and only longer texts change |
| TtsEndpoint.Classify | app.py:251-265 | a 403 with `terms_required` exactly when the lower-cased error mentions `terms acceptance`; otherwise a 500 carrying the error |
| TtsEndpoint.TextToSpeech | app.py:215-265 | a missing or empty text is a 400, and only then; a 200 carries audio |
| TtsEndpoint.SpeakerCalled | app.py:220-249 | the client gets the cut text with the default model and voice filled in; its audio is returned as is; its error is classified |
| TtsEndpoint.NoClientIsServerError | app.py:235-265 | without a Groq client, the attribute error is a plain 500 |
| TtsEndpoint.TermsAnyCase | app.py:255 | a mention of terms acceptance in any letter case gives the 403 |

## Left out

- The DOM, `alert` texts, `console` logging, CSS classes other than `playing`, and the `disabled` property are abstracted. They become effects (`Pause`, `Request`, `Start`, `Show`, `Revoke`) and the state sets of `Playback.State`.
- Playback.Step: a rejected `play()` and a failed fetch both go to the `catch` block. They are modelled as the events `Arrived(…, started := false)` and `Refused`. An answer whose audio cannot be decoded fires `onerror` and then reaches the `catch`; that is the single event `Undecodable`, since the model does not interleave the two handlers. Timing, and the order in which events arrive, is left free: a run is any sequence of valid events.
- The HTTP transport, JSON encoding and Flask's `Response` headers are left out. Responses are a status and a body datatype.
- Server.Chat: timestamps come from the clock. They are parameters (`Times`), and their ISO format is not modelled.
- Server.Chat: an explicit JSON `null` for `model` reaches Python as `None`, which goes into the history entries and to the client. The model treats it like a missing key and uses the default `mixtral-8x7b-32768`. A `null` provider needs no such remark, since `or 'groq'` absorbs it.
- Server.Chat: a body that is not a JSON object makes `data.get` raise, and the handler answers 500. Field values that are not strings are not modelled either: a request field is a string or missing.
- TtsEndpoint.TextToSpeech: an explicit JSON `null` for `model` or `voice` reaches the Groq client as `None`. The model substitutes the defaults `playai-tts` and `Fritz-PlayAI`, as for a missing key. A body that is not a JSON object makes `data.get` raise, and the handler answers 500; this is not modelled.
- Server.Provider: Python's `str.lower()` is modelled by ASCII lower-casing (`Text.ToLowerAscii`). Non-ASCII letters of a provider name stay as they are in the model.
- Server.GetModels: the query-string provider is lower-cased by `Text.ToLowerAscii` as well, with the same limit. A missing `provider` parameter is `None`, which takes the default `groq`.
- The Groq client (`groq_client.py`) is not part of this model. Its `chat`, `list_models` and `text_to_speech` are function parameters (`Chatter`, `Listing`, `Speaker`).
- Gemini.Chat: the SDK call is a parameter. The extraction of the reply text from `response.text` or the candidates' parts (gemini_client.py lines 97-111) is not modelled; the parameter returns the text directly. Temperature and token limits are not passed on.
- Gemini.SortById: stability is not stated. Python's sort is stable, so models with equal ids keep the SDK's order; the contract states only sortedness and permutation.
- TtsEndpoint.Classify: Python's `str.lower()` is modelled by ASCII lower-casing (`Text.ToLowerAscii`). For this test the two agree: no non-ASCII character lower-cases to a letter of `terms acceptance`. The lower-cased text itself is not modelled beyond ASCII.
- Sessions.Shown: JavaScript measures `length` and `substring` in UTF-16 code units. The model counts characters, so titles with characters outside the Basic Multilingual Plane are cut at a different place.
- The endpoints `/`, `/api/history`, `/api/sessions`, `/api/switch-session` and `/health` are not part of this model; the memory-only session endpoints return fixed answers. Client start-up and reading API keys from the environment are left out too: clients are `Option` parameters.
- Playback: the TTS mode selector's `change` handler (static/js/app.js:52-65) is not modelled. It pauses the current audio, drops it and clears every `playing` class, but it does not re-enable the button. So it strands a button the same way as the click teardown in the second finding below.
- Renderer.Render: the contract promises no newline in the result, not that the result is empty or a run of `<p>…</p>` paragraphs. That shape is proved for the paragraph passes (`Paragraphs.TwoParagraphs`, `Paragraphs.BlankDropped`) and for whole messages of the kinds above, not for every text, because it needs every earlier pass shown never to produce `<p>` or `</p>`.
- Renderer.Render: JavaScript strings are sequences of UTF-16 code units, and the model's strings are sequences of characters. A character outside the Basic Multilingual Plane is one element here and two there. No pass looks for such characters, so only lengths differ.

## Findings

| source | as written | input that shows it | evidently intended | confidence | as-written member | corrected member |
|---|---|---|---|---|---|---|
| static/js/app.js:464-480 | the italic pass (line 464) runs before the `***` rule pass (line 480), so a `***` line has already become `<em>*</em>` and the rule never fires | the message `***` | a `***` line renders as `<hr>`, like `---` | not executed | Renderer.RenderStars | Renderer.RenderCorrectedStars |
| static/js/app.js:90-97 | the teardown of the current audio pauses it and removes `playing`, but never sets its button's `disabled` back to false; the `onended`/`onerror` handlers that would do so never fire for a paused sound | play message A, then click the speaker of message B while A is sounding: A's button stays disabled for the rest of the page's life | the superseded button is re-enabled, as after a normal end | not executed | Playback.SupersedeStrands | Playback.CorrectedRun |

=== FILE: code.dfy ===
/**
 * The two code passes of `formatMessage`, which run right after escaping:
 * fenced blocks (```` /```(\w+)?\n([\s\S]*?)```/g ````) and inline spans
 * (`` /`([^`]+)`/g ``).
 */
module Code {
  import opened Text
  import opened Rewrite

  const Fence: string := "```"

  /** Length of the maximal run of word characters at the front of `s`. */
  function WordRun(s: string): (n: nat)
    ensures n <= |s|
    ensures forall i :: 0 <= i < n ==> IsWordChar(s[i])
    ensures n < |s| ==> !IsWordChar(s[n])
    decreases |s|
  {
    if |s| > 0 && IsWordChar(s[0]) then 1 + WordRun(s[1..]) else 0
  }

  /** The opening tag of a rendered block: the class names the language only when there is one. */
  function CodeOpen(lang: string): string {
    if |lang| > 0 then "<pre><code class=\"language-" + lang + "\">" else "<pre><code>"
  }

  /** The element around already-trimmed content. */
  function CodeElement(lang: string, body: string): string {
    CodeOpen(lang) + body + "</code></pre>"
  }

  /** The HTML a fenced block becomes; its content is trimmed and otherwise kept. */
  function CodeBlock(lang: string, code: string): string {
    CodeElement(lang, Trim(code))
  }

  /**
   * Matcher of the fenced-block pattern. The optional language is the maximal
   * word run after the opening fence (a shorter one is followed by a word
   * character, not the newline the pattern needs); the content is lazy, so it
   * stops at the first closing fence.
   */
  function FenceAt(t: string): (m: Match)
    ensures m.Matched? ==> StartsWith(t, Fence) && 7 <= m.consumed <= |t|
    ensures !StartsWith(t, Fence) ==> m == NoMatch
  {
    if !StartsWith(t, Fence) then NoMatch
    else
      var j := 3 + WordRun(t[3..]);
      if j < |t| && t[j] == '\n' then FenceBody(t, j) else NoMatch
  }

  /** The lazy content after the newline that ends the opening fence line at `j`. */
  function FenceBody(t: string, j: nat): (m: Match)
    requires 3 <= j < |t|
    ensures m.Matched? ==> j + 4 <= m.consumed <= |t|
  {
    FenceClose(t, j, Find(t[j + 1..], Fence))
  }

  /** The block once the closing fence has been searched for: `r` is where it starts in the content. */
  function FenceClose(t: string, j: nat, r: Option<nat>): (m: Match)
    requires 3 <= j < |t|
    ensures m.Matched? ==> j + 4 <= m.consumed <= |t|
  {
    match r
    case None => NoMatch
    case Some(k) =>
      if j + 1 + k + 3 <= |t| then Matched(CodeBlock(t[3..j], t[j + 1..j + 1 + k]), j + 1 + k + 3) else NoMatch
  }

  /** The fenced-block pass. */
  function FencedBlocks(s: string): (r: string)
    ensures '`' !in s ==> r == s
  {
    if '`' !in s then
      assert forall k :: 0 <= k < |s| ==> !StartsWith(s[k..], Fence) by {
        forall k | 0 <= k < |s| ensures !StartsWith(s[k..], Fence) {
          assert s[k..][0] == s[k];
        }
      }
      ScanIdentity(s, FenceAt);
      Scan(s, FenceAt)
    else Scan(s, FenceAt)
  }

  /** Matcher of the inline-code pattern: a non-empty backtick-free span between two backticks. */
  function InlineCodeAt(t: string): (m: Match)
    ensures m.Matched? ==> |t| > 0 && t[0] == '`' && 3 <= m.consumed <= |t|
    ensures m.Matched? ==> m.replacement == "<code>" + t[1..m.consumed - 1] + "</code>"
    ensures m.Matched? ==> t[m.consumed - 1] == '`' && '`' !in t[1..m.consumed - 1]
  {
    if |t| == 0 || t[0] != '`' then NoMatch
    else
      var k := IndexOf(t[1..], '`');
      if 1 <= k < |t| - 1 then Matched("<code>" + t[1..1 + k] + "</code>", k + 2) else NoMatch
  }

  /** The inline-code pass. */
  function InlineCode(s: string): (r: string)
    ensures '`' !in s ==> r == s
  {
    if '`' !in s then
      assert forall k :: 0 <= k < |s| ==> InlineCodeAt(s[k..]).NoMatch? by {
        forall k | 0 <= k < |s| ensures InlineCodeAt(s[k..]).NoMatch? {
          assert s[k..][0] == s[k];
        }
      }
      ScanIdentity(s, InlineCodeAt);
      Scan(s, InlineCodeAt)
    else Scan(s, InlineCodeAt)
  }

  // ---------------------------------------------------------------------
  // Lemmas

  /**
   * A fenced block with an optional language word and content in which no
   * fence starts (single backticks are allowed) becomes one `<pre><code>` element holding the trimmed content; the class
   * attribute is there exactly when a language word follows the fence.
   */
  lemma FencedBlockRendered(lang: string, code: string, rest: string)
    requires forall i :: 0 <= i < |lang| ==> IsWordChar(lang[i])
    requires NoFenceIn(code)
    ensures FencedBlocks(Fence + lang + "\n" + code + Fence + rest)
         == CodeOpen(lang) + Trim(code) + "</code></pre>" + FencedBlocks(rest)
    ensures |lang| > 0 ==> CodeOpen(lang) == "<pre><code class=\"language-" + lang + "\">"
    ensures |lang| == 0 ==> CodeOpen(lang) == "<pre><code>"
  {
    var a := Fence + lang + "\n" + code + Fence;
    FenceAtBlock(lang, code, rest);
    ScanMatchedFront(a, rest, FenceAt, CodeBlock(lang, code));
  }

  lemma FenceAtBlock(lang: string, code: string, rest: string)
    requires forall i :: 0 <= i < |lang| ==> IsWordChar(lang[i])
    requires NoFenceIn(code)
    ensures FenceAt(Fence + lang + "\n" + code + Fence + rest)
         == Matched(CodeBlock(lang, code), |Fence + lang + "\n" + code + Fence|)
  {
    var t := Fence + lang + "\n" + code + Fence + rest;
    FenceLayoutOf(t, lang, code, rest);
    FenceAtFound(t, 3 + |lang|, lang, code);
  }

  /** Where the parts of a fenced block sit in the text `t`: the fence line ends at `j`. */
  predicate FenceLayout(t: string, j: nat, lang: string, code: string) {
    && 3 <= j < |t| && j + 1 + |code| <= |t|
    && StartsWith(t, Fence) && WordRun(t[3..]) == j - 3 && t[j] == '\n'
    && Find(t[j + 1..], Fence) == Some(|code|)
    && t[3..j] == lang && t[j + 1..j + 1 + |code|] == code
  }

  lemma FenceLayoutOf(t: string, lang: string, code: string, rest: string)
    requires t == Fence + lang + "\n" + code + Fence + rest
    requires forall i :: 0 <= i < |lang| ==> IsWordChar(lang[i])
    requires NoFenceIn(code)
    ensures FenceLayout(t, 3 + |lang|, lang, code)
  {
    FenceHead(t, lang, code, rest);
    FenceTail(t, lang, code, rest);
  }

  lemma FenceHead(t: string, lang: string, code: string, rest: string)
    requires t == Fence + lang + "\n" + code + Fence + rest
    requires forall i :: 0 <= i < |lang| ==> IsWordChar(lang[i])
    ensures 3 + |lang| < |t| && t[3 + |lang|] == '\n' && StartsWith(t, Fence)
    ensures WordRun(t[3..]) == |lang| && t[3..3 + |lang|] == lang
  {
    var u := lang + "\n" + code + Fence + rest;
    assert t == Fence + u;
    FenceOpening(t, u, lang);
  }

  lemma FenceTail(t: string, lang: string, code: string, rest: string)
    requires t == Fence + lang + "\n" + code + Fence + rest
    requires NoFenceIn(code)
    ensures 3 + |lang| + 1 + |code| <= |t| && Find(t[3 + |lang| + 1..], Fence) == Some(|code|)
    ensures t[3 + |lang| + 1..3 + |lang| + 1 + |code|] == code
  {
    var j := 3 + |lang|;
    assert t[j + 1..] == code + (Fence + rest);
    FenceClosing(t, j, code, Fence + rest);
  }

  /** The opening fence line of `Fence + u` ends after the language word `lang`. */
  lemma FenceOpening(t: string, u: string, lang: string)
    requires t == Fence + u && |u| > |lang| && u[..|lang|] == lang && u[|lang|] == '\n'
    requires forall i :: 0 <= i < |lang| ==> IsWordChar(lang[i])
    ensures 3 + |lang| < |t| && t[3 + |lang|] == '\n' && StartsWith(t, Fence)
    ensures WordRun(t[3..]) == |lang| && t[3..3 + |lang|] == lang
  {
    assert t[..3] == Fence && t[3..] == u;
    WordRunExact(u, lang);
  }

  /** Backtick-free content followed by a fence is found as the lazy content. */
  lemma FenceClosing(t: string, j: nat, code: string, tail: string)
    requires j + 1 <= |t| && t[j + 1..] == code + tail
    requires NoFenceIn(code) && StartsWith(tail, Fence)
    ensures j + 1 + |code| <= |t| && Find(t[j + 1..], Fence) == Some(|code|)
    ensures t[j + 1..j + 1 + |code|] == code
  {
    FindAfterNoFence(code, tail);
    assert t[j + 1..j + 1 + |code|] == t[j + 1..][..|code|];
  }

  /** The matcher's verdict once the fence line and the closing fence are located. */
  lemma FenceAtFound(t: string, j: nat, lang: string, code: string)
    requires FenceLayout(t, j, lang, code)
    ensures FenceAt(t) == Matched(CodeBlock(lang, code), j + 1 + |code| + 3)
  {
    assert FenceAt(t) == FenceBody(t, j) by {
      FenceAtLine(t, j);
    }
    assert FenceBody(t, j) == Matched(CodeBlock(lang, code), j + 1 + |code| + 3) by {
      FenceBodyFound(t, j, |code|, lang, code);
    }
  }

  /** Once the opening fence line ends at `j`, the matcher is the lazy body search. */
  lemma FenceAtLine(t: string, j: nat)
    requires 3 <= j < |t|
    requires StartsWith(t, Fence) && WordRun(t[3..]) == j - 3 && t[j] == '\n'
    ensures FenceAt(t) == FenceBody(t, j)
  {
  }

  lemma FenceBodyFound(t: string, j: nat, k: nat, lang: string, code: string)
    requires 3 <= j < |t| && j + 1 + k <= |t|
    requires Find(t[j + 1..], Fence) == Some(k)
    requires t[3..j] == lang && t[j + 1..j + 1 + k] == code
    ensures FenceBody(t, j) == Matched(CodeBlock(lang, code), j + 1 + k + 3)
  {
    FenceBodyAt(t, j, k);
  }

  lemma FenceBodyAt(t: string, j: nat, k: nat)
    requires 3 <= j < |t| && j + 1 + k <= |t|
    requires Find(t[j + 1..], Fence) == Some(k)
    ensures FenceBody(t, j) == Matched(CodeBlock(t[3..j], t[j + 1..j + 1 + k]), j + 1 + k + 3)
  {
    FenceBodyClose(t, j, k);
    FenceCloseSome(t, j, k);
  }

  lemma FenceBodyClose(t: string, j: nat, k: nat)
    requires 3 <= j < |t| && Find(t[j + 1..], Fence) == Some(k)
    ensures FenceBody(t, j) == FenceClose(t, j, Some(k))
  {
  }

  lemma FenceCloseSome(t: string, j: nat, k: nat)
    requires 3 <= j < |t| && j + 1 + k + 3 <= |t|
    ensures FenceClose(t, j, Some(k)) == Matched(CodeBlock(t[3..j], t[j + 1..j + 1 + k]), j + 1 + k + 3)
  {
  }

  lemma WordRunExact(u: string, w: string)
    requires StartsWith(u, w) && |u| > |w| && u[|w|] == '\n'
    requires forall i :: 0 <= i < |w| ==> IsWordChar(w[i])
    ensures WordRun(u) == |w|
  {
    assert forall i :: 0 <= i < |w| ==> u[i] == w[i];
  }

  /**
   * The lazy content ends at the first closing fence: content in which no
   * fence starts, even one completed by the closing fence's backticks.
   */
  predicate NoFenceIn(code: string) {
    !Contains(code + "``", Fence)
  }

  lemma {:induction false} FindAfterNoFence(code: string, tail: string)
    requires NoFenceIn(code) && StartsWith(tail, Fence)
    ensures Find(code + tail, Fence) == Some(|code|)
    decreases |code|
  {
    if |code| == 0 {
      assert code + tail == tail;
    } else {
      var s := code + tail;
      var c := code + "``";
      assert tail[..3] == Fence;
      forall i | 0 <= i < 3 ensures s[i] == c[i] {
        if i >= |code| {
          assert s[i] == tail[i - |code|] == Fence[i - |code|];
        }
      }
      assert s[..3] == c[..3];
      assert !StartsWith(s, Fence);
      assert s[1..] == code[1..] + tail;
      assert c[1..] == code[1..] + "``";
      FindAfterNoFence(code[1..], tail);
    }
  }

  /** Content without backticks holds no fence. */
  lemma {:induction false} TickFreeNoFence(code: string)
    requires '`' !in code
    ensures NoFenceIn(code)
    decreases |code|
  {
    var c := code + "``";
    if |code| == 0 {
      assert c == "``";
      assert !Contains(c[1..][1..], Fence);
    } else {
      assert c[0] == code[0];
      assert c[1..] == code[1..] + "``";
      TickFreeNoFence(code[1..]);
    }
  }

  lemma TrimExample()
    ensures Trim("const x=1;\n") == "const x=1;"
  {
    var s := "const x=1;\n";
    assert TrimStart(s) == s;
    assert s[..|s| - 1] == "const x=1;";
    assert TrimEnd("const x=1;") == "const x=1;";
  }

  /** The worked example: a `js` block keeps exactly its one line of content, under a `language-js` class. */
  lemma FencedExample()
    ensures FencedBlocks("```js\nconst x=1;\n```") == CodeElement("js", "const x=1;")
  {
    ExampleParts();
    TickFreeNoFence("const x=1;\n");
    FencedBlockRendered("js", "const x=1;\n", "");
    TrimExample();
    assert FencedBlocks("") == "";
    ElementOf("js", "const x=1;\n", "const x=1;", "");
  }

  /** The example's language word becomes the `language-js` class. */
  lemma JsClass()
    ensures CodeOpen("js") == "<pre><code class=\"language-js\">"
  {
  }

  lemma ExampleParts()
    ensures "```js\nconst x=1;\n```" == Fence + "js" + "\n" + "const x=1;\n" + Fence + ""
  {
  }

  lemma ElementOf(lang: string, code: string, body: string, rest: string)
    requires Trim(code) == body && FencedBlocks(rest) == ""
    ensures CodeOpen(lang) + Trim(code) + "</code></pre>" + FencedBlocks(rest) == CodeElement(lang, body)
  {
  }

  /** A backtick-free, non-empty span between backticks becomes one `<code>` element. */
  lemma InlineCodeRendered(x: string, rest: string)
    requires |x| > 0 && '`' !in x
    ensures InlineCode("`" + x + "`" + rest) == "<code>" + x + "</code>" + InlineCode(rest)
  {
    var a := "`" + x + "`";
    var t := a + rest;
    assert t[1..] == x + "`" + rest;
    assert t[1..][..|x|] == x;
    IndexOfPrefix(t[1..], x, '`');
    assert t[1..1 + |x|] == x;
    ScanMatchedFront(a, rest, InlineCodeAt, "<code>" + x + "</code>");
  }
}

=== FILE: entities.dfy ===
/**
 * The renderer's first pass (angle brackets to entities) and the speech
 * cleaner's entity restoration (`&lt;`, then `&gt;`, then `&amp;`), which
 * undoes it on text that holds no ampersand.
 */
module Entities {
  import opened Text

  /** The escape pass of `formatMessage`: every `<`, then every `>`, becomes an entity. */
  function Escape(s: string): (r: string)
    ensures '<' !in r && '>' !in r
    ensures '&' !in s ==> ('<' in s || '>' in s <==> '&' in r)
    ensures |r| >= |s|
  {
    EscapeIsCharwise(s);
    ReplaceAll(ReplaceAll(s, "<", "&lt;"), ">", "&gt;")
  }

  /**
   * The three entity restorations of the speech cleaner, in source order.
   * Every entity starts with `&`, so text without `&` is left alone.
   */
  function Unescape(s: string): (r: string)
    ensures '&' !in s ==> r == s
  {
    if '&' !in s then
      assert ReplaceAll(ReplaceAll(ReplaceAll(s, "&lt;", "<"), "&gt;", ">"), "&amp;", "&") == s by {
        ReplaceAllAbsent(s, "&lt;", "<");
        ReplaceAllAbsent(s, "&gt;", ">");
        ReplaceAllAbsent(s, "&amp;", "&");
      }
      ReplaceAll(ReplaceAll(ReplaceAll(s, "&lt;", "<"), "&gt;", ">"), "&amp;", "&")
    else ReplaceAll(ReplaceAll(ReplaceAll(s, "&lt;", "<"), "&gt;", ">"), "&amp;", "&")
  }

  /** Reference definition: each character escaped on its own. */
  function EscapeChar(c: char): string {
    if c == '<' then "&lt;" else if c == '>' then "&gt;" else [c]
  }

  function EscapeEach(s: string): (r: string)
    ensures '<' !in r && '>' !in r
    ensures '&' !in s ==> ('<' in s || '>' in s <==> '&' in r)
    ensures |r| >= |s|
    decreases |s|
  {
    if |s| == 0 then [] else EscapeChar(s[0]) + EscapeEach(s[1..])
  }

  /** Only `>` escaped: the intermediate text of the round trip. */
  function EscapeGt(s: string): string
    decreases |s|
  {
    if |s| == 0 then [] else (if s[0] == '>' then "&gt;" else [s[0]]) + EscapeGt(s[1..])
  }

  // ---------------------------------------------------------------------
  // Lemmas

  /** Replacing a one-character pattern distributes over concatenation. */
  lemma {:induction false} ReplaceCharAppend(a: string, b: string, c: char, rep: string)
    ensures ReplaceAll(a + b, [c], rep) == ReplaceAll(a, [c], rep) + ReplaceAll(b, [c], rep)
    decreases |a|
  {
    if |a| == 0 {
      assert a + b == b;
    } else {
      var ab := a + b;
      assert ab[1..] == a[1..] + b;
      ReplaceCharAppend(a[1..], b, c, rep);
      var head := if a[0] == c then rep else [a[0]];
      ReplaceCharStep(a, c, rep);
      ReplaceCharStep(ab, c, rep);
      AppendAssoc(head, ReplaceAll(a[1..], [c], rep), ReplaceAll(b, [c], rep));
    }
  }

  /** One step of a one-character replacement. */
  lemma ReplaceCharStep(s: string, c: char, rep: string)
    requires |s| > 0
    ensures ReplaceAll(s, [c], rep) == (if s[0] == c then rep else [s[0]]) + ReplaceAll(s[1..], [c], rep)
  {
    if s[0] == c {
      assert s[..1] == [c];
      ReplaceHit(s, [c], rep);
    } else {
      NotStartsAt(s, [c], 0);
      ReplaceMiss(s, [c], rep);
    }
  }

  /** The two global replacements of the escape pass equal escaping each character. */
  lemma {:induction false} EscapeIsCharwise(s: string)
    ensures ReplaceAll(ReplaceAll(s, "<", "&lt;"), ">", "&gt;") == EscapeEach(s)
    decreases |s|
  {
    if |s| > 0 {
      EscapeIsCharwise(s[1..]);
      EscapeStep(s);
    }
  }

  /** The first character of the text is escaped on its own. */
  lemma EscapeStep(s: string)
    requires |s| > 0
    ensures ReplaceAll(ReplaceAll(s, "<", "&lt;"), ">", "&gt;")
         == EscapeChar(s[0]) + ReplaceAll(ReplaceAll(s[1..], "<", "&lt;"), ">", "&gt;")
  {
    var tail := ReplaceAll(s[1..], "<", "&lt;");
    ReplaceCharStep(s, '<', "&lt;");
    if s[0] == '<' {
      ReplaceAllAppend("&lt;", tail, ">", "&gt;");
    } else {
      GtStep(s[0], tail);
    }
  }

  lemma GtStep(c: char, tail: string)
    ensures ReplaceAll([c] + tail, ">", "&gt;") == (if c == '>' then "&gt;" else [c]) + ReplaceAll(tail, ">", "&gt;")
  {
    var t := [c] + tail;
    assert t[0] == c && t[1..] == tail;
    ReplaceCharStep(t, '>', "&gt;");
  }

  /** Restoring `&lt;` undoes the escaping of `<`. */
  lemma {:induction false} RestoreLt(s: string)
    requires '&' !in s
    ensures ReplaceAll(EscapeEach(s), "&lt;", "<") == EscapeGt(s)
    decreases |s|
  {
    if |s| > 0 {
      RestoreLt(s[1..]);
      RestoreLtStep(s[0], EscapeEach(s[1..]));
    }
  }

  /** One escaped character in front of the rest, with `&lt;` restored. */
  lemma RestoreLtStep(c: char, rest: string)
    requires c != '&'
    ensures ReplaceAll(EscapeChar(c) + rest, "&lt;", "<")
         == (if c == '>' then "&gt;" else [c]) + ReplaceAll(rest, "&lt;", "<")
  {
    if c == '<' {
      RestoreLtHit(rest);
    } else if c == '>' {
      RestoreLtGt(rest);
    } else {
      RestoreLtOther(c, rest);
    }
  }

  lemma RestoreLtHit(rest: string)
    ensures ReplaceAll("&lt;" + rest, "&lt;", "<") == "<" + ReplaceAll(rest, "&lt;", "<")
  {
    PrefixOf("&lt;", rest);
    ReplaceHit("&lt;" + rest, "&lt;", "<");
  }

  lemma RestoreLtGt(rest: string)
    ensures ReplaceAll("&gt;" + rest, "&lt;", "<") == "&gt;" + ReplaceAll(rest, "&lt;", "<")
  {
    var t := "&gt;" + rest;
    NotStartsAt(t, "&lt;", 1);
    ReplaceMiss(t, "&lt;", "<");
    assert t[1..] == "gt;" + rest;
    ReplaceAllAppend("gt;", rest, "&lt;", "<");
    AppendAssoc("&", "gt;", ReplaceAll(rest, "&lt;", "<"));
  }

  lemma RestoreLtOther(c: char, rest: string)
    requires c != '&'
    ensures ReplaceAll([c] + rest, "&lt;", "<") == [c] + ReplaceAll(rest, "&lt;", "<")
  {
    var t := [c] + rest;
    NotStartsAt(t, "&lt;", 0);
    ReplaceMiss(t, "&lt;", "<");
    assert t[1..] == rest;
  }

  /** Restoring `&gt;` undoes the escaping of `>`. */
  lemma {:induction false} RestoreGt(s: string)
    requires '&' !in s
    ensures ReplaceAll(EscapeGt(s), "&gt;", ">") == s
    decreases |s|
  {
    if |s| > 0 {
      var rest := EscapeGt(s[1..]);
      RestoreGt(s[1..]);
      if s[0] == '>' {
        var t := "&gt;" + rest;
        assert StartsWith(t, "&gt;");
        assert t[4..] == rest;
      } else {
        var t := [s[0]] + rest;
        assert t[0] == s[0] && s[0] != '&';
        assert !StartsWith(t, "&gt;");
        assert t[1..] == rest;
      }
      assert s == [s[0]] + s[1..];
    }
  }

  /**
   * Round trip: on text without `&`, the speech cleaner's entity
   * restoration gives back exactly what the renderer escaped.
   */
  lemma UnescapeEscape(s: string)
    requires '&' !in s
    ensures Unescape(Escape(s)) == s
  {
    EscapeIsCharwise(s);
    RestoreLt(s);
    RestoreGt(s);
    ReplaceAllAbsent(s, "&amp;", "&");
  }

  /** `&amp;` is restored last, so a double-escaped entity ends as an entity. */
  lemma UnescapeOrder()
    ensures Unescape("&amp;lt;") == "&lt;"
  {
    assert "&amp;lt;" == "&amp;" + "lt;";
    UnescapeAmp("lt;");
    assert "&" + "lt;" == "&lt;";
  }

  /** `&amp;` in front of ampersand-free text is restored to `&` and nothing else changes. */
  lemma UnescapeAmp(e: string)
    requires '&' !in e
    ensures Unescape("&amp;" + e) == "&" + e
  {
    var s := "&amp;" + e;
    assert s[1..] == "amp;" + e;
    KeepAmp(s, "&lt;", "<");
    KeepAmp(s, "&gt;", ">");
    PrefixOf("&amp;", e);
    ReplaceHit(s, "&amp;", "&");
    ReplaceAllAbsent(e, "&amp;", "&");
  }

  /** An entity whose second character differs from the pattern's is kept, as is what follows without `&`. */
  lemma KeepAmp(x: string, pat: string, rep: string)
    requires |pat| > 1 && pat[0] == '&' && |x| > 1 && x[1] != pat[1] && '&' !in x[1..]
    ensures ReplaceAll(x, pat, rep) == x
  {
    NotStartsAt(x, pat, 1);
    ReplaceMiss(x, pat, rep);
    ReplaceAllAbsent(x[1..], pat, rep);
    assert x == [x[0]] + x[1..];
  }
}

=== FILE: gemini.dfy ===
/**
 * The response shaping of the Gemini client: the model list (filtered to
 * text-generating models, mapped to records, sorted by id, or a fixed list
 * when the SDK fails) and the mapping of a chat history onto Gemini's
 * history-plus-prompt form. The SDK's model objects are records; the SDK
 * call that sends the chat is a parameter.
 */
module Gemini {
  import opened Text

  /** A model object as the SDK lists it; a missing `supported_generation_methods` is the empty list. */
  datatype RawModel = RawModel(name: string, displayName: Option<string>, methods: seq<string>)

  /** One entry of the returned list. */
  datatype ModelInfo = ModelInfo(id: string, name: string, ownedBy: string, active: bool)

  /** A message of the chat history as the server passes it. */
  datatype Turn = Turn(role: string, content: string)

  /** A turn in Gemini's history: a role (`user` or `model`) and its parts. */
  datatype GeminiTurn = GeminiTurn(role: string, parts: seq<string>)

  /** What the SDK's `send_message` gives back, reduced to its text or the exception's text. */
  datatype Sent = Text(text: string) | Failure(error: string)

  /** What the client's `chat` returns or raises. */
  datatype Reply = Answer(text: string) | Raise(error: string)

  const Fallback: seq<ModelInfo> := [
    ModelInfo("gemini-2.0-flash-exp", "Gemini 2.0 Flash (exp)", "google", true),
    ModelInfo("gemini-1.5-flash", "Gemini 1.5 Flash", "google", true),
    ModelInfo("gemini-1.5-pro", "Gemini 1.5 Pro", "google", true)
  ]

  const ChatErrorPrefix: string := "Error getting Gemini chat response: "

  /** A model that can generate text: one of the three generation methods is listed. */
  predicate Generative(m: RawModel) {
    "generateContent" in m.methods || "createContent" in m.methods || "streamGenerateContent" in m.methods
  }

  /** `name.split("/")[-1] if name else name` */
  function IdOf(name: string): (id: string)
    ensures '/' !in id
    ensures |id| <= |name| && name[|name| - |id|..] == id
    ensures |id| == |name| || name[|name| - |id| - 1] == '/'
  {
    if name == "" then name
    else
      var parts := Split(name, '/');
      SplitLastSuffix(name, '/');
      parts[|parts| - 1]
  }

  function ToInfo(m: RawModel): (r: ModelInfo)
    ensures r.id == IdOf(m.name) && r.ownedBy == "google" && r.active
    ensures m.displayName.Some? && m.displayName.value != "" ==> r.name == m.displayName.value
    ensures (m.displayName.None? || m.displayName.value == "") ==> r.name == r.id
  {
    var id := IdOf(m.name);
    ModelInfo(id, if m.displayName.Some? && m.displayName.value != "" then m.displayName.value else id, "google", true)
  }

  /** The models kept: all of them, or only the generative ones. */
  function Keep(ms: seq<RawModel>, includeAll: bool): (r: seq<RawModel>)
    ensures forall i :: 0 <= i < |r| ==> includeAll || Generative(r[i])
    ensures multiset(r) <= multiset(ms)
    ensures forall m :: m in ms && (includeAll || Generative(m)) ==> m in r
    ensures forall m :: multiset(r)[m] == if includeAll || Generative(m) then multiset(ms)[m] else 0
    decreases |ms|
  {
    if |ms| == 0 then []
    else
      var rest := Keep(ms[1..], includeAll);
      var r := if includeAll || Generative(ms[0]) then [ms[0]] + rest else rest;
      KeepStep(ms, includeAll, rest, r);
      r
  }

  /** One step of the filter: the head is kept exactly when it passes, and the counts follow. */
  lemma KeepStep(ms: seq<RawModel>, includeAll: bool, rest: seq<RawModel>, r: seq<RawModel>)
    requires |ms| > 0
    requires forall m :: multiset(rest)[m] == if includeAll || Generative(m) then multiset(ms[1..])[m] else 0
    requires r == if includeAll || Generative(ms[0]) then [ms[0]] + rest else rest
    ensures forall i :: 0 <= i < |r| ==> includeAll || Generative(r[i])
    ensures multiset(r) <= multiset(ms)
    ensures forall m :: m in ms && (includeAll || Generative(m)) ==> m in r
    ensures forall m :: multiset(r)[m] == if includeAll || Generative(m) then multiset(ms)[m] else 0
  {
    assert ms == [ms[0]] + ms[1..];
    assert multiset(ms) == multiset{ms[0]} + multiset(ms[1..]);
    forall i | 0 <= i < |r| ensures includeAll || Generative(r[i]) {
      assert r[i] in multiset(r);
    }
    forall m | m in ms && (includeAll || Generative(m)) ensures m in r {
      assert m in multiset(ms);
      assert m in multiset(r);
    }
  }

  function Infos(ms: seq<RawModel>): (r: seq<ModelInfo>)
    ensures |r| == |ms|
    ensures forall i :: 0 <= i < |ms| ==> r[i] == ToInfo(ms[i])
  {
    seq(|ms|, i requires 0 <= i < |ms| => ToInfo(ms[i]))
  }

  /** Python's `<=` on strings: code point by code point, a prefix first. */
  predicate LexLe(a: string, b: string)
    decreases |a|
  {
    |a| == 0 || (|b| > 0 && (a[0] < b[0] || (a[0] == b[0] && LexLe(a[1..], b[1..]))))
  }

  predicate SortedById(r: seq<ModelInfo>) {
    forall i, j :: 0 <= i < j < |r| ==> LexLe(r[i].id, r[j].id)
  }

  /** Inserts `x` after every entry whose id is not greater, so that equal ids keep their order. */
  function Insert(x: ModelInfo, r: seq<ModelInfo>): (q: seq<ModelInfo>)
    requires SortedById(r)
    ensures SortedById(q)
    ensures multiset(q) == multiset(r) + multiset{x}
    decreases |r|
  {
    if |r| == 0 then [x]
    else if LexLe(r[0].id, x.id) then
      var rest := Insert(x, r[1..]);
      InsertHead(r, x, rest);
      [r[0]] + rest
    else
      LexTotal(r[0].id, x.id);
      LexBelow(x, r);
      [x] + r
  }

  /** `models.sort(key=lambda m: m["id"])`, as a stable insertion sort. */
  function SortById(xs: seq<ModelInfo>): (r: seq<ModelInfo>)
    ensures SortedById(r)
    ensures multiset(r) == multiset(xs)
    decreases |xs|
  {
    if |xs| == 0 then []
    else
      assert xs == xs[..|xs| - 1] + [xs[|xs| - 1]];
      Insert(xs[|xs| - 1], SortById(xs[..|xs| - 1]))
  }

  /** `list_models`: `listing` is what the SDK lists, or `None` when it raises. */
  function ListModels(listing: Option<seq<RawModel>>, includeAll: bool): (r: seq<ModelInfo>)
    ensures listing.None? ==> r == Fallback
    ensures listing.Some? ==> SortedById(r)
    ensures forall i :: 0 <= i < |r| ==> r[i].ownedBy == "google" && r[i].active
  {
    match listing
    case None => Fallback
    case Some(ms) =>
      var infos := Infos(Keep(ms, includeAll));
      SortedGoogle(infos);
      SortById(infos)
  }

  /** The role Gemini is given for a role of the chat history. */
  function GeminiRole(role: string): (g: string)
    ensures g == "model" || g == "user"
    ensures g == "model" <==> role == "assistant"
  {
    if role == "assistant" then "model" else "user"
  }

  /** The history sent with the chat: every message but the last, one part each. */
  function History(messages: seq<Turn>): (h: seq<GeminiTurn>)
    ensures |messages| == 0 ==> |h| == 0
    ensures |messages| > 0 ==> |h| == |messages| - 1
    ensures forall i :: 0 <= i < |h| ==> h[i] == GeminiTurn(GeminiRole(messages[i].role), [messages[i].content])
  {
    if |messages| == 0 then []
    else seq(|messages| - 1, i requires 0 <= i < |messages| - 1 => GeminiTurn(GeminiRole(messages[i].role), [messages[i].content]))
  }

  /** The prompt: the last message's content, whatever its role, or empty. */
  function Prompt(messages: seq<Turn>): (p: string)
    ensures |messages| > 0 ==> p == messages[|messages| - 1].content
    ensures |messages| == 0 ==> p == ""
  {
    if |messages| == 0 then "" else messages[|messages| - 1].content
  }

  /**
   * `chat`: the SDK call `send` gets the model, the history and the prompt;
   * its failure is re-raised with a prefix.
   */
  function Chat(messages: seq<Turn>, model: string, send: (string, seq<GeminiTurn>, string) -> Sent): (r: Reply)
    ensures var sent := send(model, History(messages), Prompt(messages));
      && (sent.Text? <==> r.Answer?)
      && (sent.Text? ==> r.text == sent.text)
      && (r.Raise? ==> StartsWith(r.error, ChatErrorPrefix) && r.error[|ChatErrorPrefix|..] == sent.error)
  {
    match send(model, History(messages), Prompt(messages))
    case Text(t) => Answer(t)
    case Failure(e) => Raise(ChatErrorPrefix + e)
  }

  /** Reads a history and a prompt back as messages, `lastRole` being the role the prompt had. */
  function Restore(h: seq<GeminiTurn>, prompt: string, lastRole: string): (m: seq<Turn>)
    requires forall i :: 0 <= i < |h| ==> |h[i].parts| == 1
    ensures |m| == |h| + 1
    ensures forall i :: 0 <= i < |h| ==> m[i].content == h[i].parts[0] && (m[i].role == "assistant" <==> h[i].role == "model")
    ensures m[|h|] == Turn(lastRole, prompt)
  {
    seq(|h|, i requires 0 <= i < |h| => Turn(if h[i].role == "model" then "assistant" else "user", h[i].parts[0]))
      + [Turn(lastRole, prompt)]
  }

  // ---------------------------------------------------------------------
  // Lemmas

  /** The id of a name is what follows its last `/`. */
  lemma IdAfterSlash(prefix: string, id: string)
    requires '/' !in id
    ensures IdOf(prefix + "/" + id) == id
  {
    var s := prefix + "/" + id;
    SplitLastSuffix(s, '/');
    assert s[|s| - |id| - 1] == '/';
  }

  lemma {:induction false} LexRefl(a: string)
    ensures LexLe(a, a)
    decreases |a|
  {
    if |a| > 0 {
      LexRefl(a[1..]);
    }
  }

  lemma {:induction false} LexTotal(a: string, b: string)
    ensures LexLe(a, b) || LexLe(b, a)
    decreases |a|
  {
    if |a| > 0 && |b| > 0 && a[0] == b[0] {
      LexTotal(a[1..], b[1..]);
    }
  }

  lemma {:induction false} LexTrans(a: string, b: string, c: string)
    requires LexLe(a, b) && LexLe(b, c)
    ensures LexLe(a, c)
    decreases |a|
  {
    if |a| > 0 && a[0] == b[0] && b[0] == c[0] {
      LexTrans(a[1..], b[1..], c[1..]);
    }
  }

  /** Placing `x` in front of a sorted list whose head is greater keeps it sorted. */
  lemma LexBelow(x: ModelInfo, r: seq<ModelInfo>)
    requires SortedById(r) && |r| > 0 && LexLe(x.id, r[0].id)
    ensures SortedById([x] + r)
    ensures multiset([x] + r) == multiset(r) + multiset{x}
  {
    var q := [x] + r;
    forall i, j | 0 <= i < j < |q| ensures LexLe(q[i].id, q[j].id) {
      if i == 0 && j > 1 {
        LexTrans(x.id, r[0].id, r[j - 1].id);
      }
    }
  }

  /** Keeping the head in front of the insertion into the tail keeps the list sorted. */
  lemma InsertHead(r: seq<ModelInfo>, x: ModelInfo, rest: seq<ModelInfo>)
    requires SortedById(r) && |r| > 0 && LexLe(r[0].id, x.id)
    requires SortedById(rest) && multiset(rest) == multiset(r[1..]) + multiset{x}
    ensures SortedById([r[0]] + rest)
    ensures multiset([r[0]] + rest) == multiset(r) + multiset{x}
  {
    var q := [r[0]] + rest;
    forall j | 1 <= j < |q| ensures LexLe(r[0].id, q[j].id) {
      assert q[j] in multiset(rest);
      if q[j] != x {
        assert q[j] in multiset(r[1..]);
        var k :| 0 <= k < |r[1..]| && r[1..][k] == q[j];
        assert r[k + 1] == q[j];
      }
    }
    assert r == [r[0]] + r[1..];
  }

  /** Sorting records that are all Google's and active keeps them so. */
  lemma SortedGoogle(infos: seq<ModelInfo>)
    requires forall i :: 0 <= i < |infos| ==> infos[i].ownedBy == "google" && infos[i].active
    ensures forall x :: x in SortById(infos) ==> x.ownedBy == "google" && x.active
  {
    var r := SortById(infos);
    forall x | x in r ensures x.ownedBy == "google" && x.active {
      assert x in multiset(r);
      assert x in multiset(infos);
    }
  }

  /** Every model the filter keeps is listed, under its id, and nothing else is. */
  lemma ListedExactly(ms: seq<RawModel>, includeAll: bool, m: RawModel)
    ensures ToInfo(m) in ListModels(Some(ms), includeAll) <== m in ms && (includeAll || Generative(m))
    ensures forall x :: x in ListModels(Some(ms), includeAll) ==>
      exists k :: 0 <= k < |ms| && (includeAll || Generative(ms[k])) && x == ToInfo(ms[k])
  {
    if m in ms && (includeAll || Generative(m)) {
      ListedIfKept(ms, includeAll, m);
    }
    ListedOnlyKept(ms, includeAll);
  }

  /** A model that passes the filter is listed. */
  lemma ListedIfKept(ms: seq<RawModel>, includeAll: bool, m: RawModel)
    requires m in ms && (includeAll || Generative(m))
    ensures ToInfo(m) in ListModels(Some(ms), includeAll)
  {
    var kept := Keep(ms, includeAll);
    var infos := Infos(kept);
    assert multiset(ListModels(Some(ms), includeAll)) == multiset(infos);
    var k :| 0 <= k < |kept| && kept[k] == m;
    assert infos[k] == ToInfo(m);
    assert ToInfo(m) in multiset(infos);
  }

  /** Every listed record comes from a model that passes the filter. */
  lemma ListedOnlyKept(ms: seq<RawModel>, includeAll: bool)
    ensures forall x :: x in ListModels(Some(ms), includeAll) ==>
      exists k :: 0 <= k < |ms| && (includeAll || Generative(ms[k])) && x == ToInfo(ms[k])
  {
    var kept := Keep(ms, includeAll);
    var infos := Infos(kept);
    var r := ListModels(Some(ms), includeAll);
    assert multiset(r) == multiset(infos);
    forall x | x in r ensures exists k :: 0 <= k < |ms| && (includeAll || Generative(ms[k])) && x == ToInfo(ms[k]) {
      assert x in multiset(infos);
      var i :| 0 <= i < |infos| && infos[i] == x;
      assert kept[i] in multiset(kept);
      assert kept[i] in multiset(ms);
      var k :| 0 <= k < |ms| && ms[k] == kept[i];
    }
  }

  /** With `include_all`, nothing is filtered: one record per listed model. */
  lemma IncludeAllKeepsCount(ms: seq<RawModel>)
    ensures |ListModels(Some(ms), true)| == |ms|
  {
    KeepAll(ms);
    var r := ListModels(Some(ms), true);
    assert |r| == |multiset(r)|;
  }

  lemma {:induction false} KeepAll(ms: seq<RawModel>)
    ensures Keep(ms, true) == ms
    decreases |ms|
  {
    if |ms| > 0 {
      KeepAll(ms[1..]);
      assert ms == [ms[0]] + ms[1..];
    }
  }

  /**
   * Round trip: the history and the prompt determine the messages, up to
   * the role of the last one and the normalisation of roles other than
   * `assistant` to `user`.
   */
  lemma ShapeRoundTrip(messages: seq<Turn>)
    requires |messages| > 0
    requires forall i :: 0 <= i < |messages| ==> messages[i].role in {"user", "assistant"}
    ensures Restore(History(messages), Prompt(messages), messages[|messages| - 1].role) == messages
  {
    var h := History(messages);
    var m := Restore(h, Prompt(messages), messages[|messages| - 1].role);
    forall i | 0 <= i < |messages| ensures m[i] == messages[i] {
      if i < |h| {
        assert h[i] == GeminiTurn(GeminiRole(messages[i].role), [messages[i].content]);
      }
    }
  }
}

=== FILE: inline.dfy ===
/**
 * The inline passes of `formatMessage` that run after headings: bold
 * (`**…**`, then `__…__`), italic (`*…*`, then `_…_`) and links
 * (`[caption](url)`). Each emphasis pattern has a lazy `(.+?)` body, so a span
 * is closed by the first delimiter that follows at least one character on
 * the same line.
 */
module Inline {
  import opened Text
  import opened Rewrite

  /** `u[..k]` can be the lazy body of a span whose closing delimiter `d` starts at `k`. */
  predicate ClosesAt(u: string, d: string, k: nat) {
    1 <= k && k + |d| <= |u| && NoLineTerminator(u[..k]) && StartsWith(u[k..], d)
  }

  /** The first closing position from `k` on; the search gives up at a line terminator. */
  function CloseFrom(u: string, d: string, k: nat): (r: Option<nat>)
    requires 1 <= k <= |u| + 1 && |d| > 0
    requires NoLineTerminator(u[..k - 1])
    ensures r.Some? ==> k <= r.value && r.value + |d| <= |u|
    decreases |u| + 1 - k
  {
    if k > |u| || IsLineTerminator(u[k - 1]) then None
    else
      assert u[..k] == u[..k - 1] + [u[k - 1]];
      if StartsWith(u[k..], d) then Some(k) else CloseFrom(u, d, k + 1)
  }

  /** Matcher of a lazy span between two copies of the delimiter `d`, rendered as element `name`. */
  function DelimAt(t: string, d: string, name: string): (m: Match)
    requires |d| > 0
    ensures m.Matched? ==> |t| > 0 && t[0] == d[0]
    ensures m.Matched? ==> StartsWith(t, d) && 2 * |d| + 1 <= m.consumed <= |t|
    ensures !StartsWith(t, d) ==> m == NoMatch
  {
    if !StartsWith(t, d) then NoMatch
    else DelimClose(t, d, name, CloseFrom(t[|d|..], d, 1))
  }

  /** The span whose body has length `k`, once the closing delimiter has been searched for. */
  function DelimClose(t: string, d: string, name: string, r: Option<nat>): (m: Match)
    ensures m.Matched? ==> 2 * |d| + 1 <= m.consumed <= |t|
  {
    match r
    case None => NoMatch
    case Some(k) =>
      if 1 <= k && |d| + k + |d| <= |t| then Matched(Tag(name, t[|d|..|d| + k]), |d| + k + |d|) else NoMatch
  }

  function BoldStarAt(t: string): Match { DelimAt(t, "**", "strong") }
  function BoldUnderAt(t: string): Match { DelimAt(t, "__", "strong") }
  function ItalicStarAt(t: string): Match { DelimAt(t, "*", "em") }
  function ItalicUnderAt(t: string): Match { DelimAt(t, "_", "em") }

  /** The two bold passes, `**` first. */
  function Bold(s: string): (r: string)
    ensures '*' !in s && '_' !in s ==> r == s
  {
    if '*' !in s && '_' !in s then
      assert forall t :: BoldStarAt(t).Matched? ==> |t| > 0 && t[0] == '*';
      assert forall t :: BoldUnderAt(t).Matched? ==> |t| > 0 && t[0] == '_';
      ScanWithout(s, BoldStarAt, '*');
      ScanWithout(s, BoldUnderAt, '_');
      s
    else Scan(Scan(s, BoldStarAt), BoldUnderAt)
  }

  /** The two italic passes, `*` first. */
  function Italic(s: string): (r: string)
    ensures '*' !in s && '_' !in s ==> r == s
  {
    if '*' !in s && '_' !in s then
      assert forall t :: ItalicStarAt(t).Matched? ==> |t| > 0 && t[0] == '*';
      assert forall t :: ItalicUnderAt(t).Matched? ==> |t| > 0 && t[0] == '_';
      ScanWithout(s, ItalicStarAt, '*');
      ScanWithout(s, ItalicUnderAt, '_');
      s
    else Scan(Scan(s, ItalicStarAt), ItalicUnderAt)
  }

  /** The anchor a link becomes: the URL is copied into `href` verbatim. */
  function Anchor(caption: string, url: string): string {
    "<a href=\"" + url + "\" target=\"_blank\" rel=\"noopener noreferrer\">" + caption + "</a>"
  }

  /**
   * Matcher of `[caption](url)`: the caption runs to the first `]` and the URL to
   * the first `)`; both are non-empty and may span lines.
   */
  function LinkAt(t: string): (m: Match)
    ensures m.Matched? ==> |t| > 0 && t[0] == '[' && 5 <= m.consumed <= |t|
  {
    if |t| == 0 || t[0] != '[' then NoMatch
    else LinkFrom(t, IndexOf(t[1..], ']'))
  }

  /** The rest of the link once its caption is known to end at `t[k + 1]`. */
  function LinkFrom(t: string, k: nat): (m: Match)
    ensures m.Matched? ==> 5 <= m.consumed <= |t|
  {
    if k == 0 || k + 3 > |t| - 1 || t[k + 2] != '(' then NoMatch
    else LinkClose(t, k, IndexOf(t[k + 3..], ')'))
  }

  /** The anchor once the URL is known to have length `n`. */
  function LinkClose(t: string, k: nat, n: nat): (m: Match)
    requires 1 <= k && k + 3 <= |t|
    ensures m.Matched? ==> 5 <= m.consumed <= |t|
  {
    if 1 <= n < |t| - (k + 3) then Matched(Anchor(t[1..1 + k], t[k + 3..k + 3 + n]), k + 3 + n + 1)
    else NoMatch
  }

  /** The link pass. */
  function Links(s: string): (r: string)
    ensures '[' !in s ==> r == s
  {
    if '[' !in s then
      ScanWithout(s, LinkAt, '[');
      Scan(s, LinkAt)
    else Scan(s, LinkAt)
  }

  // ---------------------------------------------------------------------
  // Lemmas

  /** `CloseFrom` finds the first closing position, and none only when there is none. */
  lemma {:induction false} CloseFromIsFirst(u: string, d: string, k: nat)
    requires 1 <= k <= |u| + 1 && |d| > 0
    requires NoLineTerminator(u[..k - 1])
    ensures CloseFrom(u, d, k).Some? ==> ClosesAt(u, d, CloseFrom(u, d, k).value)
    ensures CloseFrom(u, d, k).Some? ==> forall m :: k <= m < CloseFrom(u, d, k).value ==> !ClosesAt(u, d, m)
    ensures CloseFrom(u, d, k).None? ==> forall m :: k <= m ==> !ClosesAt(u, d, m)
    decreases |u| + 1 - k
  {
    if k <= |u| {
      if IsLineTerminator(u[k - 1]) {
        forall m | k <= m ensures !ClosesAt(u, d, m) {
          if m <= |u| {
            assert u[..m][k - 1] == u[k - 1];
          }
        }
      } else {
        assert u[..k] == u[..k - 1] + [u[k - 1]];
        if !StartsWith(u[k..], d) {
          CloseFromIsFirst(u, d, k + 1);
        }
      }
    }
  }

  /**
   * A match spans the opening delimiter, a lazy single-line body and the
   * first closing delimiter after it; there is no match only when no
   * closing delimiter follows on the same line.
   */
  lemma DelimAtCloses(t: string, d: string, name: string)
    requires |d| > 0
    ensures DelimAt(t, d, name).Matched? ==>
      var m := DelimAt(t, d, name);
      && ClosesAt(t[|d|..], d, m.consumed - 2 * |d|)
      && (forall j :: 1 <= j < m.consumed - 2 * |d| ==> !ClosesAt(t[|d|..], d, j))
      && m.replacement == Tag(name, t[|d|..m.consumed - |d|])
    ensures StartsWith(t, d) && DelimAt(t, d, name).NoMatch? ==> forall j :: 1 <= j ==> !ClosesAt(t[|d|..], d, j)
  {
    if StartsWith(t, d) {
      CloseFromIsFirst(t[|d|..], d, 1);
    }
  }

  /** When `n` is the first closing position from `k` on, `CloseFrom` returns it. */
  lemma {:induction false} CloseFromFinds(u: string, d: string, k: nat, n: nat)
    requires 1 <= k <= n && |d| > 0
    requires ClosesAt(u, d, n)
    requires NoLineTerminator(u[..k - 1])
    requires forall m :: k <= m < n ==> !ClosesAt(u, d, m)
    ensures CloseFrom(u, d, k) == Some(n)
    decreases n - k
  {
    assert u[..n][k - 1] == u[k - 1];
    assert u[..k] == u[..k - 1] + [u[k - 1]];
    if k < n {
      assert !ClosesAt(u, d, k);
      assert u[..k] == u[..n][..k];
      CloseFromFinds(u, d, k + 1, n);
    }
  }

  /**
   * A span with a non-empty, single-line body free of the delimiter's first
   * character is matched whole and becomes one element.
   */
  lemma DelimSpan(d: string, name: string, x: string, rest: string)
    requires |d| > 0 && |x| > 0
    requires NoLineTerminator(x) && d[0] !in x
    ensures DelimAt(d + x + d + rest, d, name) == Matched(Tag(name, x), |d + x + d|)
  {
    var t := d + x + d + rest;
    var u := x + d + rest;
    DelimParts(t, d, x, rest, u);
    BodyCloses(d, x, rest);
    CloseFromFinds(u, d, 1, |x|);
    DelimFound(t, d, name, |x|, x);
  }

  lemma DelimParts(t: string, d: string, x: string, rest: string, u: string)
    requires t == d + x + d + rest && u == x + d + rest
    ensures StartsWith(t, d) && t[|d|..] == u && |d| + |x| <= |t| && t[|d|..|d| + |x|] == x
  {
    assert t == d + u;
    assert t[..|d|] == d && t[|d|..] == u;
    assert u[..|x|] == x;
  }

  /** The matcher's verdict once the closing delimiter is located. */
  lemma DelimFound(t: string, d: string, name: string, k: nat, x: string)
    requires |d| > 0 && StartsWith(t, d) && |d| + k <= |t|
    requires CloseFrom(t[|d|..], d, 1) == Some(k) && t[|d|..|d| + k] == x
    ensures DelimAt(t, d, name) == Matched(Tag(name, x), |d| + k + |d|)
  {
    DelimAtClose(t, d, name, k);
    DelimCloseSome(t, d, name, k);
  }

  lemma DelimAtClose(t: string, d: string, name: string, k: nat)
    requires |d| > 0 && StartsWith(t, d) && |d| + k <= |t|
    requires CloseFrom(t[|d|..], d, 1) == Some(k)
    ensures DelimAt(t, d, name) == DelimClose(t, d, name, Some(k))
  {
  }

  lemma DelimCloseSome(t: string, d: string, name: string, k: nat)
    requires |d| > 0 && 1 <= k && |d| + k + |d| <= |t|
    ensures DelimClose(t, d, name, Some(k)) == Matched(Tag(name, t[|d|..|d| + k]), |d| + k + |d|)
  {
  }

  /** The delimiter right after a body free of its first character is the first close. */
  lemma BodyCloses(d: string, x: string, rest: string)
    requires |d| > 0 && |x| > 0
    requires NoLineTerminator(x) && d[0] !in x
    ensures ClosesAt(x + d + rest, d, |x|)
    ensures forall m :: 1 <= m < |x| ==> !ClosesAt(x + d + rest, d, m)
  {
    var u := x + d + rest;
    assert u[..|x|] == x && u[|x|..][..|d|] == d;
    forall m | 1 <= m < |x| ensures !ClosesAt(u, d, m) {
      assert u[m..][0] == x[m];
    }
  }

  /** A span rendered by one scan, followed by the rest of the scan. */
  lemma DelimRendered(d: string, name: string, x: string, rest: string, at: string -> Match)
    requires |d| > 0 && |x| > 0
    requires NoLineTerminator(x) && d[0] !in x
    requires forall t :: at(t) == DelimAt(t, d, name)
    ensures Scan(d + x + d + rest, at) == Tag(name, x) + Scan(rest, at)
  {
    DelimSpan(d, name, x, rest);
    ScanMatchedFront(d + x + d, rest, at, Tag(name, x));
  }

  /** `**x**` becomes `<strong>x</strong>` when `x` is one line without `*`. */
  lemma BoldRendered(x: string, rest: string)
    requires |x| > 0 && NoLineTerminator(x) && '*' !in x
    ensures Scan("**" + x + "**" + rest, BoldStarAt) == Tag("strong", x) + Scan(rest, BoldStarAt)
  {
    DelimRendered("**", "strong", x, rest, BoldStarAt);
  }

  /** `*x*` becomes `<em>x</em>` when `x` is one line without `*`. */
  lemma ItalicRendered(x: string, rest: string)
    requires |x| > 0 && NoLineTerminator(x) && '*' !in x
    ensures Scan("*" + x + "*" + rest, ItalicStarAt) == Tag("em", x) + Scan(rest, ItalicStarAt)
  {
    DelimRendered("*", "em", x, rest, ItalicStarAt);
  }

  /**
   * Bold runs before italic, so `**x**` ends as bold alone: the italic
   * passes find no delimiter left in `<strong>x</strong>`.
   */
  lemma BoldBeforeItalic(x: string)
    requires |x| > 0 && NoLineTerminator(x) && '*' !in x && '_' !in x
    ensures Italic(Bold("**" + x + "**")) == Tag("strong", x)
  {
    var b := Tag("strong", x);
    TagWithout("strong", x, '*');
    TagWithout("strong", x, '_');
    var s := "**" + x + "**";
    assert Scan(s, BoldStarAt) == b by {
      BoldRendered(x, "");
      assert s + "" == s;
      assert Scan("", BoldStarAt) == "";
    }
    assert Scan(b, BoldUnderAt) == b by {
      ScanWithout(b, BoldUnderAt, '_');
    }
    assert s[0] == '*';
    assert Bold(s) == Scan(Scan(s, BoldStarAt), BoldUnderAt);
  }

  /** A character absent from the tag name and the content is absent from the element. */
  lemma TagWithout(name: string, x: string, c: char)
    requires c !in name && c !in x && c != '<' && c != '>' && c != '/'
    ensures c !in Tag(name, x)
  {
  }

  /** A link becomes an anchor whose `href` is the URL exactly as written. */
  lemma LinkRendered(caption: string, url: string, rest: string)
    requires |caption| > 0 && ']' !in caption
    requires |url| > 0 && ')' !in url
    ensures Scan("[" + caption + "](" + url + ")" + rest, LinkAt) == Anchor(caption, url) + Scan(rest, LinkAt)
  {
    LinkAtFront(caption, url, rest);
    ScanMatchedFront("[" + caption + "](" + url + ")", rest, LinkAt, Anchor(caption, url));
  }

  lemma LinkAtFront(caption: string, url: string, rest: string)
    requires |caption| > 0 && ']' !in caption
    requires |url| > 0 && ')' !in url
    ensures LinkAt("[" + caption + "](" + url + ")" + rest)
         == Matched(Anchor(caption, url), |"[" + caption + "](" + url + ")"|)
  {
    var t := "[" + caption + "](" + url + ")" + rest;
    LinkCaption(t, caption, url, rest);
    LinkUrl(t, caption, url, rest);
    LinkAtLayout(t, |caption|, |url|, caption, url);
  }

  /** Where the parts of a link sit in `t`: the caption has length `k`, the URL length `n`. */
  predicate LinkLayout(t: string, k: nat, n: nat, caption: string, url: string) {
    && 1 <= k && 1 <= n && k + 3 + n + 1 <= |t|
    && IndexOf(t[1..], ']') == k && t[0] == '[' && t[k + 2] == '('
    && IndexOf(t[k + 3..], ')') == n
    && t[1..1 + k] == caption && t[k + 3..k + 3 + n] == url
  }

  lemma LinkAtLayout(t: string, k: nat, n: nat, caption: string, url: string)
    requires LinkLayout(t, k, n, caption, url)
    ensures LinkAt(t) == Matched(Anchor(caption, url), k + 3 + n + 1)
  {
    LinkAtFrom(t, k);
    LinkFromClose(t, k, n);
    LinkCloseFound(t, k, n);
  }

  lemma LinkAtFrom(t: string, k: nat)
    requires |t| > 0 && t[0] == '[' && IndexOf(t[1..], ']') == k
    ensures LinkAt(t) == LinkFrom(t, k)
  {
  }

  lemma LinkFromClose(t: string, k: nat, n: nat)
    requires 1 <= k && k + 3 <= |t| - 1 && t[k + 2] == '(' && IndexOf(t[k + 3..], ')') == n
    ensures LinkFrom(t, k) == LinkClose(t, k, n)
  {
  }

  lemma LinkCloseFound(t: string, k: nat, n: nat)
    requires 1 <= k && 1 <= n && k + 3 + n + 1 <= |t|
    ensures LinkClose(t, k, n) == Matched(Anchor(t[1..1 + k], t[k + 3..k + 3 + n]), k + 3 + n + 1)
  {
  }

  lemma LinkCaption(t: string, caption: string, url: string, rest: string)
    requires t == "[" + caption + "](" + url + ")" + rest && ']' !in caption
    ensures |caption| + 2 < |t| && t[0] == '[' && t[|caption| + 2] == '('
    ensures IndexOf(t[1..], ']') == |caption| && t[1..1 + |caption|] == caption
  {
    var u := caption + "](" + url + ")" + rest;
    assert t == "[" + u && t[1..] == u;
    assert u[..|caption|] == caption && u[|caption|] == ']';
    IndexOfPrefix(u, caption, ']');
  }

  lemma LinkUrl(t: string, caption: string, url: string, rest: string)
    requires t == "[" + caption + "](" + url + ")" + rest && ')' !in url
    ensures |caption| + 3 + |url| < |t|
    ensures IndexOf(t[|caption| + 3..], ')') == |url| && t[|caption| + 3..|caption| + 3 + |url|] == url
  {
    var v := url + ")" + rest;
    assert t[|caption| + 3..] == v;
    assert v[..|url|] == url && v[|url|] == ')';
    IndexOfPrefix(v, url, ')');
  }
}

=== FILE: lines.dfy ===
/**
 * The line-anchored passes of `formatMessage` (patterns `^…$` with the `gm`
 * flags): headings, list items, ordered items, horizontal rules and
 * blockquotes, each a function of one line; plus the unanchored pass that
 * wraps runs of `<li>` lines in one `<ul>`.
 */
module Lines {
  import opened Text
  import opened Rewrite

  // ---------------------------------------------------------------------
  // Headings: `### `, then `## `, then `# `

  function H3Line(l: string): string {
    if StartsWith(l, "### ") then Tag("h3", l[4..]) else l
  }

  function H2Line(l: string): string {
    if StartsWith(l, "## ") then Tag("h2", l[3..]) else l
  }

  function H1Line(l: string): string {
    if StartsWith(l, "# ") then Tag("h1", l[2..]) else l
  }

  /** The three heading passes in source order. Text without `#` holds no heading. */
  function Headings(s: string): (r: string)
    ensures '#' !in s ==> r == s
  {
    if '#' !in s then
      assert LineMap(LineMap(LineMap(s, H3Line), H2Line), H1Line) == s by {
        forall t | NoLineTerminator(t) && '#' !in t ensures H3Line(t) == t && H2Line(t) == t && H1Line(t) == t {
          NotStartsWithout(t, "### ");
          NotStartsWithout(t, "## ");
          NotStartsWithout(t, "# ");
        }
        LineMapIdentity(s, H3Line, '#');
        LineMapIdentity(s, H2Line, '#');
        LineMapIdentity(s, H1Line, '#');
      }
      LineMap(LineMap(LineMap(s, H3Line), H2Line), H1Line)
    else LineMap(LineMap(LineMap(s, H3Line), H2Line), H1Line)
  }

  /** Reference definition: the longest marker a line starts with decides its level. */
  function HeadingLine(l: string): (r: string)
    ensures (|l| == 0 || l[0] != '#') ==> r == l
  {
    if StartsWith(l, "### ") then Tag("h3", l[4..])
    else if StartsWith(l, "## ") then Tag("h2", l[3..])
    else if StartsWith(l, "# ") then Tag("h1", l[2..])
    else l
  }

  // ---------------------------------------------------------------------
  // Unordered items and the `<ul>` wrap

  /** `^\* (.+)$`: a line `* x` with a non-empty `x` becomes an item. */
  function StarItem(l: string): string {
    if StartsWith(l, "* ") && |l| > 2 then Tag("li", l[2..]) else l
  }

  /** `^- (.+)$`: a line `- x` with a non-empty `x` becomes an item. */
  function DashItem(l: string): string {
    if StartsWith(l, "- ") && |l| > 2 then Tag("li", l[2..]) else l
  }

  /** The two unordered-item passes in source order. Text without `*` and `-` holds no item. */
  function Items(s: string): (r: string)
    ensures '*' !in s && '-' !in s ==> r == s
  {
    if '*' !in s && '-' !in s then
      assert LineMap(LineMap(s, StarItem), DashItem) == s by {
        forall t | NoLineTerminator(t) && '*' !in t ensures StarItem(t) == t {
          NotStartsWithout(t, "* ");
        }
        forall t | NoLineTerminator(t) && '-' !in t ensures DashItem(t) == t {
          NotStartsWithout(t, "- ");
        }
        LineMapIdentity(s, StarItem, '*');
        LineMapIdentity(s, DashItem, '-');
      }
      LineMap(LineMap(s, StarItem), DashItem)
    else LineMap(LineMap(s, StarItem), DashItem)
  }

  /**
   * One iteration of `<li>.*<\/li>` at the front of `t`: the greedy `.*`
   * stops at the last `</li>` of the line. The result is the end of that
   * `</li>`.
   */
  function ItemEnd(t: string): (r: Option<nat>)
    ensures r.Some? ==> StartsWith(t, "<li>") && 9 <= r.value <= LineEnd(t)
  {
    var n := LineEnd(t);
    if !StartsWith(t, "<li>") || n < 9 then None
    else
      match LastFrom(t[..n], "</li>", n - 5)
      case None => None
      case Some(i) => if 4 <= i then Some(i + 5) else None
  }

  /**
   * Length of `(<li>.*<\/li>\n?)+` at the front of `t`, or 0. The repetition
   * continues only after a consumed newline: without one, the rest of the
   * line holds no further `</li>`, so another item cannot match there.
   */
  function ListRun(t: string): (n: nat)
    ensures n <= |t|
    ensures n > 0 <==> ItemEnd(t).Some?
    decreases |t|
  {
    match ItemEnd(t)
    case None => 0
    case Some(e) => if e < |t| && t[e] == '\n' then e + 1 + ListRun(t[e + 1..]) else e
  }

  /** Matcher of the wrap pass: the whole run goes inside one `<ul>`. */
  function WrapAt(t: string): (m: Match)
    ensures m.Matched? <==> ItemEnd(t).Some?
    ensures m.Matched? ==> m.consumed == ListRun(t) && m.replacement == Tag("ul", t[..m.consumed])
  {
    var n := ListRun(t);
    if n > 0 then Matched(Tag("ul", t[..n]), n) else NoMatch
  }

  /** The wrap pass. Every run starts with `<li>`, so text without `<` is left alone. */
  function WrapLists(s: string): (r: string)
    ensures '<' !in s ==> r == s
  {
    if '<' !in s then
      ScanWithout(s, WrapAt, '<');
      Scan(s, WrapAt)
    else Scan(s, WrapAt)
  }

  // ---------------------------------------------------------------------
  // Ordered items, horizontal rules, blockquotes

  /** Length of the maximal run of decimal digits at the front of `s`. */
  function DigitRun(s: string): (n: nat)
    ensures n <= |s|
    ensures forall i :: 0 <= i < n ==> IsDigit(s[i])
    ensures n < |s| ==> !IsDigit(s[n])
    decreases |s|
  {
    if |s| > 0 && IsDigit(s[0]) then 1 + DigitRun(s[1..]) else 0
  }

  /** `^\d+\. (.+)$`: a numbered line with a non-empty text becomes an item. */
  function OrderedItem(l: string): string {
    var n := DigitRun(l);
    if 1 <= n && StartsWith(l[n..], ". ") && |l| > n + 2 then Tag("li", l[n + 2..]) else l
  }

  /** The ordered-item pass. An item needs `. ` after its number, so text without `.` is left alone. */
  function Ordered(s: string): (r: string)
    ensures '.' !in s ==> r == s
  {
    if '.' !in s then
      assert LineMap(s, OrderedItem) == s by {
        forall t | NoLineTerminator(t) && '.' !in t ensures OrderedItem(t) == t {
          var n := DigitRun(t);
          assert '.' !in t[n..];
          NotStartsWithout(t[n..], ". ");
        }
        LineMapIdentity(s, OrderedItem, '.');
      }
      LineMap(s, OrderedItem)
    else LineMap(s, OrderedItem)
  }

  /** `^---$`. */
  function DashRule(l: string): string {
    if l == "---" then "<hr>" else l
  }

  /** `^\*\*\*$`. */
  function StarRule(l: string): string {
    if l == "***" then "<hr>" else l
  }

  /** The two rule passes in source order. Text without `-` and `*` holds no rule. */
  function Rules(s: string): (r: string)
    ensures '-' !in s && '*' !in s ==> r == s
  {
    if '-' !in s && '*' !in s then
      assert LineMap(LineMap(s, DashRule), StarRule) == s by {
        forall t | NoLineTerminator(t) && '-' !in t ensures DashRule(t) == t {
          NotStartsWithout(t, "---");
        }
        forall t | NoLineTerminator(t) && '*' !in t ensures StarRule(t) == t {
          NotStartsWithout(t, "***");
        }
        LineMapIdentity(s, DashRule, '-');
        LineMapIdentity(s, StarRule, '*');
      }
      LineMap(LineMap(s, DashRule), StarRule)
    else LineMap(LineMap(s, DashRule), StarRule)
  }

  /** Reference definition: a line that is exactly `---` or `***` is a rule. */
  function RuleLine(l: string): string {
    if l == "---" || l == "***" then "<hr>" else l
  }

  /** `^&gt; (.+)$`: an escaped `> ` prefix with a non-empty text becomes a quotation. */
  function QuoteLine(l: string): (r: string)
    ensures r != l <==> StartsWith(l, "&gt; ") && |l| > 5
  {
    if StartsWith(l, "&gt; ") && |l| > 5 then Tag("blockquote", l[5..]) else l
  }

  /**
   * The blockquote pass. It runs after escaping, so only an escaped `>` can
   * open a quotation: text without `&` is left alone.
   */
  function Quotes(s: string): (r: string)
    ensures '&' !in s ==> r == s
  {
    if '&' !in s then
      assert LineMap(s, QuoteLine) == s by {
        forall t | NoLineTerminator(t) && '&' !in t ensures QuoteLine(t) == t {
          NotStartsWithout(t, "&gt; ");
        }
        LineMapIdentity(s, QuoteLine, '&');
      }
      LineMap(s, QuoteLine)
    else LineMap(s, QuoteLine)
  }

  // ---------------------------------------------------------------------
  // Lemmas

  /** An element around a single line is a single line. */
  lemma TagOneLine(name: string, x: string)
    requires NoLineTerminator(name) && NoLineTerminator(x)
    ensures NoLineTerminator(Tag(name, x))
  {
    var t := Tag(name, x);
    forall i | 0 <= i < |t| ensures !IsLineTerminator(t[i]) {
      if i > 0 && i < 1 + |name| {
        assert t[i] == name[i - 1];
      }
    }
  }

  lemma HeadingLinesStayLines()
    ensures forall t :: NoLineTerminator(t) ==> NoLineTerminator(H3Line(t))
    ensures forall t :: NoLineTerminator(t) ==> NoLineTerminator(H2Line(t))
  {
    forall t | NoLineTerminator(t) ensures NoLineTerminator(H3Line(t)) && NoLineTerminator(H2Line(t)) {
      if StartsWith(t, "### ") {
        TagOneLine("h3", t[4..]);
      }
      if StartsWith(t, "## ") {
        TagOneLine("h2", t[3..]);
      }
    }
  }

  /**
   * Heading precedence: the three passes together act on each line as the
   * reference definition does. A line rewritten by one pass starts with `<`,
   * so no later heading pass matches it.
   */
  lemma HeadingsPrecedence(s: string)
    ensures Headings(s) == LineMap(s, HeadingLine)
  {
    assert LineMap(LineMap(s, H3Line), H2Line) == LineMap(s, Then(H3Line, H2Line)) by {
      HeadingLinesStayLines();
      LineMapFuse(s, H3Line, H2Line);
    }
    assert LineMap(LineMap(s, Then(H3Line, H2Line)), H1Line) == LineMap(s, Then(Then(H3Line, H2Line), H1Line)) by {
      HeadingLinesStayLines();
      LineMapFuse(s, Then(H3Line, H2Line), H1Line);
    }
    forall t | NoLineTerminator(t) ensures Then(Then(H3Line, H2Line), H1Line)(t) == HeadingLine(t) {
      HeadingPassesOnLine(t);
    }
    LineMapCongruent(s, Then(Then(H3Line, H2Line), H1Line), HeadingLine);
  }

  /** On one line, the three passes in order give the reference result. */
  lemma HeadingPassesOnLine(t: string)
    ensures H1Line(H2Line(H3Line(t))) == HeadingLine(t)
  {
    if StartsWith(t, "### ") {
      var h := Tag("h3", t[4..]);
      assert h[0] == '<';
      assert H2Line(h) == h && H1Line(h) == h;
    } else if StartsWith(t, "## ") {
      var h := Tag("h2", t[3..]);
      assert h[0] == '<';
      assert H1Line(h) == h;
    }
  }

  /** A single `### X` line yields exactly `<h3>X</h3>`. */
  lemma H3Rendered(x: string)
    requires NoLineTerminator(x)
    ensures Headings("### " + x) == Tag("h3", x)
  {
    var l := "### " + x;
    assert l[..4] == "### " && l[4..] == x;
    HeadingsPrecedence(l);
    LineMapSingle(l, HeadingLine);
  }

  /** A run of item lines, each followed by a newline. */
  function ItemLines(xs: seq<string>): string
    decreases |xs|
  {
    if |xs| == 0 then [] else Tag("li", xs[0]) + "\n" + ItemLines(xs[1..])
  }

  /** An item line is matched whole: its own closing tag is the last one on the line. */
  lemma ItemEndLine(x: string, more: string)
    requires NoLineTerminator(x)
    ensures ItemEnd(Tag("li", x) + "\n" + more) == Some(|x| + 9)
  {
    var line := Tag("li", x);
    var t := line + "\n" + more;
    TagOneLine("li", x);
    assert t[..|line|] == line && t[|line|] == '\n';
    LineEndOf(t, |line|);
    var n := |line|;
    assert n == |x| + 9;
    assert t[..4] == "<li>";
    assert t[..n][n - 5..][..5] == "</li>";
  }

  /** Consecutive item lines form one run, stopping where the next line is no item. */
  lemma {:induction false} ListRunItems(xs: seq<string>, rest: string)
    requires forall i :: 0 <= i < |xs| ==> NoLineTerminator(xs[i])
    requires !StartsWith(rest, "<li>")
    ensures ListRun(ItemLines(xs) + rest) == |ItemLines(xs)|
    decreases |xs|
  {
    if |xs| == 0 {
      assert ItemLines(xs) + rest == rest;
    } else {
      var more := ItemLines(xs[1..]) + rest;
      assert ItemLines(xs) + rest == Tag("li", xs[0]) + "\n" + more by {
        Regroup(Tag("li", xs[0]) + "\n", ItemLines(xs[1..]), rest);
      }
      ListRunLine(xs[0], more);
      ListRunItems(xs[1..], rest);
    }
  }

  /** An item line and its line break join the run of what follows. */
  lemma ListRunLine(x: string, more: string)
    requires NoLineTerminator(x)
    ensures ListRun(Tag("li", x) + "\n" + more) == |x| + 10 + ListRun(more)
  {
    var t := Tag("li", x) + "\n" + more;
    ItemEndLine(x, more);
    var e := |x| + 9;
    assert t[e] == '\n' && t[e + 1..] == more;
  }

  /** Markdown bullet lines `m x`, one per marker `m` and text `x`, each followed by a newline. */
  function Bullets(ms: seq<char>, xs: seq<string>): string
    requires |ms| == |xs|
    decreases |xs|
  {
    if |xs| == 0 then [] else [ms[0]] + " " + xs[0] + "\n" + Bullets(ms[1..], xs[1..])
  }

  /** Every marker is `*` or `-`. */
  predicate BulletMarks(ms: seq<char>) {
    forall i :: 0 <= i < |ms| ==> ms[i] == '*' || ms[i] == '-'
  }

  /** Every item text is non-empty and on one line, as `(.+)` needs. */
  predicate ItemTexts(xs: seq<string>) {
    forall i :: 0 <= i < |xs| ==> |xs[i]| > 0 && NoLineTerminator(xs[i])
  }

  /** The two item passes, fused to one function per line. */
  function ItemLine(l: string): string {
    Then(StarItem, DashItem)(l)
  }

  /** A `* ` or `- ` line is turned into an item by exactly one of the two passes. */
  lemma BulletItem(m: char, x: string)
    requires (m == '*' || m == '-') && |x| > 0 && NoLineTerminator(x)
    ensures NoLineTerminator([m] + " " + x)
    ensures ItemLine([m] + " " + x) == Tag("li", x)
  {
    var l := [m] + " " + x;
    assert NoLineTerminator(l) by {
      forall i | 0 <= i < |l| ensures !IsLineTerminator(l[i]) {
        if i >= 2 {
          assert l[i] == x[i - 2];
        }
      }
    }
    assert l[..2] == [m, ' '] && l[2..] == x;
    if m == '*' {
      assert StarItem(l) == Tag("li", x);
      assert DashItem(Tag("li", x)) == Tag("li", x) by {
        NotStartsAt(Tag("li", x), "- ", 0);
      }
    } else {
      assert StarItem(l) == l by {
        NotStartsAt(l, "* ", 0);
      }
      assert DashItem(l) == Tag("li", x);
    }
  }

  /** The fused item pass over bullet lines gives the item lines, and the text after them is passed on. */
  lemma {:induction false} BulletLines(ms: seq<char>, xs: seq<string>, rest: string)
    requires |ms| == |xs| && BulletMarks(ms) && ItemTexts(xs)
    ensures LineMap(Bullets(ms, xs) + rest, ItemLine) == ItemLines(xs) + LineMap(rest, ItemLine)
    decreases |xs|
  {
    if |xs| == 0 {
      assert Bullets(ms, xs) + rest == rest;
    } else {
      var l := [ms[0]] + " " + xs[0];
      var tail := Bullets(ms[1..], xs[1..]) + rest;
      assert Bullets(ms, xs) + rest == l + ['\n'] + tail;
      BulletItem(ms[0], xs[0]);
      LineMapCons(l, '\n', tail, ItemLine);
      BulletLines(ms[1..], xs[1..], rest);
    }
  }

  /** The item passes equal the fused one. */
  lemma ItemsFused(s: string)
    ensures Items(s) == LineMap(s, ItemLine)
  {
    forall t | NoLineTerminator(t) ensures NoLineTerminator(StarItem(t)) {
      if StartsWith(t, "* ") && |t| > 2 {
        TagOneLine("li", t[2..]);
      }
    }
    LineMapFuse(s, StarItem, DashItem);
    LineMapCongruent(s, Then(StarItem, DashItem), ItemLine);
  }

  /** Lines starting with `* ` or `- ` and some text become `<li>` items, and the lines after them are passed on. */
  lemma ItemsRendered(ms: seq<char>, xs: seq<string>, rest: string)
    requires |ms| == |xs| && BulletMarks(ms) && ItemTexts(xs)
    ensures Items(Bullets(ms, xs) + rest) == ItemLines(xs) + Items(rest)
  {
    ItemsFused(Bullets(ms, xs) + rest);
    ItemsFused(rest);
    BulletLines(ms, xs, rest);
  }

  /** A text whose first character cannot start an item or a tag starts with no item after the item passes. */
  lemma ItemsHead(rest: string)
    requires |rest| == 0 || (rest[0] != '*' && rest[0] != '-' && rest[0] != '<')
    ensures !StartsWith(Items(rest), "<li>")
  {
    ItemsFused(rest);
    var r := LineMap(rest, ItemLine);
    assert |r| == 0 || r[0] != '<' by {
      LineMapHead(rest);
    }
    if |r| > 0 {
      NotStartsAt(r, "<li>", 0);
    }
  }

  /** A line whose first character starts neither item marker is kept by the item passes. */
  lemma PlainLineKept(line: string)
    requires |line| == 0 || (line[0] != '*' && line[0] != '-')
    ensures ItemLine(line) == line
  {
    if |line| > 0 {
      NotStartsAt(line, "* ", 0);
      NotStartsAt(line, "- ", 0);
    }
    assert StarItem(line) == line && DashItem(line) == line;
  }

  lemma LineMapHead(rest: string)
    requires |rest| == 0 || (rest[0] != '*' && rest[0] != '-' && rest[0] != '<')
    ensures var r := LineMap(rest, ItemLine); |r| == 0 || r[0] != '<'
  {
    var k := LineEnd(rest);
    var line := rest[..k];
    assert ItemLine(line) == line by {
      PlainLineKept(line);
    }
    if k < |rest| {
      var after := LineMap(rest[k + 1..], ItemLine);
      assert LineMap(rest, ItemLine) == line + [rest[k]] + after by {
        assert rest == line + [rest[k]] + rest[k + 1..];
        LineMapCons(line, rest[k], rest[k + 1..], ItemLine);
      }
      assert (line + [rest[k]] + after)[0] == rest[0];
    } else {
      assert line == rest;
      LineMapSingle(rest, ItemLine);
    }
  }

  /**
   * A maximal run of bullet lines becomes items wrapped in exactly one
   * `<ul>`, and the passes go on after the run.
   */
  lemma ListRendered(ms: seq<char>, xs: seq<string>, rest: string)
    requires |ms| == |xs| && |xs| > 0 && BulletMarks(ms) && ItemTexts(xs)
    requires |rest| == 0 || (rest[0] != '*' && rest[0] != '-' && rest[0] != '<')
    ensures WrapLists(Items(Bullets(ms, xs) + rest)) == Tag("ul", ItemLines(xs)) + WrapLists(Items(rest))
  {
    ItemsRendered(ms, xs, rest);
    ItemsHead(rest);
    WrapRun(xs, Items(rest));
  }

  /** Each maximal run of item lines is wrapped in exactly one `<ul>`. */
  lemma WrapRun(xs: seq<string>, rest: string)
    requires |xs| > 0
    requires forall i :: 0 <= i < |xs| ==> NoLineTerminator(xs[i])
    requires !StartsWith(rest, "<li>")
    ensures WrapLists(ItemLines(xs) + rest) == Tag("ul", ItemLines(xs)) + WrapLists(rest)
  {
    var a := ItemLines(xs);
    ListRunItems(xs, rest);
    assert (a + rest)[..|a|] == a;
    assert |a| > 0 by {
      assert a == Tag("li", xs[0]) + "\n" + ItemLines(xs[1..]);
    }
    ScanMatchedFront(a, rest, WrapAt, Tag("ul", a));
  }

  /**
   * A numbered line that follows a line holding no item is turned into an
   * item by the ordered pass, which runs after the wrap pass: the item is
   * not inside a `<ul>`.
   */
  lemma OrderedNotWrapped(p: string, x: string)
    requires NoLineTerminator(p) && '<' !in p && DigitRun(p) == 0
    requires |x| > 0 && NoLineTerminator(x) && '<' !in x
    ensures Ordered(WrapLists(p + "\n" + ("1. " + x))) == p + "\n" + Tag("li", x)
  {
    var l := "1. " + x;
    NoAngleJoin(p, l);
    WrapNoAngle(p + "\n" + l);
    OrderedTwoLines(p, l);
    NumberedItem(x);
  }

  lemma NoAngleJoin(p: string, l: string)
    requires '<' !in p && '<' !in l
    ensures '<' !in p + "\n" + l
  {
  }

  /** Text without `<` holds no item to wrap. */
  lemma WrapNoAngle(t: string)
    requires '<' !in t
    ensures WrapLists(t) == t
  {
    WrapStartsWithAngle();
    ScanWithout(t, WrapAt, '<');
  }

  /** The ordered pass on two lines treats each line on its own. */
  lemma OrderedTwoLines(p: string, l: string)
    requires NoLineTerminator(p) && NoLineTerminator(l)
    ensures Ordered(p + "\n" + l) == OrderedItem(p) + "\n" + OrderedItem(l)
  {
    assert p + "\n" + l == p + ['\n'] + l;
    LineMapCons(p, '\n', l, OrderedItem);
    LineMapSingle(l, OrderedItem);
  }

  /** A numbered line over plain text is one line without `<` and not an item. */
  lemma NumberedLine(x: string)
    requires NoLineTerminator(x) && '<' !in x
    ensures '<' !in "1. " + x && NoLineTerminator("1. " + x)
    ensures !StartsWith("1. " + x, "<li>")
  {
    var l := "1. " + x;
    forall i | 0 <= i < |l| ensures l[i] != '<' && !IsLineTerminator(l[i]) {
      if 3 <= i {
        assert l[i] == x[i - 3] && x[i - 3] in x;
      }
    }
    assert l[0] == '1';
  }

  /**
   * A numbered line right after a run of item lines stays text: the wrap
   * pass takes the run's last newline into the `<ul>`, so the number no
   * longer starts a line when the ordered pass runs.
   */
  lemma NumberedAfterItems(xs: seq<string>, x: string)
    requires |xs| > 0 && forall i :: 0 <= i < |xs| ==> NoLineTerminator(xs[i])
    requires NoLineTerminator(x) && '<' !in x
    ensures Ordered(WrapLists(ItemLines(xs) + ("1. " + x))) == Tag("ul", ItemLines(xs)) + ("1. " + x)
  {
    var l := "1. " + x;
    NumberedLine(x);
    var a := ItemLines(xs);
    var t := Tag("ul", a);
    WrapRun(xs, l);
    WrapNoAngle(l);
    assert WrapLists(a + l) == t + l;
    ItemLinesBreaks(xs);
    WrappedLineStarts(a, l);
    OrderedKeep(t + l);
  }

  /** No line of `y` starts with a digit. */
  predicate NoNumberedLine(y: string) {
    && (|y| > 0 ==> !IsDigit(y[0]))
    && forall i :: 0 <= i < |y| - 1 && IsLineTerminator(y[i]) ==> !IsDigit(y[i + 1])
  }

  /** Each line terminator of `s` ends `s` or is followed by `<`. */
  predicate BreaksBeforeAngle(s: string) {
    forall i :: 0 <= i < |s| && IsLineTerminator(s[i]) ==> i + 1 == |s| || s[i + 1] == '<'
  }

  /** In a wrapped run with text after its closing tag, every line starts with `<`. */
  lemma WrappedLineStarts(items: string, l: string)
    requires BreaksBeforeAngle(items) && NoLineTerminator(l)
    ensures NoNumberedLine(Tag("ul", items) + l)
  {
    var y := Tag("ul", items) + l;
    var n := |items|;
    assert |y| == n + 9 + |l|;
    assert y[0] == '<';
    forall i | 0 <= i < |y| - 1 && IsLineTerminator(y[i]) ensures !IsDigit(y[i + 1]) {
      if 4 <= i < 4 + n {
        assert y[i] == items[i - 4];
        if i + 1 < 4 + n {
          assert y[i + 1] == items[i - 3];
        }
      }
    }
  }

  /** Item lines break only before the next item. */
  lemma {:induction false} ItemLinesBreaks(xs: seq<string>)
    requires forall i :: 0 <= i < |xs| ==> NoLineTerminator(xs[i])
    ensures BreaksBeforeAngle(ItemLines(xs))
    decreases |xs|
  {
    if |xs| > 0 {
      var li := Tag("li", xs[0]);
      var w := ItemLines(xs[1..]);
      var z := ItemLines(xs);
      ItemLinesBreaks(xs[1..]);
      TagOneLine("li", xs[0]);
      assert z == li + "\n" + w;
      if |w| > 0 {
        assert w[0] == '<';
      }
      forall i | 0 <= i < |z| && IsLineTerminator(z[i]) ensures i + 1 == |z| || z[i + 1] == '<' {
        if i > |li| {
          assert z[i] == w[i - |li| - 1];
          if i + 1 < |z| {
            assert z[i + 1] == w[i - |li|];
          }
        } else if i == |li| && i + 1 < |z| {
          assert z[i + 1] == w[0];
        }
      }
    }
  }

  /** The ordered pass leaves text alone in which no line starts with a digit. */
  lemma {:induction false} OrderedKeep(y: string)
    requires NoNumberedLine(y)
    ensures Ordered(y) == y
    decreases |y|
  {
    var k := LineEnd(y);
    var line := y[..k];
    assert DigitRun(line) == 0 by {
      if |line| > 0 {
        assert line[0] == y[0];
      }
    }
    assert OrderedItem(line) == line;
    if k < |y| {
      var rest := y[k + 1..];
      assert NoNumberedLine(rest) by {
        forall i | 0 <= i < |rest| - 1 && IsLineTerminator(rest[i]) ensures !IsDigit(rest[i + 1]) {
          assert rest[i] == y[k + 1 + i] && rest[i + 1] == y[k + 2 + i];
        }
        if |rest| > 0 {
          assert rest[0] == y[k + 1];
        }
      }
      assert Ordered(rest) == rest by {
        OrderedKeep(rest);
      }
      assert y == line + [y[k]] + rest;
      assert Ordered(y) == line + [y[k]] + Ordered(rest) by {
        LineMapCons(line, y[k], rest, OrderedItem);
      }
    } else {
      LineMapSingle(y, OrderedItem);
    }
  }

  /**
   * An escaped `> ` line with some text becomes one quotation, the newline
   * after it stays, and the pass goes on with the next line.
   */
  lemma QuoteRendered(x: string, rest: string)
    requires |x| > 0 && NoLineTerminator(x)
    ensures Quotes("&gt; " + x + "\n" + rest) == Tag("blockquote", x) + "\n" + Quotes(rest)
  {
    var l := "&gt; " + x;
    assert NoLineTerminator(l) by {
      forall i | 0 <= i < |l| ensures !IsLineTerminator(l[i]) {
        if i >= 5 {
          assert l[i] == x[i - 5];
        }
      }
    }
    assert QuoteLine(l) == Tag("blockquote", x) by {
      PrefixOf("&gt; ", x);
    }
    LineMapCons(l, '\n', rest, QuoteLine);
    assert "&gt; " + x + "\n" + rest == l + ['\n'] + rest;
  }

  /** Rule precedence: the two rule passes act on each line as the reference definition does. */
  lemma RulesPrecedence(s: string)
    ensures Rules(s) == LineMap(s, RuleLine)
  {
    forall t | NoLineTerminator(t) ensures NoLineTerminator(DashRule(t)) {
      if t == "---" {
        assert DashRule(t) == "<hr>";
      }
    }
    LineMapFuse(s, DashRule, StarRule);
    forall t | NoLineTerminator(t) ensures Then(DashRule, StarRule)(t) == RuleLine(t) {
    }
    LineMapCongruent(s, Then(DashRule, StarRule), RuleLine);
  }


  /** Every match of the wrap pass starts at a `<`. */
  lemma WrapStartsWithAngle()
    ensures forall t :: WrapAt(t).Matched? ==> |t| > 0 && t[0] == '<'
  {
    forall t | WrapAt(t).Matched? ensures |t| > 0 && t[0] == '<' {
      ItemStartsWithAngle(t);
    }
  }

  /** Text in which no `<` is followed by `l` holds no item to wrap. */
  lemma WrapKeep(x: string)
    requires NoAngleBefore(x, 'l')
    ensures WrapLists(x) == x
  {
    forall k | 0 <= k < |x| ensures WrapAt(x[k..]).NoMatch? {
      ItemAt(x, k);
    }
    ScanIdentity(x, WrapAt);
  }

  /** What an item at a position says about the characters there. */
  lemma ItemAt(x: string, k: nat)
    requires k < |x|
    ensures ItemEnd(x[k..]).Some? ==> k + 1 < |x| && x[k] == '<' && x[k + 1] == 'l'
  {
    if ItemEnd(x[k..]).Some? {
      assert x[k..][..4] == "<li>";
      assert x[k] == x[k..][..4][0] && x[k + 1] == x[k..][..4][1];
    }
  }

  lemma ItemStartsWithAngle(t: string)
    requires ItemEnd(t).Some?
    ensures |t| > 0 && t[0] == '<'
  {
    assert StartsWith(t, "<li>");
    assert t[..4][0] == t[0];
  }

  lemma NumberedItem(x: string)
    requires |x| > 0
    ensures OrderedItem("1. " + x) == Tag("li", x)
  {
    var l := "1. " + x;
    assert l[1] == '.' && DigitRun(l[1..]) == 0;
    assert DigitRun(l) == 1;
    assert l[1..][..2] == ". " && l[3..] == x;
  }
}

=== FILE: paragraphs.dfy ===
/**
 * The last passes of `formatMessage`: a blank line separates paragraphs,
 * any other newline is a line break, the whole text is wrapped in one
 * paragraph, and paragraphs holding nothing but white space are dropped.
 */
module Paragraphs {
  import opened Text
  import opened Rewrite

  /** `\n\n` becomes a paragraph boundary, then every remaining `\n` a line break. */
  function Breaks(s: string): (r: string)
    ensures '\n' !in r
  {
    var paras := ReplaceAll(s, "\n\n", "</p><p>");
    ReplaceAllRemoves(paras, '\n', "<br>");
    ReplaceAll(paras, "\n", "<br>")
  }

  /**
   * Matcher of `<p>\s*<\/p>`. The run of white space is maximal: `</p>`
   * starts with `<`, which is not white space, so backtracking into the run
   * cannot help.
   */
  function EmptyParaAt(t: string): (m: Match)
    ensures m.Matched? <==> StartsWith(t, "<p>") && StartsWith(t[3 + SpaceRun(t[3..])..], "</p>")
    ensures m.Matched? ==> m.replacement == [] && 7 <= m.consumed <= |t|
  {
    if StartsWith(t, "<p>") then
      var k := SpaceRun(t[3..]);
      if StartsWith(t[3 + k..], "</p>") then Matched([], 3 + k + 4)
      else NoMatch
    else NoMatch
  }

  /** The paragraph passes in source order. */
  function Paragraphs(s: string): (r: string)
    ensures '\n' !in r
  {
    var wrapped := "<p>" + Breaks(s) + "</p>";
    ReplaceAllKeepsAbsent(wrapped, "<p></p>", [], '\n');
    var once := ReplaceAll(wrapped, "<p></p>", []);
    ScanKeepsAbsent(once, EmptyParaAt, '\n');
    Scan(once, EmptyParaAt)
  }

  /**
   * Every `<p>` in `t` is followed by something other than white space and
   * a closing tag, so neither cleanup pass can match there.
   */
  predicate Opened(t: string) {
    forall k :: 0 <= k < |t| ==> OpensWell(t, k)
  }

  /** A `<p>` at position `k` is followed by a character that is not white space and does not start `</`. */
  predicate OpensWell(t: string, k: nat)
    requires k < |t|
  {
    StartsWith(t[k..], "<p>") ==>
      k + 3 < |t| && !IsSpace(t[k + 3]) && (t[k + 3] == '<' ==> k + 4 < |t| && t[k + 4] != '/')
  }

  /**
   * Text that the paragraph passes keep as it is: one non-empty line that
   * does not start with white space or a closing tag, and in which no `<`
   * is followed by `p`.
   */
  predicate Kept(x: string) {
    && |x| > 0 && '\n' !in x && !IsSpace(x[0])
    && (x[0] == '<' ==> |x| > 1 && x[1] != '/')
    && NoAngleBefore(x, 'p')
  }

  /** Text that is safe inside a paragraph: one non-empty line without tags that does not start with white space. */
  predicate Inert(x: string) {
    |x| > 0 && !IsSpace(x[0]) && '\n' !in x && '<' !in x
  }

  // ---------------------------------------------------------------------
  // Lemmas

  /** A blank line between two lines closes one paragraph and opens the next. */
  lemma ParagraphBreak(a: string, b: string)
    requires '\n' !in a && '\n' !in b
    ensures Breaks(a + "\n\n" + b) == a + "</p><p>" + b
  {
    var s := a + "\n\n" + b;
    assert s == a + ("\n\n" + b);
    ReplaceAllAppend(a, "\n\n" + b, "\n\n", "</p><p>");
    PrefixOf("\n\n", b);
    ReplaceHit("\n\n" + b, "\n\n", "</p><p>");
    ReplaceAllAbsent(b, "\n\n", "</p><p>");
    var paras := a + "</p><p>" + b;
    assert ReplaceAll(s, "\n\n", "</p><p>") == a + ("</p><p>" + b) == paras;
    assert '\n' !in paras;
    ReplaceAllAbsent(paras, "\n", "<br>");
  }

  /** A single newline between two lines is a line break inside the paragraph. */
  lemma LineBreak(a: string, b: string)
    requires '\n' !in a && '\n' !in b
    ensures Breaks(a + "\n" + b) == a + "<br>" + b
  {
    var s := a + "\n" + b;
    assert s == a + ("\n" + b);
    ReplaceAllAppend(a, "\n" + b, "\n\n", "</p><p>");
    if |b| == 0 {
      assert "\n" + b == "\n";
    } else {
      NotStartsAt("\n" + b, "\n\n", 1);
      assert ("\n" + b)[1..] == b;
    }
    ReplaceAllAbsent(b, "\n\n", "</p><p>");
    assert ReplaceAll(s, "\n\n", "</p><p>") == a + ("\n" + b);
    ReplaceAllAppend(a, "\n" + b, "\n", "<br>");
    PrefixOf("\n", b);
    ReplaceHit("\n" + b, "\n", "<br>");
    ReplaceAllAbsent(b, "\n", "<br>");
  }

  /** Text without newlines passes the break passes unchanged. */
  lemma BreaksKeep(x: string)
    requires '\n' !in x
    ensures Breaks(x) == x
  {
    ReplaceAllAbsent(x, "\n\n", "</p><p>");
    ReplaceAllAbsent(x, "\n", "<br>");
  }

  /** Neither cleanup pass changes text whose paragraphs all hold something. */
  lemma CleanupKeeps(t: string)
    requires Opened(t)
    ensures Scan(ReplaceAll(t, "<p></p>", []), EmptyParaAt) == t
  {
    forall k | 0 <= k < |t| ensures !StartsWith(t[k..], "<p></p>") {
      PairOpens(t, k);
      assert OpensWell(t, k);
    }
    ReplaceAllNoHit(t, "<p></p>", []);
    forall k | 0 <= k < |t| ensures EmptyParaAt(t[k..]).NoMatch? {
      assert OpensWell(t, k);
      EmptyParaDeclines(t[k..]);
    }
    ScanIdentity(t, EmptyParaAt);
  }

  /** One paragraph of text that opens no paragraph of its own is wrapped and kept. */
  lemma ParagraphsKeep(x: string)
    requires Kept(x)
    ensures Paragraphs(x) == "<p>" + x + "</p>"
  {
    BreaksKeep(x);
    var t := "<p>" + x + "</p>";
    forall k | 0 <= k < |t| ensures OpensWell(t, k) {
      OpenAt(t, k);
      if k == 0 {
        assert t[3] == x[0];
        assert t[4] == if |x| > 1 then x[1] else '<';
      } else if k < 3 {
        assert t[k] == "<p>"[k];
      } else if k < 3 + |x| {
        assert t[k] == x[k - 3];
        assert t[k + 1] == if k - 3 + 1 < |x| then x[k - 3 + 1] else '<';
      } else if k == 3 + |x| {
        assert t[k + 1] == '/';
      } else {
        assert t[k] == "</p>"[k - 3 - |x|];
      }
    }
    CleanupKeeps(t);
  }

  /** Inert text is kept. */
  lemma InertKept(x: string)
    requires Inert(x)
    ensures Kept(x)
  {
  }

  /** An element whose name does not start with `p` or `/` is kept, provided it holds no tag. */
  lemma TagKept(name: string, inner: string)
    requires |name| > 0 && name[0] != 'p' && name[0] != '/'
    requires '<' !in name && '\n' !in name && '<' !in inner && '\n' !in inner
    ensures Kept(Tag(name, inner))
  {
    TagAngles(name, inner, 'p');
    var x := Tag(name, inner);
    assert x[0] == '<' && x[1] == name[0];
  }

  /** Two inert paragraphs separated by a blank line become two paragraphs. */
  lemma TwoParagraphs(a: string, b: string)
    requires Inert(a) && Inert(b)
    ensures Paragraphs(a + "\n\n" + b) == "<p>" + a + "</p><p>" + b + "</p>"
  {
    ParagraphBreak(a, b);
    var t := "<p>" + a + "</p><p>" + b + "</p>";
    assert "<p>" + (a + "</p><p>" + b) + "</p>" == t;
    var m := 3 + |a|;
    forall k | 0 <= k < |t| ensures OpensWell(t, k) {
      OpenAt(t, k);
      if k == 0 {
        assert t[3] == a[0];
      } else if k < 3 {
        assert t[k] == "<p>"[k];
      } else if k < m {
        assert t[k] == a[k - 3];
      } else if k == m {
        assert t[k + 1] == '/';
      } else if k < m + 4 {
        assert t[k] == "</p>"[k - m];
      } else if k == m + 4 {
        assert t[k + 3] == b[0];
      } else if k < m + 7 {
        assert t[k] == "<p>"[k - m - 4];
      } else if k < m + 7 + |b| {
        assert t[k] == b[k - m - 7];
      } else if k == m + 7 + |b| {
        assert t[k + 1] == '/';
      } else {
        assert t[k] == "</p>"[k - m - 7 - |b|];
      }
    }
    CleanupKeeps(t);
  }

  /** A paragraph of white space only disappears. */
  lemma BlankDropped(x: string)
    requires |x| > 0 && IsBlank(x) && '\n' !in x
    ensures Paragraphs(x) == []
  {
    BreaksKeep(x);
    var t := "<p>" + x + "</p>";
    forall k | 0 <= k < |t| ensures !StartsWith(t[k..], "<p></p>") {
      PairOpens(t, k);
      OpenAt(t, k);
      if k == 0 {
        assert t[3] == x[0];
      } else if k < 3 {
        assert t[k] == "<p>"[k];
      } else if k < 3 + |x| {
        assert t[k] == x[k - 3];
      } else if k == 3 + |x| {
        assert t[k + 1] == '/';
      } else {
        assert t[k] == "</p>"[k - 3 - |x|];
      }
    }
    ReplaceAllNoHit(t, "<p></p>", []);
    BlankMatch(x);
    ScanMatchedAt(t, EmptyParaAt, [], |t|);
  }

  /** The empty-paragraph matcher consumes a whole paragraph of white space. */
  lemma BlankMatch(x: string)
    requires IsBlank(x)
    ensures EmptyParaAt("<p>" + x + "</p>") == Matched([], |x| + 7)
  {
    var t := "<p>" + x + "</p>";
    PrefixOf("<p>", x + "</p>");
    assert t == "<p>" + (x + "</p>");
    SpaceRunOver(x, "</p>");
    assert t[3 + |x|..] == "</p>";
  }

  /** What `<p>` at a position says about the characters there. */
  lemma OpenAt(t: string, k: nat)
    requires k < |t|
    ensures StartsWith(t[k..], "<p>") ==> t[k] == '<' && k + 1 < |t| && t[k + 1] == 'p'
  {
    if StartsWith(t[k..], "<p>") {
      assert t[k..][..3] == "<p>";
      assert t[k] == t[k..][..3][0] && t[k + 1] == t[k..][..3][1];
    }
  }

  /** The empty-paragraph matcher declines where `<p>` is followed by neither blanks nor `</`. */
  lemma EmptyParaDeclines(u: string)
    requires StartsWith(u, "<p>") ==> 3 < |u| && !IsSpace(u[3]) && (u[3] == '<' ==> 4 < |u| && u[4] != '/')
    ensures EmptyParaAt(u).NoMatch?
  {
    if StartsWith(u, "<p>") {
      var v := u[3..];
      assert v[0] == u[3];
      assert SpaceRun(v) == 0;
      assert v[0..] == v;
      if v[0] == '<' {
        assert v[1] == u[4];
        NotStartsAt(v, "</p>", 1);
      } else {
        NotStartsAt(v, "</p>", 0);
      }
    }
  }

  /** An empty paragraph at a position is a `<p>` followed by `<`. */
  lemma PairOpens(t: string, k: nat)
    requires k < |t|
    ensures StartsWith(t[k..], "<p></p>") ==>
      StartsWith(t[k..], "<p>") && k + 4 < |t| && t[k + 3] == '<' && t[k + 4] == '/'
  {
    if StartsWith(t[k..], "<p></p>") {
      assert t[k..][..3] == t[k..][..7][..3];
      assert t[k + 3] == t[k..][..7][3] && t[k + 4] == t[k..][..7][4];
    }
  }

  /** A lone newline is a line break in a paragraph of its own, not an empty paragraph. */
  lemma LoneNewline()
    ensures Paragraphs("\n") == "<p><br></p>"
  {
    assert Breaks("\n") == "<br>";
    var t := "<p>" + "<br>" + "</p>";
    forall k | 0 <= k < |t| ensures OpensWell(t, k) {
      OpenAt(t, k);
      if k == 0 {
        assert t[3] == '<' && t[4] == 'b';
      } else if k < 3 {
        assert t[k] == "<p>"[k];
      } else if k == 3 {
        assert t[k + 1] == 'b';
      } else if k < 7 {
        assert t[k] == "<br>"[k - 3];
      } else if k == 7 {
        assert t[k + 1] == '/';
      } else {
        assert t[k] == "</p>"[k - 7];
      }
    }
    CleanupKeeps(t);
  }
}

=== FILE: playback.dfy ===
/**
 * The speaker buttons of the page client (`speakText`). A click stops the
 * sound that is currently held, marks the button playing and disabled, and
 * asks the server for speech; the answer, the start of playback and the end
 * of playback arrive later as separate events. The DOM, the fetch and the
 * audio element are replaced by the events below and by the effects each
 * step emits.
 *
 * The state holds more than the page does (`pending`, `sounding`, `urls`):
 * these record which answers and audio events can still arrive, so that
 * the environment is constrained to the events the browser can deliver.
 */
module Playback {
  import opened Text
  import SpeechText

  type ButtonId = nat
  type Url = nat

  /** An audio element created for a button from one object URL. */
  datatype Sound = Sound(owner: ButtonId, url: Url)

  datatype Notice = TermsNotice(error: string) | FailureNotice

  datatype Effect =
    | Pause(sound: Sound)
    | Request(button: ButtonId, text: string, model: string, voice: Option<string>)
    | Start(sound: Sound)
    | Show(notice: Notice)
    | Revoke(url: Url)

  datatype Event =
      /** A click on a speaker button; `mode` is the selected `model|voice` pair. */
    | Click(button: ButtonId, text: string, mode: string)
      /** The request failed: a non-ok answer, or the fetch itself threw (`termsRequired` false). */
    | Refused(button: ButtonId, termsRequired: bool, error: string)
      /** The audio arrived under a fresh object URL; `started` says whether `play()` resolved. */
    | Arrived(button: ButtonId, url: Url, started: bool)
      /**
       * The audio arrived under a fresh object URL but cannot be decoded: the
       * element's `error` handler runs before the rejection of `play()`
       * reaches the `catch`.
       */
    | Undecodable(button: ButtonId, url: Url)
    | Ended(sound: Sound)
    | Broke(sound: Sound)

  datatype State = State(
    playing: set<ButtonId>,
    disabled: set<ButtonId>,
    pending: set<ButtonId>,
    current: Option<Sound>,
    sounding: set<Sound>,
    urls: set<Url>,
    revoked: set<Url>)

  datatype Outcome = Outcome(state: State, effects: seq<Effect>)

  /** The teardown as written, or with the superseded button re-enabled. */
  datatype Variant = AsWritten | Corrected

  const Initial: State := State({}, {}, {}, None, {}, {}, {})

  /** `const [model, voice] = mode.split('|')`: a missing voice is left out of the request. */
  function ParseMode(mode: string): (r: (string, Option<string>))
    ensures '|' !in r.0
    ensures r.1.Some? ==> '|' !in r.1.value
    ensures r.1.None? <==> '|' !in mode
  {
    var parts := Split(mode, '|');
    SplitNone(mode, '|');
    (parts[0], if |parts| > 1 then Some(parts[1]) else None)
  }

  /** The notices of a failed request: the set-up notice first when terms must be accepted, then the failure alert. */
  function Notices(terms: bool, error: string): (r: seq<Effect>)
    ensures |r| > 0 && r[|r| - 1] == Show(FailureNotice)
    ensures |r| == 2 <==> terms
    ensures terms ==> r[0] == Show(TermsNotice(error))
    ensures forall i :: 0 <= i < |r| ==> r[i].Show?
  {
    if terms then [Show(TermsNotice(error)), Show(FailureNotice)] else [Show(FailureNotice)]
  }

  /** The events the browser can deliver in a state. */
  predicate Valid(st: State, e: Event) {
    match e
    case Click(_, _, _) => true
    case Refused(b, _, _) => b in st.pending
    case Arrived(b, url, _) => b in st.pending && url !in st.urls
    case Undecodable(b, url) => b in st.pending && url !in st.urls
    case Ended(s) => s in st.sounding
    case Broke(s) => s in st.sounding
  }

  /**
   * Stopping the held sound: only when there is one, it is paused and every
   * button loses `playing`. As written, no button is re-enabled.
   */
  function Teardown(st: State, v: Variant): (o: Outcome)
    ensures st.current.None? ==> o == Outcome(st, [])
    ensures st.current.Some? ==> o.effects == [Pause(st.current.value)]
    ensures o.state.playing == (if st.current.Some? then {} else st.playing)
    ensures o.state.current.None? && o.state.pending == st.pending
    ensures o.state.disabled <= st.disabled
  {
    match st.current
    case None => Outcome(st, [])
    case Some(s) =>
      var disabled := if v == Corrected then st.disabled - {s.owner} else st.disabled;
      Outcome(st.(playing := {}, current := None, sounding := st.sounding - {s}, disabled := disabled), [Pause(s)])
  }

  /** What the handlers attached to a sound do when it ends or fails. */
  function Finish(st: State, s: Sound): (o: Outcome)
    ensures s.owner !in o.state.playing && s.owner !in o.state.disabled
    ensures s !in o.state.sounding && s.url in o.state.revoked
    ensures o.state.current.None? && o.effects == [Revoke(s.url)]
  {
    var b := s.owner;
    Outcome(st.(playing := st.playing - {b}, disabled := st.disabled - {b}, current := None,
                sounding := st.sounding - {s}, revoked := st.revoked + {s.url}), [Revoke(s.url)])
  }

  /** One event. */
  function Step(st: State, e: Event, v: Variant): (o: Outcome)
    ensures e.Click? && e.button in st.disabled ==> o == Outcome(st, [])
    ensures st.urls <= o.state.urls && st.revoked <= o.state.revoked
    ensures o.state.pending <= st.pending + (if e.Click? then {e.button} else {})
    ensures e.Refused? ==>
      && e.button !in o.state.playing && e.button !in o.state.disabled && e.button !in o.state.pending
      && o.state.current == st.current && o.state.sounding == st.sounding
      && o.effects == Notices(e.termsRequired, e.error)
    ensures e.Arrived? ==> e.button !in o.state.pending && o.state.current == Some(Sound(e.button, e.url)) && e.url in o.state.urls
    ensures e.Arrived? && e.started ==> Sound(e.button, e.url) in o.state.sounding && o.effects == [Start(Sound(e.button, e.url))]
    ensures e.Arrived? && !e.started ==>
      && e.button !in o.state.playing && e.button !in o.state.disabled
      && o.state.sounding == st.sounding && o.state.revoked == st.revoked
      && o.effects == [Show(FailureNotice)]
    ensures e.Undecodable? ==>
      && e.button !in o.state.playing && e.button !in o.state.disabled && e.button !in o.state.pending
      && o.state.current.None? && o.state.sounding == st.sounding - {Sound(e.button, e.url)} && e.url in o.state.revoked
      && o.effects == [Revoke(e.url), Show(FailureNotice)]
    ensures (e.Ended? || e.Broke?) ==> o == Finish(st, e.sound)
  {
    match e
    case Click(b, text, mode) =>
      if b in st.disabled then Outcome(st, [])
      else
        var down := Teardown(st, v);
        var t := down.state;
        if b in t.playing then Outcome(t.(playing := t.playing - {b}), down.effects)
        else
          var (model, voice) := ParseMode(mode);
          Outcome(t.(playing := t.playing + {b}, disabled := t.disabled + {b}, pending := t.pending + {b}),
                  down.effects + [Request(b, SpeechText.Clean(text), model, voice)])
    case Refused(b, terms, error) =>
      Outcome(st.(playing := st.playing - {b}, disabled := st.disabled - {b}, pending := st.pending - {b}), Notices(terms, error))
    case Arrived(b, url, started) =>
      var s := Sound(b, url);
      var t := st.(pending := st.pending - {b}, urls := st.urls + {url}, current := Some(s));
      if started then Outcome(t.(sounding := t.sounding + {s}), [Start(s)])
      else Outcome(t.(playing := t.playing - {b}, disabled := t.disabled - {b}), [Show(FailureNotice)])
    case Undecodable(b, url) =>
      var s := Sound(b, url);
      var broke := Finish(st.(pending := st.pending - {b}, urls := st.urls + {url}, current := Some(s)), s);
      Outcome(broke.state, broke.effects + [Show(FailureNotice)])
    case Ended(s) => Finish(st, s)
    case Broke(s) => Finish(st, s)
  }

  /** The runs the browser can produce from a state. */
  function Run(st: State, events: seq<Event>, v: Variant): (r: State)
    decreases |events|
  {
    if |events| == 0 then st else Run(Step(st, events[0], v).state, events[1..], v)
  }

  predicate ValidRun(st: State, events: seq<Event>, v: Variant)
    decreases |events|
  {
    |events| == 0 || (Valid(st, events[0]) && ValidRun(Step(st, events[0], v).state, events[1..], v))
  }

  predicate HasSound(st: State, b: ButtonId) {
    exists s :: s in st.sounding && s.owner == b
  }

  /**
   * The invariant of both variants: a playing, pending or sounding button is
   * disabled, a button waiting for its answer has no sound, and a button has
   * at most one sound.
   */
  predicate Inv(st: State) {
    && st.playing <= st.disabled
    && st.pending <= st.disabled
    && (forall s :: s in st.sounding ==> s.owner in st.disabled && s.owner !in st.pending)
    && (forall s, s' :: s in st.sounding && s' in st.sounding && s.owner == s'.owner ==> s == s')
    && (st.current.Some? ==> st.current.value.owner !in st.pending)
    && (forall s :: s in st.sounding && st.current.Some? && s.owner == st.current.value.owner ==> s == st.current.value)
  }

  /** A button disabled with nothing left that could ever enable it again. */
  predicate Stuck(st: State, b: ButtonId) {
    b in st.disabled && b !in st.pending && !HasSound(st, b)
  }

  /** The corrected property: every disabled button waits for an answer or for its sound. */
  predicate NoneStuck(st: State) {
    forall b :: b in st.disabled ==> b in st.pending || HasSound(st, b)
  }

  // ---------------------------------------------------------------------
  // Lemmas

  lemma {:induction false} SplitNone(s: string, sep: char)
    ensures |Split(s, sep)| == 1 <==> sep !in s
    decreases |s|
  {
    var k := IndexOf(s, sep);
    if k < |s| {
      assert sep in s;
    }
  }

  /** The mode string is the model and the voice joined by `|`. */
  lemma ParseModeJoin(model: string, voice: string)
    requires '|' !in model && '|' !in voice
    ensures ParseMode(model + "|" + voice) == (model, Some(voice))
  {
    SplitJoin([model, voice], '|');
    JoinCons(model, [voice], '|');
    assert model + "|" + voice == model + ['|'] + voice;
  }

  /** Every step from an invariant state keeps the invariant. */
  lemma StepInv(st: State, e: Event, v: Variant)
    requires Inv(st) && Valid(st, e)
    ensures Inv(Step(st, e, v).state)
  {
    var o := Step(st, e, v);
    match e
    case Click(b, text, mode) =>
      if b !in st.disabled {
        TeardownInv(st, v);
        var t := Teardown(st, v).state;
        forall s | s in t.sounding ensures s.owner != b {
          assert s in st.sounding;
        }
      }
    case Refused(b, _, _) =>
      assert !HasSound(st, b);
    case Arrived(b, url, started) =>
      assert !HasSound(st, b);
    case Undecodable(b, url) =>
      assert !HasSound(st, b);
    case Ended(s) =>
    case Broke(s) =>
  }

  lemma TeardownInv(st: State, v: Variant)
    requires Inv(st)
    ensures Inv(Teardown(st, v).state)
    ensures Teardown(st, v).state.sounding <= st.sounding
  {
  }

  /** The invariant holds along every run from the initial state. */
  lemma {:induction false} RunInv(st: State, events: seq<Event>, v: Variant)
    requires Inv(st) && ValidRun(st, events, v)
    ensures Inv(Run(st, events, v))
    decreases |events|
  {
    if |events| > 0 {
      StepInv(st, events[0], v);
      RunInv(Step(st, events[0], v).state, events[1..], v);
    }
  }

  /**
   * The branch meant to stop the playing button's own sound is dead: a
   * button that is playing is disabled, and a disabled button takes no
   * click, so a click never takes that branch.
   */
  lemma StopBranchDead(st: State, b: ButtonId, text: string, mode: string, v: Variant)
    requires Inv(st) && b !in st.disabled
    ensures b !in Teardown(st, v).state.playing
    ensures |Step(st, Click(b, text, mode), v).effects| > 0
    ensures Step(st, Click(b, text, mode), v).effects[|Step(st, Click(b, text, mode), v).effects| - 1].Request?
  {
  }

  /** A click that is taken asks for the cleaned text with the parsed model and voice. */
  lemma ClickRequests(st: State, b: ButtonId, text: string, mode: string, v: Variant)
    requires Inv(st) && b !in st.disabled
    ensures var o := Step(st, Click(b, text, mode), v);
      && o.effects == Teardown(st, v).effects + [Request(b, SpeechText.Clean(text), ParseMode(mode).0, ParseMode(mode).1)]
      && SpeechText.Speakable(SpeechText.Clean(text))
      && b in o.state.playing && b in o.state.disabled && b in o.state.pending
      && o.state.current.None?
  {
  }

  /**
   * A click on another button while a sound is held pauses that sound first
   * and takes `playing` off its button, but, as written, leaves that button
   * disabled with nothing left to enable it.
   */
  lemma SupersedeStrands(st: State, b: ButtonId, text: string, mode: string)
    requires Inv(st) && b !in st.disabled
    requires st.current.Some? && st.current.value in st.sounding
    ensures var o := Step(st, Click(b, text, mode), AsWritten);
      && o.effects[0] == Pause(st.current.value)
      && Stuck(o.state, st.current.value.owner)
  {
    var s := st.current.value;
    var o := Step(st, Click(b, text, mode), AsWritten);
    assert s.owner in st.disabled && s.owner !in st.pending;
    assert s.owner != b;
    forall s' | s' in o.state.sounding ensures s'.owner != s.owner {
      assert s' in st.sounding && s' != s;
    }
  }

  /** Once stranded, a button stays disabled whatever the browser delivers next. */
  lemma StuckStays(st: State, e: Event, b: ButtonId)
    requires Inv(st) && Valid(st, e) && Stuck(st, b)
    ensures Stuck(Step(st, e, AsWritten).state, b)
  {
    var o := Step(st, e, AsWritten);
    match e
    case Click(c, text, mode) =>
      if c !in st.disabled {
        assert c != b;
        forall s | s in o.state.sounding ensures s.owner != b {
          assert s in st.sounding;
        }
      }
    case Refused(c, _, _) =>
    case Arrived(c, url, started) =>
      assert c != b;
      forall s | s in o.state.sounding ensures s.owner != b {
        assert s in st.sounding || s == Sound(c, url);
      }
    case Undecodable(c, url) =>
      assert c != b;
      assert o.state.sounding == st.sounding;
    case Ended(s) =>
      assert s.owner != b;
      forall s' | s' in o.state.sounding ensures s'.owner != b {
        assert s' in st.sounding;
      }
    case Broke(s) =>
      assert s.owner != b;
      forall s' | s' in o.state.sounding ensures s'.owner != b {
        assert s' in st.sounding;
      }
  }

  /** ... and so along every run. */
  lemma {:induction false} StuckForever(st: State, events: seq<Event>, b: ButtonId)
    requires Inv(st) && Stuck(st, b) && ValidRun(st, events, AsWritten)
    ensures b in Run(st, events, AsWritten).disabled
    decreases |events|
  {
    if |events| > 0 {
      StepInv(st, events[0], AsWritten);
      StuckStays(st, events[0], b);
      StuckForever(Step(st, events[0], AsWritten).state, events[1..], b);
    }
  }

  /** With the corrected teardown, every step keeps every disabled button waiting on something. */
  lemma CorrectedStep(st: State, e: Event)
    requires Inv(st) && NoneStuck(st) && Valid(st, e)
    ensures NoneStuck(Step(st, e, Corrected).state)
  {
    var o := Step(st, e, Corrected);
    forall c | c in o.state.disabled ensures c in o.state.pending || HasSound(o.state, c) {
      CorrectedKeeps(st, e, c);
    }
  }

  lemma CorrectedKeeps(st: State, e: Event, c: ButtonId)
    requires Inv(st) && NoneStuck(st) && Valid(st, e)
    requires c in Step(st, e, Corrected).state.disabled
    ensures c in Step(st, e, Corrected).state.pending || HasSound(Step(st, e, Corrected).state, c)
  {
    var o := Step(st, e, Corrected);
    match e
    case Click(b, text, mode) =>
      if b !in st.disabled && c != b {
        assert c in st.pending || HasSound(st, c);
        if c !in st.pending {
          var s :| s in st.sounding && s.owner == c;
          assert st.current.Some? ==> s != st.current.value;
          assert s in o.state.sounding;
        }
      }
    case Refused(b, _, _) =>
      KeepsOther(st, o.state, c);
    case Arrived(b, url, started) =>
      if c == b {
        assert started;
        assert Sound(b, url) in o.state.sounding;
      } else {
        KeepsOther(st, o.state, c);
      }
    case Undecodable(b, url) =>
      KeepsOther(st, o.state, c);
    case Ended(s) =>
      assert c != s.owner;
      if c !in st.pending {
        var s' :| s' in st.sounding && s'.owner == c;
        assert s' in o.state.sounding;
      }
    case Broke(s) =>
      assert c != s.owner;
      if c !in st.pending {
        var s' :| s' in st.sounding && s'.owner == c;
        assert s' in o.state.sounding;
      }
  }

  /** A step that keeps the sounds and every pending button but `c`'s state. */
  lemma KeepsOther(st: State, t: State, c: ButtonId)
    requires c in st.disabled && NoneStuck(st)
    requires st.sounding <= t.sounding
    requires c in st.pending ==> c in t.pending
    ensures c in t.pending || HasSound(t, c)
  {
    if c !in st.pending {
      var s :| s in st.sounding && s.owner == c;
      assert s in t.sounding;
    }
  }

  /** With the corrected teardown no button is ever stranded along a run. */
  lemma {:induction false} CorrectedRun(st: State, events: seq<Event>)
    requires Inv(st) && NoneStuck(st) && ValidRun(st, events, Corrected)
    ensures NoneStuck(Run(st, events, Corrected))
    decreases |events|
  {
    if |events| > 0 {
      StepInv(st, events[0], Corrected);
      CorrectedStep(st, events[0]);
      CorrectedRun(Step(st, events[0], Corrected).state, events[1..]);
    }
  }

  /**
   * Two clicks while nothing is held send two requests; when both answers
   * arrive both sounds play at once, the first one never paused.
   */
  lemma Overlap(a: ButtonId, b: ButtonId, u: Url, w: Url, x: string, y: string, mode: string, v: Variant)
    requires a != b && u != w
    ensures var events := [Click(a, x, mode), Click(b, y, mode), Arrived(a, u, true), Arrived(b, w, true)];
      && ValidRun(Initial, events, v)
      && Run(Initial, events, v).sounding == {Sound(a, u), Sound(b, w)}
  {
    var e1, e2, e3, e4 := Click(a, x, mode), Click(b, y, mode), Arrived(a, u, true), Arrived(b, w, true);
    var s1 := Step(Initial, e1, v).state;
    var s2 := Step(s1, e2, v).state;
    var s3 := Step(s2, e3, v).state;
    var s4 := Step(s3, e4, v).state;
    OverlapRequests(a, b, x, y, mode, v, s1, s2);
    OverlapArrivals(a, b, u, w, v, s2, s3, s4);
    RunFour(Initial, e1, e2, e3, e4, v, s1, s2, s3, s4);
  }

  /** Four valid events in a row make a valid run that ends where the last one leaves. */
  lemma RunFour(st: State, e1: Event, e2: Event, e3: Event, e4: Event, v: Variant, s1: State, s2: State, s3: State, s4: State)
    requires s1 == Step(st, e1, v).state && s2 == Step(s1, e2, v).state
    requires s3 == Step(s2, e3, v).state && s4 == Step(s3, e4, v).state
    requires Valid(st, e1) && Valid(s1, e2) && Valid(s2, e3) && Valid(s3, e4)
    ensures ValidRun(st, [e1, e2, e3, e4], v) && Run(st, [e1, e2, e3, e4], v) == s4
  {
    RunTwo(st, e1, e2, v, s1, s2);
    RunTwo(s2, e3, e4, v, s3, s4);
    RunAppend(st, [e1, e2], [e3, e4], v);
    assert [e1, e2] + [e3, e4] == [e1, e2, e3, e4];
  }

  /** Two valid events in a row make a valid run that ends where the second one leaves. */
  lemma RunTwo(st: State, e1: Event, e2: Event, v: Variant, s1: State, s2: State)
    requires s1 == Step(st, e1, v).state && s2 == Step(s1, e2, v).state
    requires Valid(st, e1) && Valid(s1, e2)
    ensures ValidRun(st, [e1, e2], v) && Run(st, [e1, e2], v) == s2
  {
    assert ValidRun(s1, [e2], v) && Run(s1, [e2], v) == s2 by {
      RunCons(s1, e2, [], v);
      assert [e2] + [] == [e2];
    }
    RunCons(st, e1, [e2], v);
    assert [e1] + [e2] == [e1, e2];
  }

  /** A run of `a + b` is the run of `a` followed by the run of `b` from where it ends. */
  lemma {:induction false} RunAppend(st: State, a: seq<Event>, b: seq<Event>, v: Variant)
    ensures Run(st, a + b, v) == Run(Run(st, a, v), b, v)
    ensures ValidRun(st, a + b, v) <==> ValidRun(st, a, v) && ValidRun(Run(st, a, v), b, v)
    decreases |a|
  {
    if |a| == 0 {
      assert a + b == b;
    } else {
      assert a + b == [a[0]] + (a[1..] + b);
      assert a == [a[0]] + a[1..];
      RunCons(st, a[0], a[1..] + b, v);
      RunCons(st, a[0], a[1..], v);
      RunAppend(Step(st, a[0], v).state, a[1..], b, v);
    }
  }

  /** The two clicks of the overlap: both buttons wait, nothing is held. */
  lemma OverlapRequests(a: ButtonId, b: ButtonId, x: string, y: string, mode: string, v: Variant, s1: State, s2: State)
    requires a != b
    requires s1 == Step(Initial, Click(a, x, mode), v).state && s2 == Step(s1, Click(b, y, mode), v).state
    ensures s2.pending == {a, b} && s2.current.None? && s2.urls == {} && s2.sounding == {}
    ensures Valid(Initial, Click(a, x, mode)) && Valid(s1, Click(b, y, mode))
  {
    assert s1.pending == {a} && s1.current.None? && s1.urls == {};
  }

  /** The two answers of the overlap: the second starts without pausing the first. */
  lemma OverlapArrivals(a: ButtonId, b: ButtonId, u: Url, w: Url, v: Variant, s2: State, s3: State, s4: State)
    requires a != b && u != w
    requires s2.pending == {a, b} && s2.current.None? && s2.urls == {} && s2.sounding == {}
    requires s3 == Step(s2, Arrived(a, u, true), v).state && s4 == Step(s3, Arrived(b, w, true), v).state
    ensures Valid(s2, Arrived(a, u, true)) && Valid(s3, Arrived(b, w, true))
    ensures s4.sounding == {Sound(a, u), Sound(b, w)}
  {
    assert s3.pending == {b} && s3.sounding == {Sound(a, u)} && s3.urls == {u};
  }

  /** Unfolding a run by its first event. */
  lemma RunCons(st: State, e: Event, rest: seq<Event>, v: Variant)
    ensures Run(st, [e] + rest, v) == Run(Step(st, e, v).state, rest, v)
    ensures ValidRun(st, [e] + rest, v) <==> Valid(st, e) && ValidRun(Step(st, e, v).state, rest, v)
  {
    assert ([e] + rest)[1..] == rest;
  }

  /** A sound that is paused by a later click never has its object URL revoked by this code. */
  lemma PausedUrlKept(st: State, b: ButtonId, text: string, mode: string, v: Variant)
    requires Inv(st) && b !in st.disabled
    requires st.current.Some? && st.current.value in st.sounding
    ensures var o := Step(st, Click(b, text, mode), v);
      && st.current.value !in o.state.sounding
      && o.state.revoked == st.revoked
  {
  }
}

=== FILE: reactplayback.dfy ===
/**
 * The speaker buttons of the component client (`handleSpeak`). Two pieces of
 * component state replace the page's DOM classes: the audio being held and
 * the message whose button is highlighted. There is no disabled state. The
 * handler reads both pieces of state as they were when the click was
 * delivered, so the stop test looks at the highlight from before the pause.
 *
 * Messages are identified by their index; sounds, effects, notices and the
 * `model|voice` parsing are those of the page client.
 */
module ReactPlayback {
  import opened Text
  import SpeechText
  import P = Playback

  type MessageId = nat

  datatype Event =
    | Click(message: MessageId, content: string, mode: string)
    | Refused(message: MessageId, termsRequired: bool, error: string)
    | Arrived(message: MessageId, url: P.Url, started: bool)
      /** The audio cannot be decoded: `onerror` runs before the rejection of `play()` reaches the `catch`. */
    | Undecodable(message: MessageId, url: P.Url)
    | Ended(sound: P.Sound)
    | Broke(sound: P.Sound)

  /**
   * `audio` and `highlight` are the component state; `pending` (one entry per
   * outstanding request), `sounding` and `urls` constrain what can happen next.
   */
  datatype State = State(
    audio: Option<P.Sound>,
    highlight: Option<MessageId>,
    pending: multiset<MessageId>,
    sounding: set<P.Sound>,
    urls: set<P.Url>,
    revoked: set<P.Url>)

  datatype Outcome = Outcome(state: State, effects: seq<P.Effect>)

  const Initial: State := State(None, None, multiset{}, {}, {}, {})

  predicate Valid(st: State, e: Event) {
    match e
    case Click(_, _, _) => true
    case Refused(m, _, _) => m in st.pending
    case Arrived(m, url, _) => m in st.pending && url !in st.urls
    case Undecodable(m, url) => m in st.pending && url !in st.urls
    case Ended(s) => s in st.sounding
    case Broke(s) => s in st.sounding
  }

  /**
   * Object URLs are revoked only once created, and the audio held or
   * sounding never plays from a revoked URL; each URL belongs to one sound.
   */
  predicate Inv(st: State) {
    && st.revoked <= st.urls
    && (st.audio.Some? ==> st.audio.value.url in st.urls && st.audio.value.url !in st.revoked)
    && (forall s :: s in st.sounding ==> s.url in st.urls && s.url !in st.revoked)
    && (forall s, s' :: s in st.sounding && s' in st.sounding && s.url == s'.url ==> s == s')
  }

  function Step(st: State, e: Event): (o: Outcome)
    ensures st.urls <= o.state.urls && st.revoked <= o.state.revoked
    ensures e.Click? && st.audio.Some? ==> |o.effects| > 0 && o.effects[0] == P.Pause(st.audio.value) && o.state.audio.None?
    ensures e.Click? && st.highlight != Some(e.message) ==> o.state.highlight == Some(e.message)
    ensures e.Click? && st.highlight == Some(e.message) ==> o.state.pending == st.pending
    ensures e.Refused? ==>
      && o.state.highlight.None? && o.state.audio == st.audio && o.state.sounding == st.sounding
      && o.state.pending == st.pending - multiset{e.message}
      && o.effects == P.Notices(e.termsRequired, e.error)
    ensures e.Arrived? ==> o.state.audio == Some(P.Sound(e.message, e.url)) && o.state.revoked == st.revoked
    ensures e.Arrived? && e.started ==> P.Sound(e.message, e.url) in o.state.sounding && o.effects == [P.Start(P.Sound(e.message, e.url))]
    ensures e.Arrived? && !e.started ==> o.state.highlight.None? && o.effects == [P.Show(P.FailureNotice)]
    ensures e.Undecodable? ==>
      && o.state.audio.None? && o.state.highlight.None? && e.url in o.state.revoked
      && o.effects == [P.Revoke(e.url), P.Show(P.FailureNotice)]
    ensures (e.Ended? || e.Broke?) ==>
      && o.state.audio.None? && o.state.highlight.None?
      && e.sound !in o.state.sounding && e.sound.url in o.state.revoked
      && o.effects == [P.Revoke(e.sound.url)]
  {
    match e
    case Click(m, content, mode) =>
      var t := if st.audio.Some? then st.(audio := None, highlight := None, sounding := st.sounding - {st.audio.value}) else st;
      var fx := if st.audio.Some? then [P.Pause(st.audio.value)] else [];
      if st.highlight == Some(m) then Outcome(t, fx)
      else
        var (model, voice) := P.ParseMode(mode);
        Outcome(t.(highlight := Some(m), pending := t.pending + multiset{m}),
                fx + [P.Request(m, SpeechText.Clean(content), model, voice)])
    case Refused(m, terms, error) =>
      Outcome(st.(highlight := None, pending := st.pending - multiset{m}), P.Notices(terms, error))
    case Arrived(m, url, started) =>
      var s := P.Sound(m, url);
      var t := st.(audio := Some(s), pending := st.pending - multiset{m}, urls := st.urls + {url});
      if started then Outcome(t.(sounding := t.sounding + {s}), [P.Start(s)])
      else Outcome(t.(highlight := None), [P.Show(P.FailureNotice)])
    case Undecodable(m, url) =>
      Outcome(st.(highlight := None, audio := None, pending := st.pending - multiset{m},
                  urls := st.urls + {url}, revoked := st.revoked + {url}),
              [P.Revoke(url), P.Show(P.FailureNotice)])
    case Ended(s) =>
      Outcome(st.(highlight := None, audio := None, sounding := st.sounding - {s}, revoked := st.revoked + {s.url}), [P.Revoke(s.url)])
    case Broke(s) =>
      Outcome(st.(highlight := None, audio := None, sounding := st.sounding - {s}, revoked := st.revoked + {s.url}), [P.Revoke(s.url)])
  }

  function Run(st: State, events: seq<Event>): (r: State)
    decreases |events|
  {
    if |events| == 0 then st else Run(Step(st, events[0]).state, events[1..])
  }

  predicate ValidRun(st: State, events: seq<Event>)
    decreases |events|
  {
    |events| == 0 || (Valid(st, events[0]) && ValidRun(Step(st, events[0]).state, events[1..]))
  }

  // ---------------------------------------------------------------------
  // Lemmas

  /** Every event the browser can deliver keeps the invariant. */
  lemma StepInv(st: State, e: Event)
    requires Inv(st) && Valid(st, e)
    ensures Inv(Step(st, e).state)
  {
    var o := Step(st, e).state;
    match e
    case Click(m, content, mode) =>
      assert o.sounding <= st.sounding;
    case Refused(m, _, _) =>
    case Arrived(m, url, started) =>
      forall s | s in o.sounding && s.url == url ensures s == P.Sound(m, url) {
        assert s !in st.sounding;
      }
    case Undecodable(m, url) =>
      forall s | s in o.sounding ensures s.url != url {
        assert s.url in st.urls;
      }
    case Ended(s) =>
      forall s' | s' in o.sounding ensures s'.url != s.url {
        assert s' in st.sounding && s' != s;
      }
    case Broke(s) =>
      forall s' | s' in o.sounding ensures s'.url != s.url {
        assert s' in st.sounding && s' != s;
      }
  }

  /** The invariant holds along every run the browser can produce. */
  lemma {:induction false} RunInv(st: State, events: seq<Event>)
    requires Inv(st) && ValidRun(st, events)
    ensures Inv(Run(st, events))
    decreases |events|
  {
    if |events| > 0 {
      StepInv(st, events[0]);
      RunInv(Step(st, events[0]).state, events[1..]);
    }
  }

  /** A click on the highlighted message while its sound is held stops it and asks for nothing. */
  lemma ToggleStops(st: State, m: MessageId, content: string, mode: string)
    requires st.highlight == Some(m) && st.audio.Some?
    ensures var o := Step(st, Click(m, content, mode));
      && o.effects == [P.Pause(st.audio.value)]
      && o.state.audio.None? && o.state.highlight.None?
      && st.audio.value !in o.state.sounding
  {
  }

  /**
   * A second click while the highlighted message's answer is still on its
   * way does nothing at all; the answer still arrives and plays.
   */
  lemma PendingClickIgnored(st: State, m: MessageId, content: string, mode: string)
    requires st.highlight == Some(m) && st.audio.None?
    ensures Step(st, Click(m, content, mode)) == Outcome(st, [])
  {
  }

  /** Any other click asks for the cleaned content and highlights its message. */
  lemma ClickRequests(st: State, m: MessageId, content: string, mode: string)
    requires st.highlight != Some(m)
    ensures var o := Step(st, Click(m, content, mode));
      && o.effects[|o.effects| - 1] == P.Request(m, SpeechText.Clean(content), P.ParseMode(mode).0, P.ParseMode(mode).1)
      && SpeechText.Speakable(SpeechText.Clean(content))
      && o.state.highlight == Some(m)
      && o.state.pending == st.pending + multiset{m}
  {
  }

  /** Unfolding a run by its first event. */
  lemma RunCons(st: State, e: Event, rest: seq<Event>)
    ensures Run(st, [e] + rest) == Run(Step(st, e).state, rest)
    ensures ValidRun(st, [e] + rest) <==> Valid(st, e) && ValidRun(Step(st, e).state, rest)
  {
    assert ([e] + rest)[1..] == rest;
  }

  /**
   * The highlight follows clicks, not sounds: after two clicks, the first
   * answer plays under the second message's highlight.
   */
  lemma HighlightDrifts(a: MessageId, b: MessageId, u: P.Url, x: string, y: string, mode: string)
    requires a != b
    ensures var events := [Click(a, x, mode), Click(b, y, mode), Arrived(a, u, true)];
      && ValidRun(Initial, events)
      && Run(Initial, events).highlight == Some(b)
      && Run(Initial, events).audio == Some(P.Sound(a, u))
      && P.Sound(a, u) in Run(Initial, events).sounding
  {
    var e1, e2, e3 := Click(a, x, mode), Click(b, y, mode), Arrived(a, u, true);
    var s1 := Step(Initial, e1).state;
    var s2 := Step(s1, e2).state;
    var s3 := Step(s2, e3).state;
    DriftClicks(a, b, x, y, mode, s1, s2);
    assert s3.highlight == Some(b) && s3.audio == Some(P.Sound(a, u));
    RunCons(s2, e3, []);
    RunCons(s1, e2, [e3]);
    RunCons(Initial, e1, [e2, e3]);
    assert [e1, e2, e3] == [e1] + [e2, e3];
  }

  /** The two clicks of the drift: both answers are awaited under the second highlight. */
  lemma DriftClicks(a: MessageId, b: MessageId, x: string, y: string, mode: string, s1: State, s2: State)
    requires a != b
    requires s1 == Step(Initial, Click(a, x, mode)).state && s2 == Step(s1, Click(b, y, mode)).state
    ensures s2.pending == multiset{a, b} && s2.audio.None? && s2.highlight == Some(b) && s2.urls == {}
  {
    assert s1.pending == multiset{a} && s1.audio.None? && s1.highlight == Some(a);
  }

  /**
   * A toggled-off request is not cancelled: after a click and a second click
   * on the same message, its answer still plays.
   */
  lemma ToggleDuringRequest(a: MessageId, u: P.Url, x: string, mode: string)
    ensures var events := [Click(a, x, mode), Click(a, x, mode), Arrived(a, u, true)];
      && ValidRun(Initial, events)
      && P.Sound(a, u) in Run(Initial, events).sounding
  {
    var e1, e3 := Click(a, x, mode), Arrived(a, u, true);
    var s1 := Step(Initial, e1).state;
    assert s1.pending == multiset{a} && s1.audio.None? && s1.highlight == Some(a);
    var s2 := Step(s1, e1).state;
    assert s2 == s1;
    var s3 := Step(s2, e3).state;
    assert P.Sound(a, u) in s3.sounding;
    RunCons(s2, e3, []);
    RunCons(s1, e1, [e3]);
    RunCons(Initial, e1, [e1, e3]);
    assert [e1, e1, e3] == [e1] + [e1, e3];
  }
}

=== FILE: renderer.dfy ===
/**
 * `formatMessage`: the chat's markdown-to-HTML renderer, as the composition
 * of its passes in source order. The page script and the React component
 * carry the same passes except that the component has no ordered-list
 * pass.
 *
 * The horizontal-rule pass for `***` runs after the emphasis passes, which
 * have already turned a `***` line into `<em>*</em>`; `RenderCorrected` runs
 * the rule passes before emphasis instead.
 */
module Renderer {
  import opened Text
  import opened Rewrite
  import opened Entities
  import opened Code
  import opened Tables
  import opened Lines
  import opened Inline
  import opened Paragraphs

  /** The two copies of the renderer. */
  datatype Client = Page | Component

  /** Escaping, fenced and inline code, tables and headings. */
  function Blocks(s: string): string {
    Headings(Tables.Tables(InlineCode(FencedBlocks(Escape(s)))))
  }

  /** Bold, then italic. */
  function Emphasis(s: string): string {
    Italic(Bold(s))
  }

  /** Unordered items and their `<ul>`, then (page only) numbered items. */
  function Lists(s: string, client: Client): string {
    var l := WrapLists(Items(s));
    if client == Page then Ordered(l) else l
  }

  /** Links, rules, quotations and paragraphs, in source order. */
  function Finish(s: string): (r: string)
    ensures '\n' !in r
  {
    Paragraphs.Paragraphs(Quotes(Rules(Links(s))))
  }

  /** The renderer as written: rules and quotes after links, paragraphs last. */
  function Render(s: string, client: Client): (r: string)
    ensures '\n' !in r
  {
    Finish(Lists(Emphasis(Blocks(s)), client))
  }

  /** The renderer with the rule passes moved before emphasis, so that a `***` line becomes a rule. */
  function RenderCorrected(s: string, client: Client): (r: string)
    ensures '\n' !in r
  {
    Paragraphs.Paragraphs(Quotes(Links(Lists(Emphasis(Rules(Blocks(s))), client))))
  }

  /** A single line free of every character a pass looks for inside a line. */
  predicate Quiet(x: string) {
    NoLineTerminator(x) && '`' !in x && '|' !in x && '*' !in x && '_' !in x && '[' !in x
  }

  /**
   * A line of prose: quiet, and its first character starts no line-level
   * construct (heading, item, number, quotation, rule) and is not white
   * space or an angle bracket.
   */
  predicate PlainLine(s: string) {
    && Quiet(s) && |s| > 0 && !IsSpace(s[0]) && !IsDigit(s[0])
    && s[0] != '<' && s[0] != '>' && s[0] != '#' && s[0] != '-' && s[0] != '&'
  }

  // ---------------------------------------------------------------------
  // Escaping keeps a line quiet

  /** A character that the entities do not contain survives escaping only where it was. */
  lemma EscapeKeepsAbsent(s: string, c: char)
    requires c !in s && c != '&' && c != 'l' && c != 'g' && c != 't' && c != ';'
    ensures c !in Escape(s)
  {
    ReplaceAllKeepsAbsent(s, "<", "&lt;", c);
    ReplaceAllKeepsAbsent(ReplaceAll(s, "<", "&lt;"), ">", "&gt;", c);
  }

  lemma NoTerminatorChars(s: string)
    ensures NoLineTerminator(s) <==> '\n' !in s && '\r' !in s && '\U{2028}' !in s && '\U{2029}' !in s
  {
    if !NoLineTerminator(s) {
      var i :| 0 <= i < |s| && IsLineTerminator(s[i]);
      assert s[i] in s;
    }
  }

  lemma EscapeQuiet(s: string)
    requires Quiet(s)
    ensures Quiet(Escape(s))
  {
    NoTerminatorChars(s);
    EscapeKeepsAbsent(s, '\n');
    EscapeKeepsAbsent(s, '\r');
    EscapeKeepsAbsent(s, '\U{2028}');
    EscapeKeepsAbsent(s, '\U{2029}');
    NoTerminatorChars(Escape(s));
    EscapeKeepsAbsent(s, '`');
    EscapeKeepsAbsent(s, '|');
    EscapeKeepsAbsent(s, '*');
    EscapeKeepsAbsent(s, '_');
    EscapeKeepsAbsent(s, '[');
  }

  /** Escaping a prefix without angle brackets keeps the prefix. */
  lemma EscapeAfter(a: string, b: string)
    requires '<' !in a && '>' !in a
    ensures Escape(a + b) == a + Escape(b)
  {
    ReplaceAllAppend(a, b, "<", "&lt;");
    ReplaceAllAppend(a, ReplaceAll(b, "<", "&lt;"), ">", "&gt;");
  }

  /** The first character of a text that does not start with an angle bracket is kept. */
  lemma EscapeFirst(s: string)
    requires |s| > 0 && s[0] != '<' && s[0] != '>'
    ensures |Escape(s)| > 0 && Escape(s)[0] == s[0]
  {
    EscapeStep(s);
    EscapeAfter([s[0]], s[1..]);
    assert s == [s[0]] + s[1..];
  }

  // ---------------------------------------------------------------------
  // Passes that leave a line unchanged

  /** Code, tables and headings leave a line alone that has no backtick or bar and does not start with `#`. */
  lemma BlocksKeep(x: string)
    requires NoLineTerminator(x) && '`' !in x && '|' !in x && (|x| == 0 || x[0] != '#')
    ensures Headings(Tables.Tables(InlineCode(FencedBlocks(x)))) == x
  {
    HeadingsPrecedence(x);
    LineMapSingle(x, HeadingLine);
    if |x| > 0 {
      NotStartsAt(x, "### ", 0);
      NotStartsAt(x, "## ", 0);
      NotStartsAt(x, "# ", 0);
    }
  }

  /** The list passes leave a line alone that opens no item. */
  lemma ListsKeep(x: string, client: Client)
    requires NoLineTerminator(x) && !StartsWith(x, "* ") && !StartsWith(x, "- ")
    requires client == Page ==> DigitRun(x) == 0
    requires NoAngleBefore(x, 'l')
    ensures Lists(x, client) == x
  {
    LineMapSingle(x, StarItem);
    LineMapSingle(x, DashItem);
    WrapKeep(x);
    LineMapSingle(x, OrderedItem);
  }

  /** The rule passes leave a line alone that is not a rule. */
  lemma RulesKeep(x: string)
    requires NoLineTerminator(x) && x != "---" && x != "***"
    ensures Rules(x) == x
  {
    LineMapSingle(x, DashRule);
    LineMapSingle(x, StarRule);
  }

  /** The quotation pass leaves a line alone that does not start with `&`. */
  lemma QuotesKeep(x: string)
    requires NoLineTerminator(x) && |x| > 0 && x[0] != '&'
    ensures Quotes(x) == x
  {
    LineMapSingle(x, QuoteLine);
    NotStartsAt(x, "&gt; ", 0);
  }

  /** Everything between the headings and the paragraphs leaves a quiet line alone that starts no construct. */
  lemma MiddleKeep(x: string, client: Client)
    requires Quiet(x) && |x| > 0 && !IsDigit(x[0]) && x[0] != '-' && x[0] != '&'
    requires NoAngleBefore(x, 'l')
    ensures Quotes(Rules(Links(Lists(Emphasis(x), client)))) == x
    ensures Quotes(Links(Lists(Emphasis(Rules(x)), client))) == x
  {
    NotStartsAt(x, "* ", 0);
    NotStartsAt(x, "- ", 0);
    ListsKeep(x, client);
    assert x[0] != '*';
    RulesKeep(x);
    QuotesKeep(x);
  }

  // ---------------------------------------------------------------------
  // Whole renderings

  /** A line of prose is escaped and wrapped in one paragraph, by both renderers. */
  lemma RenderPlainLine(s: string, client: Client)
    requires PlainLine(s)
    ensures Render(s, client) == "<p>" + Escape(s) + "</p>"
    ensures RenderCorrected(s, client) == "<p>" + Escape(s) + "</p>"
  {
    var x := Escape(s);
    EscapeQuiet(s);
    EscapeFirst(s);
    BlocksKeep(x);
    assert Blocks(s) == x;
    NoAngles(x, 'l');
    MiddleKeep(x, client);
    NoTerminatorChars(x);
    InertKept(x);
    ParagraphsKeep(x);
  }

  /** Text without `<` has no `<` followed by anything. */
  lemma NoAngles(x: string, c: char)
    requires '<' !in x
    ensures NoAngleBefore(x, c)
  {
  }

  /** An element around a quiet line is a quiet line. */
  lemma TagQuiet(name: string, e: string)
    requires Quiet(name) && Quiet(e) && '<' !in name && '>' !in name
    ensures Quiet(Tag(name, e))
  {
    TagOneLine(name, e);
    TagWithout(name, e, '`');
    TagWithout(name, e, '|');
    TagWithout(name, e, '*');
    TagWithout(name, e, '_');
    TagWithout(name, e, '[');
  }

  /** A `# ` line becomes a level-one heading in its own paragraph. */
  lemma RenderHeading(x: string, client: Client)
    requires Quiet(x)
    ensures Render("# " + x, client) == "<p>" + Tag("h1", Escape(x)) + "</p>"
  {
    HeadingFront(x);
    HeadingTail(Escape(x), client);
  }

  /** Escaping and the block passes turn `# x` into a heading element. */
  lemma HeadingFront(x: string)
    requires Quiet(x)
    ensures Quiet(Escape(x)) && Blocks("# " + x) == Tag("h1", Escape(x))
  {
    var e := Escape(x);
    EscapeQuiet(x);
    EscapeAfter("# ", x);
    var l := "# " + e;
    assert Quiet(l) && l[0] == '#';
    assert Tables.Tables(InlineCode(FencedBlocks(l))) == l;
    HeadingsPrecedence(l);
    LineMapSingle(l, HeadingLine);
    NotStartsAt(l, "### ", 1);
    NotStartsAt(l, "## ", 1);
    PrefixOf("# ", e);
  }

  /** A heading element passes the remaining passes as one paragraph. */
  lemma HeadingTail(e: string, client: Client)
    requires Quiet(e) && '<' !in e
    ensures Finish(Lists(Emphasis(Tag("h1", e)), client)) == "<p>" + Tag("h1", e) + "</p>"
  {
    var h := Tag("h1", e);
    assert Quotes(Rules(Links(Lists(Emphasis(h), client)))) == h by {
      TagQuiet("h1", e);
      TagAngles("h1", e, 'l');
      MiddleKeep(h, client);
    }
    assert Paragraphs.Paragraphs(h) == "<p>" + h + "</p>" by {
      NoTerminatorChars(e);
      TagKept("h1", e);
      ParagraphsKeep(h);
    }
  }

  /** A `> ` line becomes a quotation: the escaped `&gt; ` prefix is what the pass looks for. */
  lemma RenderQuote(x: string, client: Client)
    requires Quiet(x) && |x| > 0
    ensures Render("> " + x, client) == "<p>" + Tag("blockquote", Escape(x)) + "</p>"
  {
    var e := Escape(x);
    var l := "&gt; " + e;
    QuoteFront(x);
    assert '<' !in l by {
      assert '<' !in "&gt; ";
    }
    assert Lists(l, client) == l by {
      QuoteLists(l, client);
    }
    assert Finish(l) == "<p>" + Tag("blockquote", e) + "</p>" by {
      QuoteTail(e);
    }
  }

  /** Escaping and the passes up to emphasis give the escaped quotation line. */
  lemma QuoteFront(x: string)
    requires Quiet(x) && |x| > 0
    ensures Quiet("&gt; " + Escape(x)) && |Escape(x)| > 0 && NoLineTerminator(Escape(x)) && '<' !in Escape(x)
    ensures Emphasis(Blocks("> " + x)) == "&gt; " + Escape(x)
  {
    var e := Escape(x);
    var l := "&gt; " + e;
    assert Quiet(e) by {
      EscapeQuiet(x);
    }
    assert Quiet(l) by {
      NoTerminatorChars(e);
      NoTerminatorChars(l);
    }
    assert Blocks("> " + x) == l by {
      EscapeHead(x);
      BlocksKeep(l);
    }
  }

  /** The list passes keep a line that starts with `&`. */
  lemma QuoteLists(l: string, client: Client)
    requires Quiet(l) && StartsWith(l, "&gt; ") && '<' !in l
    ensures Lists(l, client) == l
  {
    NotStartsAt(l, "* ", 0);
    NotStartsAt(l, "- ", 0);
    NoAngles(l, 'l');
    ListsKeep(l, client);
  }

  /** The quotation pass and the paragraphs turn the escaped line into a quotation paragraph. */
  lemma QuoteTail(e: string)
    requires Quiet("&gt; " + e) && |e| > 0 && NoLineTerminator(e) && '<' !in e
    ensures Finish("&gt; " + e) == "<p>" + Tag("blockquote", e) + "</p>"
  {
    var l := "&gt; " + e;
    var q := Tag("blockquote", e);
    RulesKeep(l);
    LineMapSingle(l, QuoteLine);
    PrefixOf("&gt; ", e);
    assert Quotes(l) == q;
    TagKept("blockquote", e);
    ParagraphsKeep(q);
  }

  /** Escaping `> x` gives `&gt; ` followed by the escaped `x`. */
  lemma EscapeHead(x: string)
    ensures Escape("> " + x) == "&gt; " + Escape(x)
  {
    var s := "> " + x;
    EscapeStep(s);
    assert s[1..] == " " + x;
    EscapeAfter(" ", x);
    assert EscapeChar(s[0]) == "&gt;";
  }

  /**
   * A numbered line: the page turns it into an item that no list element
   * encloses; the component, which has no ordered-list pass, keeps the
   * number as text.
   */
  lemma RenderNumbered(x: string)
    requires Quiet(x) && |x| > 0
    ensures Render("1. " + x, Page) == "<p>" + Tag("li", Escape(x)) + "</p>"
    ensures Render("1. " + x, Component) == "<p>" + "1. " + Escape(x) + "</p>"
  {
    var e := Escape(x);
    assert Render("1. " + x, Page) == "<p>" + Tag("li", e) + "</p>" by {
      NumberedFront(x);
      NumberedPage(e);
    }
    assert Render("1. " + x, Component) == "<p>" + "1. " + e + "</p>" by {
      NumberedFront(x);
      NumberedComponent(e);
    }
  }

  /** The passes before the lists keep an escaped numbered line. */
  lemma NumberedFront(x: string)
    requires Quiet(x) && |x| > 0
    ensures Quiet("1. " + Escape(x)) && |Escape(x)| > 0 && NoLineTerminator(Escape(x))
    ensures Emphasis(Blocks("1. " + x)) == "1. " + Escape(x)
  {
    var e := Escape(x);
    var l := "1. " + e;
    assert Quiet(e) by {
      EscapeQuiet(x);
    }
    assert Quiet(l) by {
      NoTerminatorChars(e);
      NoTerminatorChars(l);
    }
    assert Blocks("1. " + x) == l by {
      EscapeAfter("1. ", x);
      BlocksKeep(l);
    }
  }

  /** On the page, the numbered line becomes a lone item. */
  lemma NumberedPage(e: string)
    requires Quiet("1. " + e) && |e| > 0 && NoLineTerminator(e) && '<' !in e
    ensures Finish(Lists("1. " + e, Page)) == "<p>" + Tag("li", e) + "</p>"
  {
    NumberedLists(e);
    ItemTail(e);
  }

  /** The page's list passes turn a numbered line into an item. */
  lemma NumberedLists(e: string)
    requires Quiet("1. " + e) && |e| > 0 && '<' !in e
    ensures Lists("1. " + e, Page) == Tag("li", e)
  {
    var l := "1. " + e;
    NotStartsAt(l, "* ", 0);
    NotStartsAt(l, "- ", 0);
    NoAngles(l, 'l');
    LineMapSingle(l, StarItem);
    LineMapSingle(l, DashItem);
    WrapKeep(l);
    LineMapSingle(l, OrderedItem);
    NumberedItem(e);
  }

  /** A lone item passes the remaining passes as one paragraph. */
  lemma ItemTail(e: string)
    requires Quiet("1. " + e) && NoLineTerminator(e) && '<' !in e
    ensures Finish(Tag("li", e)) == "<p>" + Tag("li", e) + "</p>"
  {
    var l := "1. " + e;
    var li := Tag("li", e);
    assert Quotes(Rules(Links(li))) == li by {
      assert '[' !in e by {
        assert forall i :: 0 <= i < |e| ==> e[i] == l[i + 3];
      }
      TagWithout("li", e, '[');
      TagOneLine("li", e);
      RulesKeep(li);
      QuotesKeep(li);
    }
    TagKept("li", e);
    ParagraphsKeep(li);
  }

  /** In the component, the numbered line stays text. */
  lemma NumberedComponent(e: string)
    requires Quiet("1. " + e) && '<' !in e
    ensures Finish(Lists("1. " + e, Component)) == "<p>" + "1. " + e + "</p>"
  {
    var l := "1. " + e;
    NotStartsAt(l, "* ", 0);
    NotStartsAt(l, "- ", 0);
    NoAngles(l, 'l');
    ListsKeep(l, Component);
    RulesKeep(l);
    QuotesKeep(l);
    NoTerminatorChars(l);
    InertKept(l);
    ParagraphsKeep(l);
  }

  // ---------------------------------------------------------------------
  // The `***` rule

  /** A `---` line is a horizontal rule. */
  lemma RenderDashRule(l: string, client: Client)
    requires l == "---"
    ensures Render(l, client) == "<p>" + "<hr>" + "</p>"
  {
    DashFront(l, client);
    DashTail(l);
  }

  /** The passes before the rules keep a `---` line. */
  lemma DashFront(l: string, client: Client)
    requires l == "---"
    ensures Lists(Emphasis(Blocks(l)), client) == l
  {
    assert Blocks(l) == l by {
      DashBlocks(l);
    }
    assert Emphasis(l) == l by {
      DashEmphasis(l);
    }
    assert Lists(l, client) == l by {
      DashLists(l, client);
    }
  }

  lemma DashBlocks(l: string)
    requires l == "---"
    ensures Blocks(l) == l
  {
    EscapeNone(l);
    BlocksKeep(l);
  }

  lemma DashEmphasis(l: string)
    requires l == "---"
    ensures Emphasis(l) == l
  {
    assert '*' !in l && '_' !in l;
  }

  lemma DashLists(l: string, client: Client)
    requires l == "---"
    ensures Lists(l, client) == l
  {
    NotStartsAt(l, "* ", 0);
    NotStartsAt(l, "- ", 1);
    NoAngles(l, 'l');
    ListsKeep(l, client);
  }

  /** The rule pass turns `---` into `<hr>`, which the paragraphs keep. */
  lemma DashTail(l: string)
    requires l == "---"
    ensures Finish(l) == "<p>" + "<hr>" + "</p>"
  {
    var h := "<hr>";
    LineMapSingle(l, DashRule);
    LineMapSingle(h, StarRule);
    HrKept(h);
    QuotesKeep(h);
    ParagraphsKeep(h);
  }

  /** Text without angle brackets is its own escape. */
  lemma EscapeNone(l: string)
    requires '<' !in l && '>' !in l
    ensures Escape(l) == l
  {
    ReplaceAllAbsent(l, "<", "&lt;");
    ReplaceAllAbsent(l, ">", "&gt;");
  }

  /** `<hr>` stays one paragraph and passes the later line passes. */
  lemma HrKept(h: string)
    requires h == "<hr>"
    ensures Kept(h) && NoAngleBefore(h, 'l') && Quiet(h) && h != "***" && h != "---"
  {
    forall i | 0 <= i < |h| - 1 ensures h[i] == '<' ==> h[i + 1] != 'p' && h[i + 1] != 'l' {
      assert i == 0 || h[i] != '<';
    }
  }

  /** Emphasis turns a `***` line into an italic star before the rule pass sees it. */
  lemma StarsEmphasised(l: string)
    requires l == "***"
    ensures Emphasis(l) == Tag("em", "*")
  {
    assert Scan(l, BoldStarAt) == l by {
      NoBoldStar(l);
    }
    assert Scan(l, BoldUnderAt) == l by {
      ScanWithout(l, BoldUnderAt, '_');
    }
    assert Bold(l) == l;
    var m := Tag("em", "*");
    assert Scan(l, ItalicStarAt) == m by {
      StarItalic(l);
      ScanMatchedAt(l, ItalicStarAt, m, 3);
    }
    assert Scan(m, ItalicUnderAt) == m by {
      TagWithout("em", "*", '_');
      ScanWithout(m, ItalicUnderAt, '_');
    }
  }

  /** `**` never closes within `***`: the lazy body needs a character and then two stars. */
  lemma NoBoldStar(l: string)
    requires l == "***"
    ensures Scan(l, BoldStarAt) == l
  {
    assert CloseFrom(l[2..], "**", 1) == None;
    assert BoldStarAt(l).NoMatch?;
    assert CloseFrom(l[1..][2..], "**", 1) == None;
    assert BoldStarAt(l[1..]).NoMatch?;
    assert BoldStarAt(l[2..]).NoMatch?;
    forall k | 0 <= k < |l| ensures BoldStarAt(l[k..]).NoMatch? {
      assert k == 0 || k == 1 || k == 2;
    }
    ScanIdentity(l, BoldStarAt);
  }

  /** `*` encloses the middle star of `***`. */
  lemma StarItalic(l: string)
    requires l == "***"
    ensures ItalicStarAt(l) == Matched(Tag("em", "*"), 3)
  {
    var u := l[1..];
    assert u == "**" && u[1..] == "*";
    assert CloseFrom(u, "*", 1) == Some(1);
    DelimAtClose(l, "*", "em", 1);
    DelimCloseSome(l, "*", "em", 1);
    assert l[1..2] == "*";
  }

  /** As written, a `***` line renders as an italic star, never as a rule. */
  lemma RenderStars(l: string, client: Client)
    requires l == "***"
    ensures Render(l, client) == "<p>" + Tag("em", "*") + "</p>"
  {
    assert Blocks(l) == l by {
      EscapeNone(l);
      BlocksKeep(l);
    }
    StarsEmphasised(l);
    var m := Tag("em", "*");
    assert Finish(Lists(m, client)) == "<p>" + m + "</p>" by {
      StarTail(m, client);
    }
  }

  /** The italic star passes the remaining passes as one paragraph. */
  lemma StarTail(m: string, client: Client)
    requires m == Tag("em", "*")
    ensures Finish(Lists(m, client)) == "<p>" + m + "</p>"
  {
    assert m[0] == '<';
    TagAngles("em", "*", 'l');
    NotStartsAt(m, "* ", 0);
    NotStartsAt(m, "- ", 0);
    TagOneLine("em", "*");
    ListsKeep(m, client);
    TagWithout("em", "*", '[');
    RulesKeep(m);
    QuotesKeep(m);
    TagKept("em", "*");
    ParagraphsKeep(m);
  }

  /** With the rule passes first, a `***` line is a horizontal rule. */
  lemma RenderCorrectedStars(l: string, client: Client)
    requires l == "***"
    ensures RenderCorrected(l, client) == "<p>" + "<hr>" + "</p>"
  {
    StarsRuled(l);
    HrTail("<hr>", client);
  }

  /** Escaping, blocks and the rule passes turn `***` into `<hr>`. */
  lemma StarsRuled(l: string)
    requires l == "***"
    ensures Rules(Blocks(l)) == "<hr>"
  {
    EscapeNone(l);
    BlocksKeep(l);
    LineMapSingle(l, DashRule);
    LineMapSingle(l, StarRule);
  }

  /** The passes after the rules keep `<hr>` as one paragraph. */
  lemma HrTail(h: string, client: Client)
    requires h == "<hr>"
    ensures Paragraphs.Paragraphs(Quotes(Links(Lists(Emphasis(h), client)))) == "<p>" + h + "</p>"
  {
    HrKept(h);
    NotStartsAt(h, "* ", 0);
    NotStartsAt(h, "- ", 0);
    ListsKeep(h, client);
    QuotesKeep(h);
    ParagraphsKeep(h);
  }

  // ---------------------------------------------------------------------
  // Messages that render as nothing

  /** The empty message renders as nothing: its one paragraph is empty and is removed. */
  lemma RenderEmpty(client: Client)
    ensures Render([], client) == []
    ensures RenderCorrected([], client) == []
  {
    var e: string := [];
    EscapeNone(e);
    BlocksKeep(e);
    ListsKeep(e, client);
    RulesKeep(e);
    LineMapSingle(e, QuoteLine);
    assert Quotes(Rules(Links(Lists(Emphasis(e), client)))) == e;
    assert Quotes(Links(Lists(Emphasis(Rules(e)), client))) == e;
    EmptyDropped();
  }

  /** The paragraph passes turn the empty text into nothing. */
  lemma EmptyDropped()
    ensures Paragraphs.Paragraphs([]) == []
  {
    var t := "<p>" + Breaks([]) + "</p>";
    ReplaceAllAbsent([], "\n\n", "</p><p>");
    ReplaceAllAbsent([], "\n", "<br>");
    assert t == "<p></p>";
    ReplaceHit(t, "<p></p>", []);
    assert t[7..] == [];
  }

  /** A blank line holds none of the characters the passes look for. */
  lemma BlankQuiet(x: string)
    requires IsBlank(x) && NoLineTerminator(x)
    ensures Quiet(x) && '<' !in x && '>' !in x && (|x| > 0 ==> IsSpace(x[0]))
  {
    forall c | c in x ensures IsSpace(c) {
      var i :| 0 <= i < |x| && x[i] == c;
    }
  }

  /** A message of white space only, on one line, renders as nothing, by both renderers. */
  lemma RenderBlank(x: string, client: Client)
    requires |x| > 0 && IsBlank(x) && NoLineTerminator(x)
    ensures Render(x, client) == []
    ensures RenderCorrected(x, client) == []
  {
    BlankQuiet(x);
    EscapeNone(x);
    BlocksKeep(x);
    assert Blocks(x) == x;
    NoAngles(x, 'l');
    MiddleKeep(x, client);
    NoTerminatorChars(x);
    BlankDropped(x);
  }

  // ---------------------------------------------------------------------
  // Code is not protected from emphasis

  /**
   * The emphasis passes run after the code passes and treat the text of a
   * code element like any other: `**x**` alone in a fenced block turns bold.
   */
  lemma FencedBold(x: string)
    requires |x| > 0 && Plain(x)
    ensures Emphasis(Blocks(Fence + "\n" + ("**" + x + "**") + "\n" + Fence)) == CodeElement("", Tag("strong", x))
  {
    var b := "**" + x + "**";
    var s := Fence + "\n" + b + "\n" + Fence;
    var a := CodeOpen("");
    var z := "</code></pre>";
    var e := a + (b + z);
    assert FencedBlocks(Escape(s)) == e by {
      FencedFront(x, b, s);
      Regroup(a, b, z);
    }
    CodeTags();
    assert Blocks(s) == e by {
      CodeLine(x, b, a, z, e);
      BlocksKeep(e);
    }
    CodeBold(x, b, a, z, e);
    Regroup(a, Tag("strong", x), z);
  }

  /** Escaping and the fenced-block pass turn the block into a code element around `b`. */
  lemma FencedFront(x: string, b: string, s: string)
    requires |x| > 0 && Plain(x) && b == "**" + x + "**"
    requires s == Fence + "\n" + b + "\n" + Fence
    ensures FencedBlocks(Escape(s)) == CodeOpen("") + b + "</code></pre>"
  {
    var c := b + "\n";
    assert Escape(s) == Fence + "" + "\n" + c + Fence + "" by {
      EscapeNone(s);
    }
    assert FencedBlocks(Fence + "" + "\n" + c + Fence + "") == CodeOpen("") + Trim(c) + "</code></pre>" by {
      TickFreeNoFence(c);
      FencedBlockRendered("", c, "");
      assert FencedBlocks("") == "";
    }
    TrimLastBreak(x, b, c);
  }

  /** Trimming `**x**` and a newline drops just the newline. */
  lemma TrimLastBreak(x: string, b: string, c: string)
    requires b == "**" + x + "**" && c == b + "\n"
    ensures Trim(c) == b
  {
    assert TrimStart(c) == c;
    assert c[..|c| - 1] == b;
    assert TrimEnd(b) == b;
  }

  /** Text free of angle brackets, backticks, bars, emphasis marks and line breaks. */
  predicate Plain(x: string) {
    NoLineTerminator(x) && '<' !in x && '>' !in x && '`' !in x && '|' !in x && '*' !in x && '_' !in x
  }

  /** A character that a pass from the code passes to emphasis looks for. */
  predicate Active(c: char) {
    IsLineTerminator(c) || c == '`' || c == '|' || c == '*' || c == '_'
  }

  /** Markup that no pass from the code passes to emphasis acts on. */
  predicate Inactive(t: string) {
    forall i :: 0 <= i < |t| ==> !Active(t[i])
  }

  /** Inactive markup holds none of the characters the passes look for. */
  lemma InactiveLacks(t: string)
    requires Inactive(t)
    ensures NoLineTerminator(t) && '`' !in t && '|' !in t && '*' !in t && '_' !in t
  {
    forall c | c in t ensures !Active(c) {
      var i :| 0 <= i < |t| && t[i] == c;
    }
  }

  /** The tags around a code element without a language. */
  lemma CodeTags()
    ensures Inactive(CodeOpen("")) && Inactive("</code></pre>")
    ensures |CodeOpen("")| > 0 && CodeOpen("")[0] == '<'
  {
    assert CodeOpen("") == "<pre><code>";
  }

  /** A code element around `**x**` is one line without backticks or bars that starts with `<`. */
  lemma CodeLine(x: string, b: string, a: string, z: string, e: string)
    requires Plain(x) && b == "**" + x + "**"
    requires Inactive(a) && Inactive(z) && |a| > 0 && a[0] == '<'
    requires e == a + (b + z)
    ensures NoLineTerminator(e) && '`' !in e && '|' !in e && e[0] == '<'
  {
    InactiveLacks(a);
    InactiveLacks(z);
    NoTerminatorChars(a);
    NoTerminatorChars(z);
    NoTerminatorChars(x);
    NoTerminatorChars(e);
  }

  /** Bold finds the `**` pair after markup that holds no star. */
  lemma CodeBold(x: string, b: string, a: string, z: string, e: string)
    requires |x| > 0 && Plain(x) && b == "**" + x + "**"
    requires Inactive(a) && Inactive(z)
    requires e == a + (b + z)
    ensures Emphasis(e) == a + (Tag("strong", x) + z)
  {
    var m := Tag("strong", x);
    var r := a + (m + z);
    InactiveLacks(a);
    InactiveLacks(z);
    assert Scan(e, BoldStarAt) == r by {
      assert Declines(a + (b + z), BoldStarAt, |a|) by {
        forall k | 0 <= k < |a| ensures BoldStarAt((a + (b + z))[k..]).NoMatch? {
          assert (a + (b + z))[k..][0] == a[k];
        }
      }
      ScanCopiesPrefix(a, b + z, BoldStarAt);
      BoldRendered(x, z);
      ScanWithout(z, BoldStarAt, '*');
    }
    assert '_' !in r && '*' !in r by {
      TagWithout("strong", x, '_');
      TagWithout("strong", x, '*');
    }
    assert '*' in e by {
      assert e[|a|] == b[0] == '*';
    }
    assert Bold(e) == r by {
      ScanWithout(r, BoldUnderAt, '_');
    }
    assert Italic(r) == r;
  }
}

=== FILE: rewrite.dfy ===
/**
 * The two shapes of `String.prototype.replace` with a global regular
 * expression that the renderer uses, written once so that every pass is a
 * small matcher:
 *  - `Scan`: an unanchored global replace. The matcher is tried at each
 *    position from left to right; a match is replaced and scanning resumes
 *    right after it, otherwise one character is copied.
 *  - `LineMap`: a replace with the `gm` flags whose pattern is `^…$`. Such a
 *    pattern can only match a whole line, so the pass is a function applied
 *    to every line, the line terminators being kept.
 */
module Rewrite {
  import opened Text

  /** What a matcher reports at one position. */
  datatype Match = NoMatch | Matched(replacement: string, consumed: nat)

  /** Global replace driven by the matcher `at`, which sees the text from the current position on. */
  function Scan(s: string, at: string -> Match): string
    decreases |s|
  {
    if |s| == 0 then []
    else
      var m := at(s);
      if m.Matched? && 1 <= m.consumed <= |s| then m.replacement + Scan(s[m.consumed..], at)
      else [s[0]] + Scan(s[1..], at)
  }

  /** Applies `f` to every line of `s`; the line terminators between lines are copied. */
  function LineMap(s: string, f: string -> string): string
    decreases |s|
  {
    var k := LineEnd(s);
    if k == |s| then f(s) else f(s[..k]) + [s[k]] + LineMap(s[k + 1..], f)
  }

  /** An HTML element with the given tag name around `inner`. */
  function Tag(name: string, inner: string): string {
    "<" + name + ">" + inner + "</" + name + ">"
  }

  /** No `<` of `x` is directly followed by `c`. */
  predicate NoAngleBefore(x: string, c: char) {
    forall i :: 0 <= i < |x| - 1 && x[i] == '<' ==> x[i + 1] != c
  }

  /** Sequential composition of two line functions. */
  function Then(f: string -> string, g: string -> string): string -> string {
    t => g(f(t))
  }

  // ---------------------------------------------------------------------
  // Lemmas

  /** In an element without nested tags, each `<` is followed by the first letter of the name or by `/`. */
  lemma TagAngles(name: string, inner: string, c: char)
    requires |name| > 0 && c != name[0] && c != '/'
    requires '<' !in name && '<' !in inner
    ensures NoAngleBefore(Tag(name, inner), c)
  {
    var x := Tag(name, inner);
    var n := |name|;
    var e := 2 + n + |inner|;
    assert x == "<" + name + ">" + inner + "</" + name + ">";
    assert x[1] == name[0];
    forall i | 0 <= i < |x| - 1 ensures x[i] == '<' ==> x[i + 1] != c {
      if i == 0 {
      } else if i <= n {
        assert x[i] == name[i - 1];
      } else if i == n + 1 {
      } else if i < e {
        assert x[i] == inner[i - n - 2];
      } else if i == e {
        assert x[i + 1] == '/';
      } else if i == e + 1 {
      } else if i < e + 2 + n {
        assert x[i] == name[i - e - 2];
      }
    }
  }

  /** A pass whose matcher declines everywhere leaves the text unchanged. */
  lemma {:induction false} ScanIdentity(s: string, at: string -> Match)
    requires forall k :: 0 <= k < |s| ==> at(s[k..]).NoMatch?
    ensures Scan(s, at) == s
    decreases |s|
  {
    if |s| > 0 {
      assert s[0..] == s;
      forall k | 0 <= k < |s| - 1 ensures at(s[1..][k..]).NoMatch? {
        assert s[1..][k..] == s[k + 1..];
      }
      ScanIdentity(s[1..], at);
      assert s == [s[0]] + s[1..];
    }
  }

  /** A pass whose matches all start with `c` leaves text without `c` unchanged. */
  lemma ScanWithout(s: string, at: string -> Match, c: char)
    requires c !in s
    requires forall t :: at(t).Matched? ==> |t| > 0 && t[0] == c
    ensures Scan(s, at) == s
  {
    forall k | 0 <= k < |s| ensures at(s[k..]).NoMatch? {
      assert s[k..][0] == s[k];
    }
    ScanIdentity(s, at);
  }

  /** A line function that agrees with another on every line gives the same pass. */
  lemma {:induction false} LineMapCongruent(s: string, f: string -> string, g: string -> string)
    requires forall t :: NoLineTerminator(t) ==> f(t) == g(t)
    ensures LineMap(s, f) == LineMap(s, g)
    decreases |s|
  {
    var k := LineEnd(s);
    if k < |s| {
      LineMapCongruent(s[k + 1..], f, g);
    }
  }

  /** The matcher declines at each of the first `n` positions of `s`. */
  predicate Declines(s: string, at: string -> Match, n: nat) {
    n <= |s| && forall k :: 0 <= k < n ==> at(s[k..]).NoMatch?
  }

  /** Declining positions of `s` past the first are declining positions of `s[1..]`. */
  lemma DeclinesTail(s: string, at: string -> Match, n: nat)
    requires 1 <= n && Declines(s, at, n)
    ensures Declines(s[1..], at, n - 1)
  {
    forall k | 0 <= k < n - 1 ensures at(s[1..][k..]).NoMatch? {
      assert s[1..][k..] == s[k + 1..];
    }
  }

  /** A prefix on which the matcher declines everywhere is copied unchanged. */
  lemma {:induction false} ScanCopiesPrefix(a: string, b: string, at: string -> Match)
    requires Declines(a + b, at, |a|)
    ensures Scan(a + b, at) == a + Scan(b, at)
    decreases |a|
  {
    if |a| == 0 {
      assert a + b == b;
    } else {
      var t := a + b;
      assert Scan(t, at) == [a[0]] + Scan(a[1..] + b, at) by {
        assert t[0..] == t;
        assert t[1..] == a[1..] + b;
      }
      assert Scan(a[1..] + b, at) == a[1..] + Scan(b, at) by {
        DeclinesTail(t, at, |a|);
        assert t[1..] == a[1..] + b;
        ScanCopiesPrefix(a[1..], b, at);
      }
      assert a == [a[0]] + a[1..];
    }
  }

  /** A match at the front is replaced and scanning resumes after it. */
  lemma ScanMatchedFront(a: string, b: string, at: string -> Match, rep: string)
    requires |a| >= 1
    requires at(a + b) == Matched(rep, |a|)
    ensures Scan(a + b, at) == rep + Scan(b, at)
  {
    assert (a + b)[|a|..] == b;
  }

  /** A match at the front replaces exactly the text it consumed. */
  lemma ScanMatchedAt(t: string, at: string -> Match, rep: string, n: nat)
    requires 1 <= n <= |t| && at(t) == Matched(rep, n)
    ensures Scan(t, at) == rep + Scan(t[n..], at)
  {
  }

  /** A pass whose replacements never contain `c` cannot introduce `c`. */
  lemma {:induction false} ScanKeepsAbsent(s: string, at: string -> Match, c: char)
    requires c !in s
    requires forall u :: at(u).Matched? ==> c !in at(u).replacement
    ensures c !in Scan(s, at)
    decreases |s|
  {
    if |s| > 0 {
      var m := at(s);
      if m.Matched? && 1 <= m.consumed <= |s| {
        assert forall i :: m.consumed <= i < |s| ==> s[m.consumed..][i - m.consumed] == s[i];
        ScanKeepsAbsent(s[m.consumed..], at, c);
      } else {
        assert forall i :: 1 <= i < |s| ==> s[1..][i - 1] == s[i];
        ScanKeepsAbsent(s[1..], at, c);
      }
    }
  }

  /** On a single line the pass is the line function itself. */
  lemma LineMapSingle(s: string, f: string -> string)
    requires NoLineTerminator(s)
    ensures LineMap(s, f) == f(s)
  {
  }

  /** One line followed by a terminator and more text. */
  lemma LineMapCons(line: string, t: char, rest: string, f: string -> string)
    requires NoLineTerminator(line) && IsLineTerminator(t)
    ensures LineMap(line + [t] + rest, f) == f(line) + [t] + LineMap(rest, f)
  {
    var s := line + [t] + rest;
    assert s[|line|] == t && s[..|line|] == line && s[|line| + 1..] == rest;
    LineEndOf(s, |line|);
  }

  /**
   * Two line passes in a row are one line pass with the composed function,
   * provided the first one keeps lines free of terminators.
   */
  lemma {:induction false} LineMapFuse(s: string, f: string -> string, g: string -> string)
    requires forall t :: NoLineTerminator(t) ==> NoLineTerminator(f(t))
    ensures LineMap(LineMap(s, f), g) == LineMap(s, Then(f, g))
    decreases |s|
  {
    var k := LineEnd(s);
    if k == |s| {
      LineMapSingle(f(s), g);
    } else {
      var line := s[..k];
      var rest := s[k + 1..];
      assert s == line + [s[k]] + rest;
      LineMapCons(line, s[k], rest, f);
      LineMapCons(f(line), s[k], LineMap(rest, f), g);
      LineMapCons(line, s[k], rest, Then(f, g));
      LineMapFuse(rest, f, g);
    }
  }

  /** A line pass whose function fixes every line leaves the text unchanged. */
  lemma {:induction false} LineMapIdentity(s: string, f: string -> string, c: char)
    requires c !in s
    requires forall t :: NoLineTerminator(t) && c !in t ==> f(t) == t
    ensures LineMap(s, f) == s
    decreases |s|
  {
    var k := LineEnd(s);
    if k < |s| {
      assert s == s[..k] + [s[k]] + s[k + 1..];
      assert c !in s[..k];
      LineMapIdentity(s[k + 1..], f, c);
    }
  }
}

=== FILE: server.dfy ===
/**
 * The request logic of the Flask server: the in-memory chat history with
 * its chat, clear, new-chat and stats endpoints, and the model list of
 * `/api/models` with its `all` merge. Provider clients are parameters: a
 * client is absent or present, and a present client's call either answers
 * or raises. The clock's readings are parameters too.
 */
module Server {
  import opened Text
  import Gemini

  /** One history entry, as appended by `/api/chat`. */
  datatype Entry = Entry(role: string, content: string, timestamp: string, model: string)

  /** The JSON body of `/api/chat`; a missing key is `None`. */
  datatype ChatRequest = ChatRequest(message: Option<string>, model: Option<string>, provider: Option<string>)

  /** A provider client's `chat`: it sees the role/content pairs and the model. */
  type Chatter = (seq<Gemini.Turn>, string) -> Gemini.Reply

  datatype Clients = Clients(groq: Option<Chatter>, gemini: Option<Chatter>)

  /** The two readings of the clock a chat takes: for the user entry and for the reply. */
  datatype Times = Times(asked: string, answered: string)

  /** A JSON value of a model record. */
  datatype Value = Str(s: string) | Flag(b: bool)

  type Record = map<string, Value>

  datatype Body =
    | Failure(error: string, errorType: Option<string>)
    | Reply(message: string, timestamp: string)
    | Done(message: string)
    | Counts(total: nat, user: nat, assistant: nat)
    | Models(models: seq<Record>)
    | Wav(audio: seq<bv8>)

  datatype Response = Response(status: nat, body: Body)

  datatype ChatResult = ChatResult(history: seq<Entry>, response: Response)

  /** What a client's `list_models` gives: a list, or the text of what it raised. */
  datatype Listing = Listed(models: seq<Record>) | ListFailed(error: string)

  const DefaultModel: string := "mixtral-8x7b-32768"
  const GeminiMissing: string := "Gemini client not configured. Set GEMINI_API_KEY."
  const GroqMissing: string := "Groq client not configured. Set GROQ_API_KEY."
  /** What Python raises when a method is called on an absent client. */
  const NoListModels: string := "'NoneType' object has no attribute 'list_models'"

  /** `(data.get('provider') or 'groq').lower()`, then the fall-back to Gemini when Groq is absent. */
  function Provider(requested: Option<string>, clients: Clients): (p: string)
    ensures NamesGroq(requested) ==> p == (if clients.groq.None? && clients.gemini.Some? then "gemini" else "groq")
    ensures !NamesGroq(requested) ==> p == ToLowerAscii(requested.value)
  {
    var named := if requested.Some? && requested.value != "" then requested.value else "groq";
    var p := ToLowerAscii(named);
    LowerGroq();
    if p == "groq" && clients.groq.None? && clients.gemini.Some? then "gemini" else p
  }

  /** The request names Groq: no provider, an empty one, or `groq` in any letter case. */
  predicate NamesGroq(requested: Option<string>) {
    requested.None? || requested.value == "" || ToLowerAscii(requested.value) == "groq"
  }

  /** The messages a provider sees: role and content of every entry. */
  function Turns(h: seq<Entry>): (t: seq<Gemini.Turn>)
    ensures |t| == |h|
    ensures forall i :: 0 <= i < |h| ==> t[i] == Gemini.Turn(h[i].role, h[i].content)
  {
    seq(|h|, i requires 0 <= i < |h| => Gemini.Turn(h[i].role, h[i].content))
  }

  /** `/api/chat` */
  function Chat(h: seq<Entry>, req: ChatRequest, clients: Clients, now: Times): (r: ChatResult)
    ensures (req.message.None? || req.message.value == "") <==> r.response.status == 400 && r.history == h
    ensures |h| <= |r.history| <= |h| + 2 && r.history[..|h|] == h
    ensures r.response.status == 200 <==> |r.history| == |h| + 2
    ensures |r.history| > |h| ==> r.history[|h|].role == "user" && r.history[|h|].content == req.message.value
    ensures |r.history| == |h| + 2 ==> r.history[|h| + 1].role == "assistant"
  {
    var p := Provider(req.provider, clients);
    if req.message.None? || req.message.value == "" then
      ChatResult(h, Response(400, Failure("Message is required", None)))
    else
      var model := if req.model.Some? then req.model.value else DefaultModel;
      var asked := h + [Entry("user", req.message.value, now.asked, model)];
      assert asked[..|h|] == h;
      var client := if p == "gemini" then clients.gemini else clients.groq;
      if client.None? then
        ChatResult(asked, Response(400, Failure(if p == "gemini" then GeminiMissing else GroqMissing, None)))
      else
        match client.value(Turns(asked), model)
        case Answer(a) =>
          var answered := asked + [Entry("assistant", a, now.answered, model)];
          assert answered[..|h|] == h;
          ChatResult(answered, Response(200, Reply(a, now.answered)))
        case Raise(e) => ChatResult(asked, Response(500, Failure(e, None)))
  }

  /** `/api/clear` */
  function Clear(h: seq<Entry>): (r: ChatResult)
    ensures r.history == [] && r.response.status == 200
  {
    ChatResult([], Response(200, Done("Chat history cleared")))
  }

  /** `/api/new-chat` */
  function NewChat(h: seq<Entry>): (r: ChatResult)
    ensures r.history == [] && r.response.status == 200
  {
    ChatResult([], Response(200, Done("New chat started")))
  }

  /** Number of entries with the given role. */
  function Count(h: seq<Entry>, role: string): (n: nat)
    ensures n <= |h|
    ensures n == 0 <==> forall i :: 0 <= i < |h| ==> h[i].role != role
    ensures n == |h| <==> forall i :: 0 <= i < |h| ==> h[i].role == role
    decreases |h|
  {
    if |h| == 0 then 0 else (if h[0].role == role then 1 else 0) + Count(h[1..], role)
  }

  /** `/api/stats` */
  function Stats(h: seq<Entry>): (r: Response)
    ensures r.status == 200 && r.body.Counts?
    ensures r.body.total == |h|
    ensures r.body.user == Count(h, "user") && r.body.assistant == Count(h, "assistant")
    ensures r.body.user + r.body.assistant <= r.body.total
  {
    CountBoth(h);
    Response(200, Counts(|h|, Count(h, "user"), Count(h, "assistant")))
  }

  /** Every record with `provider` set to `p`, as `dict(m)` followed by `m_copy['provider'] = p`. */
  function Tag(ms: seq<Record>, p: string): (r: seq<Record>)
    ensures |r| == |ms|
    ensures forall i :: 0 <= i < |r| ==> "provider" in r[i] && r[i]["provider"] == Str(p)
    ensures forall i :: 0 <= i < |r| ==> r[i].Keys == ms[i].Keys + {"provider"}
    ensures forall i, k :: 0 <= i < |r| && k in ms[i] && k != "provider" ==> r[i][k] == ms[i][k]
  {
    seq(|ms|, i requires 0 <= i < |ms| => ms[i]["provider" := Str(p)])
  }

  /** The record `/api/models` sends for a Gemini model. */
  function GeminiRecord(m: Gemini.ModelInfo): (r: Record)
    ensures r.Keys == {"id", "name", "owned_by", "active"}
    ensures r["id"] == Str(m.id) && r["name"] == Str(m.name)
  {
    map["id" := Str(m.id), "name" := Str(m.name), "owned_by" := Str(m.ownedBy), "active" := Flag(m.active)]
  }

  function GeminiRecords(ms: seq<Gemini.ModelInfo>): (r: seq<Record>)
    ensures |r| == |ms|
    ensures forall i :: 0 <= i < |r| ==> r[i] == GeminiRecord(ms[i])
  {
    seq(|ms|, i requires 0 <= i < |ms| => GeminiRecord(ms[i]))
  }

  /**
   * `/api/models`. `groq` is the Groq client's listing (`None`: no client);
   * `gemini` is what the SDK lists for the Gemini client (`None`: no client;
   * `Some(None)`: the SDK raised).
   */
  function GetModels(provider: Option<string>, groq: Option<Listing>, gemini: Option<Option<seq<Gemini.RawModel>>>): (r: Response)
    ensures r.status == 200 <==> r.body.Models?
    ensures r.status in {200, 400, 500}
    ensures var p := ToLowerAscii(if provider.Some? then provider.value else "groq");
      && (p == "gemini" && gemini.None? ==> r == Response(400, Failure(GeminiMissing, None)))
      && (p == "gemini" && gemini.Some? ==> r == Response(200, Models(GeminiRecords(Gemini.ListModels(gemini.value, false)))))
      && (p == "all" ==> r == Response(200, Models(AllModels(groq, gemini))))
      && (p != "gemini" && p != "all" && groq.None? ==> r == Response(500, Failure(NoListModels, None)))
      && (p != "gemini" && p != "all" && groq.Some? && groq.value.ListFailed? ==> r == Response(500, Failure(groq.value.error, None)))
      && (p != "gemini" && p != "all" && groq.Some? && groq.value.Listed? ==> r == Response(200, Models(groq.value.models)))
  {
    var p := ToLowerAscii(if provider.Some? then provider.value else "groq");
    if p == "gemini" then
      if gemini.None? then Response(400, Failure(GeminiMissing, None))
      else Response(200, Models(GeminiRecords(Gemini.ListModels(gemini.value, false))))
    else if p == "all" then
      Response(200, Models(AllModels(groq, gemini)))
    else
      match groq
      case None => Response(500, Failure(NoListModels, None))
      case Some(ListFailed(e)) => Response(500, Failure(e, None))
      case Some(Listed(ms)) => Response(200, Models(ms))
  }

  /** The `all` merge: Groq's records, then Gemini's, each tagged; a failing or absent provider adds nothing. */
  function AllModels(groq: Option<Listing>, gemini: Option<Option<seq<Gemini.RawModel>>>): (r: seq<Record>)
    ensures forall i :: 0 <= i < |r| ==> "provider" in r[i] && r[i]["provider"] in {Str("groq"), Str("gemini")}
  {
    var fromGroq := if groq.Some? && groq.value.Listed? then Tag(groq.value.models, "groq") else [];
    var fromGemini := if gemini.Some? then Tag(GeminiRecords(Gemini.ListModels(gemini.value, false)), "gemini") else [];
    fromGroq + fromGemini
  }

  /** Roles are `user` and `assistant`, and every assistant entry answers the user entry just before it. */
  predicate Paired(h: seq<Entry>) {
    && (forall i :: 0 <= i < |h| ==> h[i].role == "user" || h[i].role == "assistant")
    && (forall i :: 0 <= i < |h| && h[i].role == "assistant" ==> i > 0 && h[i - 1].role == "user")
  }

  // ---------------------------------------------------------------------
  // Lemmas

  lemma LowerGroq()
    ensures ToLowerAscii("groq") == "groq"
  {
  }

  /**
   * Chat goes to Gemini exactly when it is asked for in any letter case, or
   * when Groq is asked for, or nothing is, while only Gemini is configured.
   */
  lemma ProviderGemini(requested: Option<string>, clients: Clients)
    ensures Provider(requested, clients) == "gemini" <==>
      || (!NamesGroq(requested) && ToLowerAscii(requested.value) == "gemini")
      || (NamesGroq(requested) && clients.groq.None? && clients.gemini.Some?)
  {
  }

  /** The provider chosen never holds an upper-case ASCII letter. */
  lemma ProviderLower(requested: Option<string>, clients: Clients)
    ensures forall i :: 0 <= i < |Provider(requested, clients)| ==> !('A' <= Provider(requested, clients)[i] <= 'Z')
  {
    var p := Provider(requested, clients);
    if !NamesGroq(requested) {
      forall i | 0 <= i < |p| ensures !('A' <= p[i] <= 'Z') {
        LowerChar(requested.value, i);
      }
    }
  }

  lemma LowerChar(s: string, i: nat)
    requires i < |s|
    ensures !('A' <= ToLowerAscii(s)[i] <= 'Z')
  {
  }

  /** A provider name other than `gemini` and `all`, in any case, lists Groq's models as the default does. */
  lemma UnknownProviderIsGroq(x: string, groq: Option<Listing>, gemini: Option<Option<seq<Gemini.RawModel>>>)
    requires ToLowerAscii(x) != "gemini" && ToLowerAscii(x) != "all"
    ensures GetModels(Some(x), groq, gemini) == GetModels(None, groq, gemini)
  {
    LowerGroq();
  }

  /** The provider of `/api/models` is read without regard to letter case. */
  lemma GetModelsIgnoresCase(x: string, y: string, groq: Option<Listing>, gemini: Option<Option<seq<Gemini.RawModel>>>)
    requires ToLowerAscii(x) == ToLowerAscii(y)
    ensures GetModels(Some(x), groq, gemini) == GetModels(Some(y), groq, gemini)
  {
  }

  /** User and assistant entries are disjoint, so together they are at most all entries. */
  lemma {:induction false} CountBoth(h: seq<Entry>)
    ensures Count(h, "user") + Count(h, "assistant") <= |h|
    decreases |h|
  {
    if |h| > 0 {
      CountBoth(h[1..]);
    }
  }

  /** Counting distributes over appending. */
  lemma {:induction false} CountAppend(a: seq<Entry>, b: seq<Entry>, role: string)
    ensures Count(a + b, role) == Count(a, role) + Count(b, role)
    decreases |a|
  {
    if |a| == 0 {
      assert a + b == b;
    } else {
      assert (a + b)[1..] == a[1..] + b;
      CountAppend(a[1..], b, role);
    }
  }

  /**
   * A chat the provider answers appends exactly the user entry and the
   * reply, both tagged with the model, after sending the whole history
   * including the new user entry.
   */
  lemma ChatAnswered(h: seq<Entry>, req: ChatRequest, clients: Clients, now: Times, c: Chatter, a: string)
    requires req.message.Some? && req.message.value != ""
    requires var p := Provider(req.provider, clients); (if p == "gemini" then clients.gemini else clients.groq) == Some(c)
    requires var model := if req.model.Some? then req.model.value else DefaultModel;
      var user := Entry("user", req.message.value, now.asked, model);
      c(Turns(h + [user]), model) == Gemini.Answer(a)
    ensures var model := if req.model.Some? then req.model.value else DefaultModel;
      Chat(h, req, clients, now) == ChatResult(
        h + [Entry("user", req.message.value, now.asked, model), Entry("assistant", a, now.answered, model)],
        Response(200, Reply(a, now.answered)))
  {
    var model := if req.model.Some? then req.model.value else DefaultModel;
    assert h + [Entry("user", req.message.value, now.asked, model)] + [Entry("assistant", a, now.answered, model)]
      == h + [Entry("user", req.message.value, now.asked, model), Entry("assistant", a, now.answered, model)];
  }

  /** An absent or failing provider keeps the user entry and adds no reply. */
  lemma ChatUnanswered(h: seq<Entry>, req: ChatRequest, clients: Clients, now: Times)
    requires req.message.Some? && req.message.value != ""
    requires Chat(h, req, clients, now).response.status != 200
    ensures var model := if req.model.Some? then req.model.value else DefaultModel;
      Chat(h, req, clients, now).history == h + [Entry("user", req.message.value, now.asked, model)]
  {
  }

  /** Chat keeps the history paired, whatever the provider does. */
  lemma ChatPaired(h: seq<Entry>, req: ChatRequest, clients: Clients, now: Times)
    requires Paired(h)
    ensures Paired(Chat(h, req, clients, now).history)
  {
    var r := Chat(h, req, clients, now).history;
    forall i | 0 <= i < |r| ensures r[i].role == "user" || r[i].role == "assistant" {
      if i < |h| {
        assert r[i] == r[..|h|][i];
      }
    }
    forall i | 0 <= i < |r| && r[i].role == "assistant" ensures i > 0 && r[i - 1].role == "user" {
      if i < |h| {
        assert r[i] == r[..|h|][i];
        assert r[i - 1] == r[..|h|][i - 1];
      } else if i == |h| + 1 {
        assert r[i - 1] == r[|h|];
      }
    }
  }

  /** In a paired history there are never more replies than questions. */
  lemma {:induction false} PairedCounts(h: seq<Entry>)
    requires Paired(h)
    ensures Count(h, "assistant") <= Count(h, "user")
    ensures |h| > 0 && h[|h| - 1].role == "user" ==> Count(h, "assistant") < Count(h, "user")
    decreases |h|
  {
    if |h| > 0 {
      var init := h[..|h| - 1];
      var last := h[|h| - 1];
      assert h == init + [last];
      assert Paired(init) by {
        forall i | 0 <= i < |init| ensures init[i] == h[i] {
        }
      }
      PairedCounts(init);
      CountAppend(init, [last], "user");
      CountAppend(init, [last], "assistant");
      assert [last][1..] == [];
      if last.role == "assistant" {
        assert |h| > 1 && h[|h| - 2].role == "user";
        assert init[|init| - 1].role == "user";
      }
    }
  }

  /** An answered chat adds one to the user count and one to the assistant count. */
  lemma StatsAfterAnswer(h: seq<Entry>, req: ChatRequest, clients: Clients, now: Times)
    requires Chat(h, req, clients, now).response.status == 200
    ensures var before := Stats(h).body; var after := Stats(Chat(h, req, clients, now).history).body;
      && after.total == before.total + 2
      && after.user == before.user + 1
      && after.assistant == before.assistant + 1
  {
    var r := Chat(h, req, clients, now).history;
    assert r == h + r[|h|..];
    var tail := r[|h|..];
    assert tail == [r[|h|]] + [r[|h| + 1]];
    CountAppend(h, tail, "user");
    CountAppend(h, tail, "assistant");
    CountAppend([r[|h|]], [r[|h| + 1]], "user");
    CountAppend([r[|h|]], [r[|h| + 1]], "assistant");
  }

  /** Clearing, by either endpoint, zeroes every count. */
  lemma StatsAfterClear(h: seq<Entry>)
    ensures Stats(Clear(h).history).body == Counts(0, 0, 0)
    ensures Stats(NewChat(h).history).body == Counts(0, 0, 0)
  {
  }

  /**
   * The `all` list is Groq's records, then Gemini's, in their own orders;
   * each keeps its fields and gains its provider.
   */
  lemma AllOrder(gs: seq<Record>, listing: Option<seq<Gemini.RawModel>>)
    ensures MergedInOrder(AllModels(Some(Listed(gs)), Some(listing)), gs, Gemini.ListModels(listing, false))
  {
    var ms := Gemini.ListModels(listing, false);
    assert AllModels(Some(Listed(gs)), Some(listing)) == Tag(gs, "groq") + Tag(GeminiRecords(ms), "gemini") by {
      AllShape(gs, listing, ms);
    }
    MergedParts(gs, ms);
  }

  /** Tagged Groq records followed by tagged Gemini records are merged in order. */
  lemma MergedParts(gs: seq<Record>, ms: seq<Gemini.ModelInfo>)
    ensures MergedInOrder(Tag(gs, "groq") + Tag(GeminiRecords(ms), "gemini"), gs, ms)
  {
    var g := Tag(gs, "groq");
    var m := Tag(GeminiRecords(ms), "gemini");
    GroqPart(gs, g, m, g + m);
    GeminiPart(|gs|, g, ms, m, g + m);
  }

  /** `r` is `gs` tagged with Groq, then the records of `ms` tagged with Gemini, in order. */
  predicate MergedInOrder(r: seq<Record>, gs: seq<Record>, ms: seq<Gemini.ModelInfo>) {
    && |r| == |gs| + |ms|
    && GroqFront(r, gs)
    && GeminiBack(r, |gs|, ms)
  }

  /** The first `|gs|` records are those of `gs`, tagged with Groq. */
  predicate GroqFront(r: seq<Record>, gs: seq<Record>) {
    |gs| <= |r| && forall i :: 0 <= i < |gs| ==> r[i] == gs[i]["provider" := Str("groq")]
  }

  /** From position `n` on, the records are those of `ms`, tagged with Gemini. */
  predicate GeminiBack(r: seq<Record>, n: nat, ms: seq<Gemini.ModelInfo>) {
    |r| == n + |ms| && forall i :: n <= i < |r| ==> r[i] == GeminiRecord(ms[i - n])["provider" := Str("gemini")]
  }

  /** The `all` list of a listed Groq client and a Gemini client. */
  lemma AllShape(gs: seq<Record>, listing: Option<seq<Gemini.RawModel>>, ms: seq<Gemini.ModelInfo>)
    requires ms == Gemini.ListModels(listing, false)
    ensures AllModels(Some(Listed(gs)), Some(listing)) == Tag(gs, "groq") + Tag(GeminiRecords(ms), "gemini")
  {
  }

  /** The front of the merge is the tagged Groq listing. */
  lemma GroqPart(gs: seq<Record>, g: seq<Record>, m: seq<Record>, r: seq<Record>)
    requires g == Tag(gs, "groq") && r == g + m
    ensures GroqFront(r, gs)
  {
    forall i | 0 <= i < |gs| ensures r[i] == gs[i]["provider" := Str("groq")] {
      assert r[i] == g[i];
    }
  }

  /** The back of the merge is the tagged Gemini listing, in order. */
  lemma GeminiPart(n: nat, g: seq<Record>, ms: seq<Gemini.ModelInfo>, m: seq<Record>, r: seq<Record>)
    requires |g| == n && m == Tag(GeminiRecords(ms), "gemini") && r == g + m
    ensures GeminiBack(r, n, ms)
  {
    var recs := GeminiRecords(ms);
    forall i | n <= i < |r|
      ensures r[i] == GeminiRecord(ms[i - n])["provider" := Str("gemini")]
    {
      var j := i - n;
      assert r[i] == m[j];
      assert m[j] == recs[j]["provider" := Str("gemini")];
      assert recs[j] == GeminiRecord(ms[j]);
    }
  }

  /** A provider that fails or is absent drops out of the `all` list; the other one is still listed. */
  lemma AllSkipsFailures(e: string, listing: Option<seq<Gemini.RawModel>>)
    ensures AllModels(Some(ListFailed(e)), Some(listing)) == Tag(GeminiRecords(Gemini.ListModels(listing, false)), "gemini")
    ensures AllModels(None, Some(listing)) == Tag(GeminiRecords(Gemini.ListModels(listing, false)), "gemini")
    ensures forall gs :: AllModels(Some(Listed(gs)), None) == Tag(gs, "groq")
  {
    assert forall s: seq<Record> :: [] + s == s;
    assert forall s: seq<Record> :: s + [] == s;
  }
}

=== FILE: sessions.dfy ===
/**
 * The title shown for a session in the page client's sidebar: the stored
 * title, or `Chat ` and the first eight characters of the session id when
 * there is none, cut to 27 characters plus `...` when longer than 30. The
 * full title stays available as the hover text.
 */
module Sessions {
  import opened Text

  const MaxShown: nat := 30
  const Kept: nat := 27
  const IdShown: nat := 8

  /** `session.title || \`Chat ${session.session_id.substring(0, 8)}\``: an empty title counts as none. */
  function Title(title: Option<string>, id: string): (t: string)
    ensures |t| > 0
    ensures title.Some? && |title.value| > 0 ==> t == title.value
    ensures (title.None? || title.value == "") ==> StartsWith(t, "Chat ") && |t| <= 5 + IdShown
    ensures (title.None? || title.value == "") ==>
      && StartsWith(id, t[5..])
      && (|t[5..]| == IdShown || t[5..] == id)
  {
    if title.Some? && |title.value| > 0 then title.value
    else "Chat " + id[..if |id| < IdShown then |id| else IdShown]
  }

  /** The sidebar text: titles longer than 30 characters are cut to 27 and marked with `...`. */
  function Shown(t: string): (d: string)
    ensures |d| <= MaxShown
    ensures |t| <= MaxShown ==> d == t
    ensures |t| > MaxShown ==> |d| == MaxShown && d[..Kept] == t[..Kept] && d[Kept..] == "..."
  {
    if |t| > MaxShown then t[..Kept] + "..." else t
  }

  // ---------------------------------------------------------------------
  // Lemmas

  /** Cutting twice is cutting once. */
  lemma ShownIdempotent(t: string)
    ensures Shown(Shown(t)) == Shown(t)
  {
  }

  /** Two titles look the same in the sidebar iff they agree up to the cut. */
  lemma ShownSame(t: string, u: string)
    requires |t| > MaxShown && |u| > MaxShown
    ensures Shown(t) == Shown(u) <==> t[..Kept] == u[..Kept]
  {
    if Shown(t) == Shown(u) {
      assert Shown(t)[..Kept] == Shown(u)[..Kept];
    }
  }

  /** The shown text never hides what it keeps: up to the marker, it is a prefix of the full title. */
  lemma ShownPrefix(t: string)
    ensures var d := Shown(t);
      (d == t) || (|d| == MaxShown && StartsWith(t, d[..Kept]) && |t| > MaxShown)
  {
  }

  /** A default title is never cut. */
  lemma DefaultNotCut(id: string)
    ensures Shown(Title(None, id)) == Title(None, id)
    ensures Title(None, id) == Title(Some(""), id)
  {
  }

  /** An id shorter than eight characters is shown whole. */
  lemma DefaultTitleOfShortId(id: string)
    requires |id| < IdShown
    ensures Title(None, id) == "Chat " + id
    ensures |Title(None, id)| == 5 + |id|
  {
  }

  /** An id of eight or more characters contributes exactly its first eight. */
  lemma DefaultTitleOfLongId(id: string)
    requires |id| >= IdShown
    ensures Title(None, id) == "Chat " + id[..IdShown]
    ensures |Title(None, id)| == 13
  {
  }
}

=== FILE: speech.dfy ===
/**
 * The text cleaner in front of the text-to-speech request of the page
 * client: every `<…>` span becomes a space, every run of white space one
 * space, the three entities are restored (`&lt;`, `&gt;`, then `&amp;`) and
 * the result is trimmed.
 */
module SpeechText {
  import opened Text
  import opened Rewrite
  import Entities

  /** Matcher of `<[^>]*>`: a `<`, anything but `>` (line breaks included), then the first `>`. */
  function TagAt(t: string): (m: Match)
    ensures m.Matched? <==> |t| > 0 && t[0] == '<' && '>' in t[1..]
    ensures m.Matched? ==> m.replacement == " " && 2 <= m.consumed <= |t|
    ensures m.Matched? ==> t[m.consumed - 1] == '>' && '>' !in t[1..m.consumed - 1]
  {
    if |t| > 0 && t[0] == '<' then
      var k := IndexOf(t[1..], '>');
      if k < |t| - 1 then Matched(" ", k + 2) else NoMatch
    else NoMatch
  }

  /** Matcher of `\s+`: the maximal run of white space at the front. */
  function SpaceAt(t: string): (m: Match)
    ensures m.Matched? <==> |t| > 0 && IsSpace(t[0])
    ensures m.Matched? ==> m.replacement == " " && 1 <= m.consumed <= |t| && IsBlank(t[..m.consumed])
    ensures m.Matched? ==> m.consumed == |t| || !IsSpace(t[m.consumed])
  {
    var n := SpaceRun(t);
    if n > 0 then Matched(" ", n) else NoMatch
  }

  /** `text.replace(/<[^>]*>/g, ' ')`: text without `<` holds no tag. */
  function StripTags(s: string): (r: string)
    ensures '<' !in s ==> r == s
  {
    if '<' !in s then
      ScanWithout(s, TagAt, '<');
      Scan(s, TagAt)
    else Scan(s, TagAt)
  }

  /** `text.replace(/\s+/g, ' ')`: text without white space is left alone. */
  function Collapse(s: string): (r: string)
    ensures (forall i :: 0 <= i < |s| ==> !IsSpace(s[i])) ==> r == s
  {
    if forall i :: 0 <= i < |s| ==> !IsSpace(s[i]) then
      assert Scan(s, SpaceAt) == s by {
        forall k | 0 <= k < |s| ensures SpaceAt(s[k..]).NoMatch? {
          assert s[k..][0] == s[k];
        }
        ScanIdentity(s, SpaceAt);
      }
      Scan(s, SpaceAt)
    else Scan(s, SpaceAt)
  }

  /** No `<` is followed, anywhere later, by a `>`: nothing tag-shaped is left. */
  predicate NoTagLeft(r: string) {
    forall i, j :: 0 <= i < j < |r| && r[i] == '<' ==> r[j] != '>'
  }

  /** No two white-space characters are adjacent. */
  predicate SingleSpaced(r: string) {
    forall i :: 0 <= i < |r| - 1 && IsSpace(r[i]) ==> !IsSpace(r[i + 1])
  }

  /** The only white space is the plain space. */
  predicate PlainSpaces(r: string) {
    forall i :: 0 <= i < |r| && IsSpace(r[i]) ==> r[i] == ' '
  }

  /** No white space at either end. */
  predicate Trimmed(r: string) {
    |r| == 0 || (!IsSpace(r[0]) && !IsSpace(r[|r| - 1]))
  }

  /** Text as it is sent to be spoken: trimmed, single-spaced, plain spaces only. */
  predicate Speakable(r: string) {
    Trimmed(r) && SingleSpaced(r) && PlainSpaces(r)
  }

  /** The whole cleaner, passes in source order. */
  function Clean(s: string): (r: string)
    ensures Speakable(r)
    ensures |r| <= |s|
  {
    var stripped := StripTags(s);
    var collapsed := Collapse(stripped);
    var restored := Entities.Unescape(collapsed);
    CollapseSpec(stripped);
    UnescapeSpacing(collapsed);
    TrimSpec(restored);
    TrimKeepsSpacing(restored);
    StripTagsShorter(s);
    CollapseShorter(stripped);
    UnescapeShorter(collapsed);
    Trim(restored)
  }

  // ---------------------------------------------------------------------
  // Lemmas: the tag pass

  /** Prepending one character keeps `NoTagLeft` unless it is a `<` with a `>` after it. */
  lemma ConsNoTag(c: char, x: string)
    requires NoTagLeft(x)
    requires c == '<' ==> '>' !in x
    ensures NoTagLeft([c] + x)
  {
    var r := [c] + x;
    forall i, j | 0 <= i < j < |r| && r[i] == '<' ensures r[j] != '>' {
      if i == 0 {
        assert r[j] == x[j - 1];
      } else {
        assert r[i] == x[i - 1] && r[j] == x[j - 1];
      }
    }
  }

  /** Whatever the message holds, nothing tag-shaped survives the tag pass. */
  lemma {:induction false} StripTagsLeavesNoTag(s: string)
    ensures NoTagLeft(StripTags(s))
    decreases |s|
  {
    if |s| > 0 {
      var m := TagAt(s);
      if m.Matched? {
        StripTagsLeavesNoTag(s[m.consumed..]);
        ConsNoTag(' ', StripTags(s[m.consumed..]));
        assert " " == [' '];
      } else {
        StripTagsLeavesNoTag(s[1..]);
        if s[0] == '<' {
          assert '>' !in s[1..];
          ScanKeepsAbsent(s[1..], TagAt, '>');
        }
        ConsNoTag(s[0], StripTags(s[1..]));
      }
    }
  }

  /** Text without `<` goes through the tag pass unchanged. */
  lemma StripTagsNone(s: string)
    requires '<' !in s
    ensures StripTags(s) == s
  {
    ScanWithout(s, TagAt, '<');
  }

  /**
   * The cleaner works on the raw message, not on rendered HTML: a `<` with a
   * `>` later on swallows everything between them, prose included.
   */
  lemma StripTagsSpan(a: string, m: string, b: string)
    requires '<' !in a && '>' !in m
    ensures StripTags(a + "<" + m + ">" + b) == a + " " + StripTags(b)
  {
    var tag := "<" + m + ">";
    var t := tag + b;
    assert a + "<" + m + ">" + b == a + t;
    NoTagStarts(a, t);
    ScanCopiesPrefix(a, t, TagAt);
    TagAtSpan(tag, m, b);
    ScanMatchedFront(tag, b, TagAt, " ");
  }

  /** The tag matcher declines at every position of a prefix without `<`. */
  lemma NoTagStarts(a: string, t: string)
    requires '<' !in a
    ensures Declines(a + t, TagAt, |a|)
  {
    forall k | 0 <= k < |a| ensures TagAt((a + t)[k..]).NoMatch? {
      assert (a + t)[k..][0] == a[k];
    }
  }

  /** A span from `<` to the first `>` is one match. */
  lemma TagAtSpan(tag: string, m: string, b: string)
    requires tag == "<" + m + ">" && '>' !in m
    ensures TagAt(tag + b) == Matched(" ", |tag|)
  {
    var t := tag + b;
    assert t[1..] == m + ">" + b;
    IndexOfPrefix(t[1..], m, '>');
  }

  lemma {:induction false} StripTagsShorter(s: string)
    ensures |StripTags(s)| <= |s|
    decreases |s|
  {
    if |s| > 0 {
      var m := TagAt(s);
      if m.Matched? {
        StripTagsShorter(s[m.consumed..]);
      } else {
        StripTagsShorter(s[1..]);
      }
    }
  }

  // ---------------------------------------------------------------------
  // Lemmas: spacing

  /** Prepending one character to single-spaced text. */
  lemma ConsSpacing(c: char, x: string)
    requires SingleSpaced(x) && PlainSpaces(x)
    requires IsSpace(c) ==> c == ' '
    requires IsSpace(c) && |x| > 0 ==> !IsSpace(x[0])
    ensures SingleSpaced([c] + x) && PlainSpaces([c] + x)
  {
    var r := [c] + x;
    forall i | 1 <= i < |r| ensures r[i] == x[i - 1] {
    }
  }

  /** Prepending text without white space to single-spaced text. */
  lemma SolidSpacing(a: string, x: string)
    requires forall i :: 0 <= i < |a| ==> !IsSpace(a[i])
    requires SingleSpaced(x) && PlainSpaces(x)
    ensures SingleSpaced(a + x) && PlainSpaces(a + x)
  {
    var r := a + x;
    forall i | |a| <= i < |r| ensures r[i] == x[i - |a|] {
    }
  }

  /** The space pass leaves single plain spaces, and keeps whether the text starts with one. */
  lemma {:induction false} CollapseSpec(s: string)
    ensures var r := Collapse(s);
      && SingleSpaced(r) && PlainSpaces(r)
      && (|r| == 0 <==> |s| == 0)
      && (|s| > 0 ==> (IsSpace(r[0]) <==> IsSpace(s[0])))
    decreases |s|
  {
    if |s| > 0 {
      var m := SpaceAt(s);
      if m.Matched? {
        var rest := s[m.consumed..];
        CollapseSpec(rest);
        ConsSpacing(' ', Collapse(rest));
        assert " " == [' '];
      } else {
        CollapseSpec(s[1..]);
        ConsSpacing(s[0], Collapse(s[1..]));
      }
    }
  }

  /** Text that is already single-spaced with plain spaces goes through the space pass unchanged. */
  lemma {:induction false} CollapseKeeps(s: string)
    requires SingleSpaced(s) && PlainSpaces(s)
    ensures Collapse(s) == s
    decreases |s|
  {
    if |s| > 0 {
      assert SingleSpaced(s[1..]) && PlainSpaces(s[1..]) by {
        forall i | 0 <= i < |s| - 1 ensures s[1..][i] == s[i + 1] {
        }
      }
      CollapseKeeps(s[1..]);
      if IsSpace(s[0]) {
        assert SpaceRun(s) == 1 by {
          if |s| > 1 {
            assert !IsSpace(s[1]);
          }
        }
        assert s == " " + s[1..];
      } else {
        assert s == [s[0]] + s[1..];
      }
    }
  }

  /** The space pass keeps the order of `<` and `>`. */
  lemma {:induction false} CollapseNoTag(s: string)
    requires NoTagLeft(s)
    ensures NoTagLeft(Collapse(s))
    decreases |s|
  {
    if |s| > 0 {
      var m := SpaceAt(s);
      var n := if m.Matched? then m.consumed else 1;
      assert NoTagLeft(s[n..]) by {
        forall i, j | 0 <= i < j < |s| - n && s[n..][i] == '<' ensures s[n..][j] != '>' {
          assert s[n..][i] == s[n + i] && s[n..][j] == s[n + j];
        }
      }
      CollapseNoTag(s[n..]);
      if m.Matched? {
        ConsNoTag(' ', Collapse(s[n..]));
        assert " " == [' '];
      } else {
        if s[0] == '<' {
          assert '>' !in s[1..] by {
            forall j | 0 <= j < |s| - 1 ensures s[1..][j] != '>' {
              assert s[1..][j] == s[j + 1];
            }
          }
          ScanKeepsAbsent(s[1..], SpaceAt, '>');
        }
        ConsNoTag(s[0], Collapse(s[1..]));
      }
    }
  }

  lemma {:induction false} CollapseShorter(s: string)
    ensures |Collapse(s)| <= |s|
    decreases |s|
  {
    if |s| > 0 {
      var m := SpaceAt(s);
      if m.Matched? {
        CollapseShorter(s[m.consumed..]);
      } else {
        CollapseShorter(s[1..]);
      }
    }
  }

  /**
   * A literal replacement whose pattern and replacement hold no white space
   * (and whose replacement is not empty) keeps text single-spaced.
   */
  lemma {:induction false} ReplaceSpacing(s: string, pat: string, rep: string)
    requires |pat| > 0 && |rep| > 0
    requires forall i :: 0 <= i < |pat| ==> !IsSpace(pat[i])
    requires forall i :: 0 <= i < |rep| ==> !IsSpace(rep[i])
    requires SingleSpaced(s) && PlainSpaces(s)
    ensures var r := ReplaceAll(s, pat, rep);
      && SingleSpaced(r) && PlainSpaces(r)
      && (|r| == 0 <==> |s| == 0)
      && (|s| > 0 ==> (IsSpace(r[0]) <==> IsSpace(s[0])))
    decreases |s|
  {
    if |s| > 0 {
      if StartsWith(s, pat) {
        var rest := s[|pat|..];
        assert SingleSpaced(rest) && PlainSpaces(rest) by {
          forall i | 0 <= i < |rest| ensures rest[i] == s[i + |pat|] {
          }
        }
        ReplaceSpacing(rest, pat, rep);
        SolidSpacing(rep, ReplaceAll(rest, pat, rep));
        assert s[0] == pat[0];
      } else {
        var rest := s[1..];
        assert SingleSpaced(rest) && PlainSpaces(rest) by {
          forall i | 0 <= i < |rest| ensures rest[i] == s[i + 1] {
          }
        }
        ReplaceSpacing(rest, pat, rep);
        ConsSpacing(s[0], ReplaceAll(rest, pat, rep));
      }
    }
  }

  /** Restoring the entities keeps text single-spaced. */
  lemma UnescapeSpacing(s: string)
    requires SingleSpaced(s) && PlainSpaces(s)
    ensures SingleSpaced(Entities.Unescape(s)) && PlainSpaces(Entities.Unescape(s))
  {
    var lt := "&lt;";
    var gt := "&gt;";
    var amp := "&amp;";
    ReplaceSpacing(s, lt, "<");
    var a := ReplaceAll(s, lt, "<");
    ReplaceSpacing(a, gt, ">");
    ReplaceSpacing(ReplaceAll(a, gt, ">"), amp, "&");
  }

  /** Escaping keeps text single-spaced. */
  lemma EscapeSpacing(s: string)
    requires SingleSpaced(s) && PlainSpaces(s)
    ensures SingleSpaced(Entities.Escape(s)) && PlainSpaces(Entities.Escape(s))
    ensures |s| > 0 ==> (IsSpace(Entities.Escape(s)[0]) <==> IsSpace(s[0]))
    ensures |s| > 0 ==> (IsSpace(Entities.Escape(s)[|Entities.Escape(s)| - 1]) <==> IsSpace(s[|s| - 1]))
  {
    var lt := "&lt;";
    var gt := "&gt;";
    ReplaceSpacing(s, "<", lt);
    var a := ReplaceAll(s, "<", lt);
    ReplaceSpacing(a, ">", gt);
    ReplaceLast(s, "<", lt);
    ReplaceLast(a, ">", gt);
  }

  /** Whether the last character is white space survives a replacement without white space. */
  lemma {:induction false} ReplaceLast(s: string, pat: string, rep: string)
    requires |pat| > 0 && |rep| > 0
    requires forall i :: 0 <= i < |pat| ==> !IsSpace(pat[i])
    requires forall i :: 0 <= i < |rep| ==> !IsSpace(rep[i])
    ensures var r := ReplaceAll(s, pat, rep);
      && (|r| == 0 <==> |s| == 0)
      && (|s| > 0 ==> (IsSpace(r[|r| - 1]) <==> IsSpace(s[|s| - 1])))
    decreases |s|
  {
    if |s| > 0 {
      var r := ReplaceAll(s, pat, rep);
      if StartsWith(s, pat) {
        var rest := s[|pat|..];
        var t := ReplaceAll(rest, pat, rep);
        assert r == rep + t;
        assert (|t| == 0 <==> |rest| == 0)
          && (|rest| > 0 ==> (IsSpace(t[|t| - 1]) <==> IsSpace(rest[|rest| - 1]))) by {
          ReplaceLast(rest, pat, rep);
        }
        if |rest| == 0 {
          assert s[|s| - 1] == pat[|pat| - 1];
          assert r[|r| - 1] == rep[|rep| - 1];
        } else {
          assert s[|s| - 1] == rest[|rest| - 1];
          assert r[|r| - 1] == t[|t| - 1];
        }
      } else {
        var rest := s[1..];
        var t := ReplaceAll(rest, pat, rep);
        assert r == [s[0]] + t;
        assert (|t| == 0 <==> |rest| == 0)
          && (|rest| > 0 ==> (IsSpace(t[|t| - 1]) <==> IsSpace(rest[|rest| - 1]))) by {
          ReplaceLast(rest, pat, rep);
        }
        if |rest| > 0 {
          assert s[|s| - 1] == rest[|rest| - 1];
          assert r[|r| - 1] == t[|t| - 1];
        }
      }
    }
  }

  lemma UnescapeShorter(s: string)
    ensures |Entities.Unescape(s)| <= |s|
  {
    ReplaceShorter(s, "&lt;", "<");
    var a := ReplaceAll(s, "&lt;", "<");
    ReplaceShorter(a, "&gt;", ">");
    ReplaceShorter(ReplaceAll(a, "&gt;", ">"), "&amp;", "&");
  }

  /** A replacement no longer than its pattern never lengthens the text. */
  lemma {:induction false} ReplaceShorter(s: string, pat: string, rep: string)
    requires 0 < |pat| && |rep| <= |pat|
    ensures |ReplaceAll(s, pat, rep)| <= |s|
    decreases |s|
  {
    if |s| > 0 {
      if StartsWith(s, pat) {
        ReplaceShorter(s[|pat|..], pat, rep);
      } else {
        ReplaceShorter(s[1..], pat, rep);
      }
    }
  }

  /** Trimming cuts out an infix, which keeps the spacing. */
  lemma TrimKeepsSpacing(s: string)
    requires SingleSpaced(s) && PlainSpaces(s)
    ensures SingleSpaced(Trim(s)) && PlainSpaces(Trim(s))
  {
    TrimSpec(s);
    var a, b :| 0 <= a <= b <= |s| && Trim(s) == s[a..b] && IsBlank(s[..a]) && IsBlank(s[b..]);
    var r := s[a..b];
    forall i | 0 <= i < |r| ensures r[i] == s[a + i] {
    }
  }

  // ---------------------------------------------------------------------
  // Lemmas: the whole cleaner

  /**
   * Round trip with the renderer: prose that is already speakable and holds
   * no `&` comes back unchanged from escaping followed by cleaning.
   */
  lemma CleanEscaped(x: string)
    requires '&' !in x && Speakable(x)
    ensures Clean(Entities.Escape(x)) == x
  {
    var y := Entities.Escape(x);
    StripTagsNone(y);
    EscapeSpacing(x);
    CollapseKeeps(y);
    Entities.UnescapeEscape(x);
    if |x| > 0 {
      TrimOfTrimmed(x);
    }
  }

  /** Without `&` there is nothing to restore, so nothing tag-shaped is left in the spoken text. */
  lemma CleanNoTag(s: string)
    requires '&' !in s
    ensures NoTagLeft(Clean(s))
  {
    var collapsed := Collapse(StripTags(s));
    CollapsedNoTag(s);
    UnescapeNone(collapsed);
    TrimNoTag(collapsed);
  }

  /** The first two passes leave nothing tag-shaped and add no `&`. */
  lemma CollapsedNoTag(s: string)
    requires '&' !in s
    ensures NoTagLeft(Collapse(StripTags(s))) && '&' !in Collapse(StripTags(s))
  {
    var stripped := StripTags(s);
    StripTagsLeavesNoTag(s);
    ScanKeepsAbsent(s, TagAt, '&');
    CollapseNoTag(stripped);
    ScanKeepsAbsent(stripped, SpaceAt, '&');
  }

  /** Without `&` the entity restoration changes nothing. */
  lemma UnescapeNone(s: string)
    requires '&' !in s
    ensures Entities.Unescape(s) == s
  {
    ReplaceAllAbsent(s, "&lt;", "<");
    ReplaceAllAbsent(s, "&gt;", ">");
    ReplaceAllAbsent(s, "&amp;", "&");
  }

  /** Trimming cuts out an infix, which keeps `NoTagLeft`. */
  lemma TrimNoTag(s: string)
    requires NoTagLeft(s)
    ensures NoTagLeft(Trim(s))
  {
    TrimSpec(s);
    var a, b :| 0 <= a <= b <= |s| && Trim(s) == s[a..b] && IsBlank(s[..a]) && IsBlank(s[b..]);
    var r := s[a..b];
    forall i, j | 0 <= i < j < |r| && r[i] == '<' ensures r[j] != '>' {
      assert r[i] == s[a + i] && r[j] == s[a + j];
    }
  }

  /** Text free of white space. */
  predicate Word(w: string) {
    |w| > 0 && forall i :: 0 <= i < |w| ==> !IsSpace(w[i])
  }

  /** A tag-like span in the raw message is spoken as nothing: `a <x> b` is read `a b`. */
  lemma CleanDropsSpan(a: string, m: string, b: string)
    requires Word(a) && Word(b) && '&' !in a && '&' !in b && '<' !in a && '<' !in b
    requires '>' !in m
    ensures Clean(a + " <" + m + "> " + b) == a + " " + b
  {
    var s := a + " <" + m + "> " + b;
    assert s == (a + " ") + "<" + m + ">" + (" " + b);
    StripTagsSpan(a + " ", m, " " + b);
    StripTagsNone(" " + b);
    assert a + " " + " " + (" " + b) == a + "   " + b;
    CollapseGap(a, b);
    var t := a + " " + b;
    ReplaceAllAbsent(t, "&lt;", "<");
    ReplaceAllAbsent(t, "&gt;", ">");
    ReplaceAllAbsent(t, "&amp;", "&");
    TrimOfTrimmed(t);
  }

  /** The run of spaces between two words collapses to one. */
  lemma CollapseGap(a: string, b: string)
    requires Word(a) && Word(b)
    ensures Collapse(a + "   " + b) == a + " " + b
  {
    var gap := "   ";
    var t := gap + b;
    Regroup(a, gap, b);
    assert Scan(a + t, SpaceAt) == a + Scan(t, SpaceAt) by {
      forall k | 0 <= k < |a| ensures SpaceAt((a + t)[k..]).NoMatch? {
        assert (a + t)[k..][0] == a[k];
      }
      ScanCopiesPrefix(a, t, SpaceAt);
    }
    assert Scan(t, SpaceAt) == " " + b by {
      SpaceRunOver(gap, b);
      ScanMatchedFront(gap, b, SpaceAt, " ");
      CollapseKeeps(b);
    }
    Regroup(a, " ", b);
  }
}

=== FILE: tables.dfy ===
/**
 * The table pass of `formatMessage`, pattern
 * `(\|.+\|)\n(\|[-:\s|]+\|)\n((?:\|.+\|\n?)+)`: a header line, a separator
 * and one or more row lines become one `<table>`. The separator class holds
 * `\s`, so the separator may run over several lines; the greedy engine then
 * takes the last `|` followed by a newline after which a row can start.
 */
module Tables {
  import opened Text
  import opened Rewrite

  /** The separator's character class `[-:\s|]`. */
  predicate SepClass(c: char) {
    c == '-' || c == ':' || c == '|' || IsSpace(c)
  }

  /** Length of the maximal run of separator characters in `s` from index `i`. */
  function SepRun(s: string, i: nat): (n: nat)
    requires i <= |s|
    ensures i + n <= |s|
    ensures forall j :: i <= j < i + n ==> SepClass(s[j])
    ensures i + n < |s| ==> !SepClass(s[i + n])
    decreases |s| - i
  {
    if i < |s| && SepClass(s[i]) then 1 + SepRun(s, i + 1) else 0
  }

  /**
   * One past the last `|` at index 2 or later on the line of `t` that
   * contains index `i`, scanning from `i`; `acc` when there is none from `i` on.
   */
  function LastBar(t: string, i: nat, acc: nat): (e: nat)
    requires i <= |t| && acc <= i
    ensures acc <= e <= |t|
    ensures e > acc ==> 3 <= e && t[e - 1] == '|'
    decreases |t| - i
  {
    if i == |t| || IsLineTerminator(t[i]) then acc
    else LastBar(t, i + 1, if t[i] == '|' && 2 <= i then i + 1 else acc)
  }

  /**
   * One `\|.+\|` at the front of `t`: the greedy `.+` stops at the last `|`
   * of the line that leaves it at least one character. The result is the
   * end of that `|`.
   */
  function RowEnd(t: string): (r: Option<nat>)
    ensures r.Some? ==> 3 <= r.value <= |t| && t[0] == '|' && t[r.value - 1] == '|'
  {
    if |t| == 0 || t[0] != '|' then None
    else
      var e := LastBar(t, 1, 0);
      if e == 0 then None else Some(e)
  }

  /** Length of `(?:\|.+\|\n?)+` at the front of `t`, or 0. */
  function RowsLen(t: string): (n: nat)
    ensures n <= |t|
    ensures n > 0 <==> RowEnd(t).Some?
    decreases |t|
  {
    match RowEnd(t)
    case None => 0
    case Some(e) => if e < |t| && t[e] == '\n' then e + 1 + RowsLen(t[e + 1..]) else e
  }

  /**
   * Where the separator `\|[-:\s|]+\|` ends, searching down from `x`: the
   * largest `x` with a `|` at `x`, a newline after it and a row after that.
   */
  function SepEnd(u: string, x: nat): (r: Option<nat>)
    requires x < |u|
    ensures r.Some? ==> 2 <= r.value <= x && r.value + 2 <= |u|
    decreases x
  {
    if x < 2 then None
    else if u[x] == '|' && x + 1 < |u| && u[x + 1] == '\n' && RowEnd(u[x + 2..]).Some? then Some(x)
    else SepEnd(u, x - 1)
  }

  /** Trimmed, non-blank pieces of a pipe-separated line. */
  function Cells(line: string): seq<string> {
    NonBlank(Split(line, '|'))
  }

  /** `filter(c => c.trim()).map(c => c.trim())`. */
  function NonBlank(parts: seq<string>): (cs: seq<string>)
    ensures |cs| <= |parts|
    ensures forall i :: 0 <= i < |cs| ==> |cs[i]| > 0 && !IsSpace(cs[i][0]) && !IsSpace(cs[i][|cs[i]| - 1])
    decreases |parts|
  {
    if |parts| == 0 then []
    else
      TrimSpec(parts[0]);
      if |Trim(parts[0])| == 0 then NonBlank(parts[1..]) else [Trim(parts[0])] + NonBlank(parts[1..])
  }

  /** The cells, each inside an element `name`, concatenated. */
  function Wrap(name: string, cs: seq<string>): string
    decreases |cs|
  {
    if |cs| == 0 then [] else Tag(name, cs[0]) + Wrap(name, cs[1..])
  }

  /** One `<tr>` of `<td>` cells per line. */
  function BodyRows(lines: seq<string>): string
    decreases |lines|
  {
    if |lines| == 0 then [] else Tag("tr", Wrap("td", Cells(lines[0]))) + BodyRows(lines[1..])
  }

  /** The HTML a matched table becomes; the separator line contributes nothing. */
  function TableHtml(header: string, rows: string): string {
    "<table class=\"markdown-table\"><thead>" + Tag("tr", Wrap("th", Cells(header)))
      + "</thead><tbody>" + BodyRows(Split(Trim(rows), '\n')) + "</tbody></table>"
  }

  /** Where a matched table's parts lie: the header is `t[..header]`, the rows `t[rows..end]`. */
  datatype Span = NoTable | Span(header: nat, rows: nat, end: nat)

  /** `t` starts with a header line `\|.+\|` that ends at `n`, right before a newline. */
  predicate HeaderAt(t: string, n: nat) {
    3 <= n < |t| && t[0] == '|' && t[n] == '\n' && t[n - 1] == '|'
  }

  /** The extent of the table pattern at the front of `t`, if it matches there. */
  function TableSpan(t: string): (r: Span)
    ensures r.Span? ==> 3 <= r.header < r.rows < r.end <= |t|
    ensures r.Span? ==> HeaderAt(t, r.header) && r.header == LineEnd(t)
  {
    var n := LineEnd(t);
    if HeaderAt(t, n) then SeparatorSpan(t, n) else NoTable
  }

  /** The separator and rows after a header line that ends at `n`. */
  function SeparatorSpan(t: string, n: nat): (r: Span)
    requires HeaderAt(t, n)
    ensures r.Span? ==> r.header == n < r.rows < r.end <= |t|
  {
    if n + 1 == |t| || t[n + 1] != '|' then NoTable
    else
      var u := t[n + 1..];
      RowsSpan(t, n, SepEnd(u, SepRun(u, 1)))
  }

  /** The rows after a separator that ends with the bar at `t[n + 1 + x]`, if there is one. */
  function RowsSpan(t: string, n: nat, sep: Option<nat>): (r: Span)
    requires n + 1 < |t| && (sep.Some? ==> n + 1 + sep.value + 2 <= |t|)
    ensures r.Span? ==> r.header == n < r.rows < r.end <= |t|
  {
    match sep
    case None => NoTable
    case Some(x) =>
      var p := n + 1 + x + 2;
      var r := RowsLen(t[p..]);
      if r == 0 then NoTable else Span(n, p, p + r)
  }

  /** Matcher of the table pattern. */
  function TableAt(t: string): (m: Match)
    ensures m.Matched? ==> |t| > 0 && t[0] == '|' && 1 <= m.consumed <= |t|
  {
    match TableSpan(t)
    case NoTable => NoMatch
    case Span(_, _, _) =>
      var sp := TableSpan(t);
      Matched(TableHtml(t[..sp.header], t[sp.rows..sp.end]), sp.end)
  }

  function Tables(s: string): (r: string)
    ensures '|' !in s ==> r == s
  {
    if '|' !in s then
      ScanWithout(s, TableAt, '|');
      s
    else Scan(s, TableAt)
  }

  // ---------------------------------------------------------------------
  // Lemmas

  /** A bordered line of cells. */
  function Bordered(cs: seq<string>): string {
    "|" + Join(cs, '|') + "|"
  }

  /** Row lines, each followed by a newline. */
  function RowLines(rows: seq<string>): string
    decreases |rows|
  {
    if |rows| == 0 then [] else rows[0] + "\n" + RowLines(rows[1..])
  }

  /** Every line of `rows` is row-shaped. */
  predicate AllRowLines(rows: seq<string>) {
    forall i :: 0 <= i < |rows| ==> RowLine(rows[i])
  }

  /** A row-shaped line: between bars, on one line, with at least one character inside. */
  predicate RowLine(r: string) {
    |r| >= 3 && r[0] == '|' && r[|r| - 1] == '|' && NoLineTerminator(r)
  }

  /**
   * Cells round trip: the cells of a bordered line are the cells it was
   * built from, when each is non-blank, trimmed and free of `|`.
   */
  lemma CellsBordered(cs: seq<string>)
    requires |cs| > 0
    requires forall i :: 0 <= i < |cs| ==> |cs[i]| > 0 && !IsSpace(cs[i][0]) && !IsSpace(cs[i][|cs[i]| - 1])
    requires forall i :: 0 <= i < |cs| ==> '|' !in cs[i]
    ensures Cells(Bordered(cs)) == cs
  {
    var parts := [""] + cs + [""];
    assert Join(parts, '|') == Bordered(cs) by {
      JoinFramed(cs);
    }
    SplitJoin(parts, '|');
    NonBlankKeeps(cs);
  }

  lemma JoinFramed(cs: seq<string>)
    requires |cs| > 0
    ensures Join([""] + cs + [""], '|') == "|" + Join(cs, '|') + "|"
  {
    assert [""] + cs + [""] == [""] + (cs + [""]);
    JoinEmptyFirst(cs + [""]);
    JoinEmptyLast(cs);
    AppendAssoc("|", Join(cs, '|'), "|");
  }

  /** An empty first piece puts a bar in front. */
  lemma JoinEmptyFirst(ys: seq<string>)
    requires |ys| > 0
    ensures Join([""] + ys, '|') == "|" + Join(ys, '|')
  {
    assert ([""] + ys)[1..] == ys;
  }

  /** An empty last piece puts a bar at the end. */
  lemma {:induction false} JoinEmptyLast(cs: seq<string>)
    requires |cs| > 0
    ensures Join(cs + [""], '|') == Join(cs, '|') + "|"
    decreases |cs|
  {
    if |cs| == 1 {
      assert (cs + [""])[1..] == [""];
    } else {
      assert (cs + [""])[1..] == cs[1..] + [""];
      JoinEmptyLast(cs[1..]);
    }
  }

  /** `NonBlank` drops the two empty border pieces and keeps trimmed cells as they are. */
  lemma {:induction false} NonBlankKeeps(cs: seq<string>)
    requires forall i :: 0 <= i < |cs| ==> |cs[i]| > 0 && !IsSpace(cs[i][0]) && !IsSpace(cs[i][|cs[i]| - 1])
    ensures NonBlank([""] + cs + [""]) == cs
  {
    assert ([""] + cs + [""])[1..] == cs + [""];
    NonBlankInner(cs);
  }

  lemma {:induction false} NonBlankInner(cs: seq<string>)
    requires forall i :: 0 <= i < |cs| ==> |cs[i]| > 0 && !IsSpace(cs[i][0]) && !IsSpace(cs[i][|cs[i]| - 1])
    ensures NonBlank(cs + [""]) == cs
    decreases |cs|
  {
    if |cs| == 0 {
      assert NonBlank([""][1..]) == [];
    } else {
      TrimOfTrimmed(cs[0]);
      assert (cs + [""])[0] == cs[0];
      assert (cs + [""])[1..] == cs[1..] + [""];
      NonBlankInner(cs[1..]);
    }
  }

  /** A blank piece gives no cell: `|a| |b|` has the two cells `a` and `b`. */
  lemma BlankCellDropped()
    ensures Cells("|a| |b|") == ["a", "b"]
  {
    SplitExample();
    NonBlankExample();
  }

  lemma SplitExample()
    ensures Split("|a| |b|", '|') == ["", "a", " ", "b", ""]
  {
    var parts := ["", "a", " ", "b", ""];
    assert Join(parts, '|') == "|a| |b|";
    SplitJoin(parts, '|');
  }

  lemma NonBlankExample()
    ensures NonBlank(["", "a", " ", "b", ""]) == ["a", "b"]
  {
    var parts := ["", "a", " ", "b", ""];
    assert Trim(" ") == "";
    TrimOfTrimmed("a");
    TrimOfTrimmed("b");
    assert NonBlank([""]) == [];
    assert NonBlank(parts[3..]) == ["b"];
    assert NonBlank(parts[1..]) == ["a"] + NonBlank(parts[2..]);
  }

  /** A row line followed by a newline is one row. */
  lemma RowEndLine(r: string, more: string)
    requires RowLine(r)
    ensures RowEnd(r + "\n" + more) == Some(|r|)
  {
    var t := r + "\n" + more;
    assert t[..|r|] == r && t[|r|] == '\n';
    LastBarLine(t, 1, 0, |r|);
  }

  /**
   * The rows text `w` starts with the row line `r0`, which ends at a newline
   * or at the end of the text.
   */
  predicate RowFront(w: string, r0: string) {
    RowLine(r0) && |r0| <= |w| && w[..|r0|] == r0 && (|w| == |r0| || w[|r0|] == '\n')
  }

  /** A row line at the front is one row, also when it ends the text. */
  lemma RowEndFront(w: string, r0: string)
    requires RowFront(w, r0)
    ensures RowEnd(w) == Some(|r0|)
  {
    LastBarLine(w, 1, 0, |r0|);
  }

  lemma RowFrontLine(r0: string, more: string)
    requires RowLine(r0)
    ensures RowFront(r0 + "\n" + more, r0)
  {
    LinesAround(r0, more);
  }

  /** The scan reports the bar that closes the line at `n`. */
  lemma {:induction false} LastBarLine(t: string, i: nat, acc: nat, n: nat)
    requires acc <= i < n <= |t| && 3 <= n
    requires (n == |t| || IsLineTerminator(t[n])) && t[n - 1] == '|'
    requires NoLineTerminator(t[..n])
    ensures LastBar(t, i, acc) == n
    decreases n - i
  {
    assert t[..n][i] == t[i];
    var acc' := if t[i] == '|' && 2 <= i then i + 1 else acc;
    if i + 1 < n {
      LastBarLine(t, i + 1, acc', n);
    }
  }

  /** Consecutive row lines are consumed whole, up to a text that cannot start a row. */
  lemma {:induction false} RowsLenLines(rows: seq<string>, rest: string)
    requires AllRowLines(rows)
    requires |rest| == 0 || rest[0] != '|'
    ensures RowsLen(RowLines(rows) + rest) == |RowLines(rows)|
    decreases |rows|
  {
    if |rows| == 0 {
      assert RowLines(rows) + rest == rest;
    } else {
      var more := RowLines(rows[1..]) + rest;
      var t := RowLines(rows) + rest;
      assert t == rows[0] + "\n" + more;
      RowEndLine(rows[0], more);
      assert t[|rows[0]|] == '\n' && t[|rows[0]| + 1..] == more;
      RowsLenLines(rows[1..], rest);
    }
  }

  /** The text of the row lines trims to their join, which splits back into the lines. */
  lemma {:induction false} RowLinesJoin(rows: seq<string>)
    requires |rows| > 0
    requires AllRowLines(rows)
    ensures RowLines(rows) == Join(rows, '\n') + "\n"
    decreases |rows|
  {
    if |rows| > 1 {
      RowLinesJoin(rows[1..]);
    }
  }

  lemma RowTextLines(rows: seq<string>)
    requires |rows| > 0
    requires AllRowLines(rows)
    ensures Split(Trim(RowLines(rows)), '\n') == rows
  {
    RowLinesTrim(rows);
    RowsNoNewline(rows);
    SplitJoin(rows, '\n');
  }

  lemma RowLinesTrim(rows: seq<string>)
    requires |rows| > 0
    requires AllRowLines(rows)
    ensures Trim(RowLines(rows)) == Join(rows, '\n')
  {
    RowLinesJoin(rows);
    JoinEnds(rows);
    TrimBarredLine(RowLines(rows), Join(rows, '\n'));
  }

  lemma TrimBarredLine(r: string, j: string)
    requires |j| > 0 && j[0] == '|' && j[|j| - 1] == '|' && r == j + "\n"
    ensures Trim(r) == j
  {
    TrimBarred(j);
  }

  lemma RowsNoNewline(rows: seq<string>)
    requires AllRowLines(rows)
    ensures forall i :: 0 <= i < |rows| ==> '\n' !in rows[i]
  {
    forall i | 0 <= i < |rows| ensures '\n' !in rows[i] {
      assert NoLineTerminator(rows[i]);
    }
  }

  /** A join of row lines starts and ends with a bar. */
  lemma {:induction false} JoinEnds(rows: seq<string>)
    requires |rows| > 0
    requires AllRowLines(rows)
    ensures |Join(rows, '\n')| > 0 && Join(rows, '\n')[0] == '|' && Join(rows, '\n')[|Join(rows, '\n')| - 1] == '|'
    decreases |rows|
  {
    if |rows| > 1 {
      JoinEnds(rows[1..]);
    }
  }

  /** Trimming a barred text with one trailing newline removes just the newline. */
  lemma TrimBarred(j: string)
    requires |j| > 0 && j[0] == '|' && j[|j| - 1] == '|'
    ensures Trim(j + "\n") == j
  {
    var s := j + "\n";
    assert TrimStart(s) == s;
    assert s[..|s| - 1] == j;
    assert TrimEnd(s) == TrimEnd(j);
  }

  /**
   * A header line, a separator line and row lines make one table, and the
   * pass goes on after the last row. Some character of the first row must
   * lie outside the separator class, otherwise the greedy separator could
   * swallow that row; a row such as `| 1 | 2 |` qualifies.
   */
  lemma TableRendered(h: string, sp: string, rows: seq<string>, rest: string)
    requires RowLine(h) && RowLine(sp)
    requires forall i :: 0 <= i < |sp| ==> SepClass(sp[i])
    requires |rows| > 0 && AllRowLines(rows)
    requires exists i :: 0 <= i < |rows[0]| && !SepClass(rows[0][i])
    requires |rest| == 0 || rest[0] != '|'
    ensures Tables(h + "\n" + sp + "\n" + RowLines(rows) + rest) == TableHtml(h, RowLines(rows)) + Tables(rest)
  {
    var b := RowLines(rows);
    var t := h + "\n" + (sp + "\n" + (b + rest));
    TableTextParts(h, sp, b, rest);
    assert t[0] == '|';
    TablesIsScan(rest);
    TableScanned(h, sp, rows, rest);
  }

  /**
   * A table can also end the message: the `\n?` after the last row is
   * optional. Then the rows text is the row lines joined by newlines, and
   * nothing follows the table.
   */
  lemma TableRenderedAtEnd(h: string, sp: string, rows: seq<string>)
    requires RowLine(h) && RowLine(sp)
    requires forall i :: 0 <= i < |sp| ==> SepClass(sp[i])
    requires |rows| > 0 && AllRowLines(rows)
    requires exists i :: 0 <= i < |rows[0]| && !SepClass(rows[0][i])
    ensures Tables(h + "\n" + sp + "\n" + Join(rows, '\n')) == TableHtml(h, Join(rows, '\n'))
  {
    var b := Join(rows, '\n');
    var t := h + "\n" + (sp + "\n" + (b + ""));
    var p := |h| + 1 + |sp| + 1;
    assert h + "\n" + sp + "\n" + b == t;
    assert Scan(t, TableAt) == TableHtml(h, b) + Scan("", TableAt) by {
      TableSpanAtEnd(h, sp, rows, p, p + |b|);
      ScanAround(h, sp, b, "", p, p + |b|);
    }
    TablesIsScan(t);
  }

  /** The rows text of a table that ends the message splits back into its row lines. */
  lemma JoinedRowTextLines(rows: seq<string>)
    requires |rows| > 0 && AllRowLines(rows)
    ensures Split(Trim(Join(rows, '\n')), '\n') == rows
  {
    var b := Join(rows, '\n');
    assert Trim(b) == b by {
      JoinEnds(rows);
      TrimOfTrimmed(b);
    }
    RowsNoNewline(rows);
    SplitJoin(rows, '\n');
  }

  /** The extent of a table that ends the text. */
  lemma TableSpanAtEnd(h: string, sp: string, rows: seq<string>, p: nat, e: nat)
    requires RowLine(h) && RowLine(sp)
    requires forall i :: 0 <= i < |sp| ==> SepClass(sp[i])
    requires |rows| > 0 && AllRowLines(rows)
    requires exists i :: 0 <= i < |rows[0]| && !SepClass(rows[0][i])
    requires p == |h| + 1 + |sp| + 1 && e == p + |Join(rows, '\n')|
    ensures TableSpan(h + "\n" + (sp + "\n" + (Join(rows, '\n') + ""))) == Span(|h|, p, e)
  {
    var b := Join(rows, '\n');
    assert b + "" == b;
    SepRunStops(rows[0]);
    RowsLenJoin(rows);
    if |rows| == 1 {
      assert b == rows[0];
      assert b[..|rows[0]|] == b;
    } else {
      assert b == rows[0] + "\n" + Join(rows[1..], '\n');
      RowFrontLine(rows[0], Join(rows[1..], '\n'));
    }
    assert Framed(h, sp, rows[0]);
    TableSpanAround(h, sp, b, rows[0], |b|, p, e);
  }

  /** Row lines joined by newlines are consumed whole by the rows part. */
  lemma {:induction false} RowsLenJoin(rows: seq<string>)
    requires |rows| > 0 && AllRowLines(rows)
    ensures RowsLen(Join(rows, '\n')) == |Join(rows, '\n')|
    decreases |rows|
  {
    var j := Join(rows, '\n');
    if |rows| == 1 {
      assert j == rows[0] && j[..|j|] == j;
      RowEndFront(j, rows[0]);
    } else {
      var more := Join(rows[1..], '\n');
      assert j == rows[0] + "\n" + more;
      RowEndLine(rows[0], more);
      LinesAround(rows[0], more);
      RowsLenJoin(rows[1..]);
    }
  }

  /** The table pass is the scan with the table matcher. */
  lemma TablesIsScan(s: string)
    ensures Tables(s) == Scan(s, TableAt)
  {
    if '|' !in s {
      ScanWithout(s, TableAt, '|');
    }
  }

  /** The scan over a table's text. */
  lemma TableScanned(h: string, sp: string, rows: seq<string>, rest: string)
    requires RowLine(h) && RowLine(sp)
    requires forall i :: 0 <= i < |sp| ==> SepClass(sp[i])
    requires |rows| > 0 && AllRowLines(rows)
    requires exists i :: 0 <= i < |rows[0]| && !SepClass(rows[0][i])
    requires |rest| == 0 || rest[0] != '|'
    ensures Scan(h + "\n" + (sp + "\n" + (RowLines(rows) + rest)), TableAt) == TableHtml(h, RowLines(rows)) + Scan(rest, TableAt)
  {
    var p := |h| + 1 + |sp| + 1;
    var e := p + |RowLines(rows)|;
    TableSpanOf(h, sp, rows, rest, p, e);
    ScanAround(h, sp, RowLines(rows), rest, p, e);
  }

  lemma ScanAround(h: string, sp: string, b: string, rest: string, p: nat, e: nat)
    requires p == |h| + 1 + |sp| + 1 && e == p + |b|
    requires TableSpan(h + "\n" + (sp + "\n" + (b + rest))) == Span(|h|, p, e)
    ensures Scan(h + "\n" + (sp + "\n" + (b + rest)), TableAt) == TableHtml(h, b) + Scan(rest, TableAt)
  {
    TableAtAround(h, sp, b, rest, p, e);
    TableSlices(h, sp, b, rest, p, e);
    ScanMatchedAt(h + "\n" + (sp + "\n" + (b + rest)), TableAt, TableHtml(h, b), e);
  }

  /** The matcher's verdict on a table whose extent is known. */
  lemma TableAtAround(h: string, sp: string, b: string, rest: string, p: nat, e: nat)
    requires p == |h| + 1 + |sp| + 1 && e == p + |b|
    requires TableSpan(h + "\n" + (sp + "\n" + (b + rest))) == Span(|h|, p, e)
    ensures TableAt(h + "\n" + (sp + "\n" + (b + rest))) == Matched(TableHtml(h, b), e)
  {
    TableSlices(h, sp, b, rest, p, e);
    TableAtSpan(h + "\n" + (sp + "\n" + (b + rest)), h, b, |h|, p, e);
  }

  /** Where the header and the rows sit in the text of a table. */
  lemma TableSlices(h: string, sp: string, b: string, rest: string, p: nat, e: nat)
    requires p == |h| + 1 + |sp| + 1 && e == p + |b|
    ensures var t := h + "\n" + (sp + "\n" + (b + rest));
      e <= |t| && t[..|h|] == h && t[p..e] == b && t[e..] == rest
  {
    var u := sp + "\n" + (b + rest);
    var t := h + "\n" + u;
    assert t[..|h|] == h && t[p..] == b + rest by {
      LinesAround(h, u);
      LinesAround(sp, b + rest);
      SliceTwice(t, |h| + 1, |sp| + 1);
    }
    assert t[p..][..|b|] == b && t[p..][|b|..] == rest by {
      AppendParts(t[p..], b, rest);
    }
    SliceTwice(t, p, |b|);
    TakeOfDrop(t, p, |b|);
  }

  lemma AppendParts(s: string, a: string, c: string)
    requires s == a + c
    ensures s[..|a|] == a && s[|a|..] == c
  {
  }

  lemma TakeOfDrop(t: string, i: nat, n: nat)
    requires i + n <= |t|
    ensures t[i..][..n] == t[i..i + n]
  {
  }

  /** The extent of a table built from a header, a separator and rows. */
  lemma TableSpanOf(h: string, sp: string, rows: seq<string>, rest: string, p: nat, e: nat)
    requires RowLine(h) && RowLine(sp)
    requires forall i :: 0 <= i < |sp| ==> SepClass(sp[i])
    requires |rows| > 0 && AllRowLines(rows)
    requires exists i :: 0 <= i < |rows[0]| && !SepClass(rows[0][i])
    requires |rest| == 0 || rest[0] != '|'
    requires p == |h| + 1 + |sp| + 1 && e == p + |RowLines(rows)|
    ensures TableSpan(h + "\n" + (sp + "\n" + (RowLines(rows) + rest))) == Span(|h|, p, e)
  {
    var body := RowLines(rows);
    SepRunStops(rows[0]);
    RowLinesFirst(rows, rest);
    RowsLenLines(rows, rest);
    assert Framed(h, sp, rows[0]);
    RowFrontLine(rows[0], RowLines(rows[1..]) + rest);
    TableSpanAround(h, sp, body + rest, rows[0], |body|, p, e);
  }

  /** The extent of a table whose rows text starts with a row line. */
  lemma TableSpanAround(h: string, sp: string, w: string, r0: string, r: nat, p: nat, e: nat)
    requires Framed(h, sp, r0) && RowFront(w, r0)
    requires RowsLen(w) == r && r > 0
    requires p == |h| + 1 + |sp| + 1 && e == p + r
    ensures TableSpan(h + "\n" + (sp + "\n" + w)) == Span(|h|, p, e)
  {
    SepPartsOf(h, sp, w, r0, r);
    SpanOfParts(h, sp, sp + "\n" + w, w, r, p, e);
  }

  /** A header line, a separator line, and a first row that the separator cannot absorb. */
  predicate Framed(h: string, sp: string, r0: string) {
    RowLine(h) && RowLine(sp) && (forall i :: 0 <= i < |sp| ==> SepClass(sp[i])) &&
    RowLine(r0) && SepRun(r0, 0) < |r0|
  }

  lemma SepPartsOf(h: string, sp: string, w: string, r0: string, r: nat)
    requires Framed(h, sp, r0) && RowFront(w, r0)
    requires RowsLen(w) == r && r > 0
    ensures SepParts(h, sp, sp + "\n" + w, w, r, |sp| - 1)
  {
    SeparatorFound(sp, r0, w, sp + "\n" + w);
  }

  /** Row lines split after the first row. */
  lemma RowLinesFirst(rows: seq<string>, rest: string)
    requires |rows| > 0
    ensures RowLines(rows) + rest == rows[0] + "\n" + (RowLines(rows[1..]) + rest)
  {
  }

  /** The text of a table regrouped after the header line. */
  lemma TableTextParts(h: string, sp: string, b: string, rest: string)
    ensures h + "\n" + sp + "\n" + b + rest == h + "\n" + (sp + "\n" + (b + rest))
  {
  }

  /** The facts the header line, the separator line and the rows contribute. */
  predicate SepParts(h: string, sp: string, u: string, w: string, r: nat, x: nat) {
    RowLine(h) && |sp| == x + 1 && x >= 2 && u == sp + "\n" + w && u[0] == '|' &&
    SepEnd(u, SepRun(u, 1)) == Some(x) && RowsLen(w) == r && r > 0
  }

  /** The extent of a table, from the facts each part contributes. */
  lemma SpanOfParts(h: string, sp: string, u: string, w: string, r: nat, p: nat, e: nat)
    requires |sp| >= 1 && SepParts(h, sp, u, w, r, |sp| - 1)
    requires p == |h| + 1 + |sp| + 1 && e == p + r
    ensures TableSpan(h + "\n" + u) == Span(|h|, p, e)
  {
    var x := |sp| - 1;
    LocatedOf(h, sp, u, w, r, x);
    SpanFound(h + "\n" + u, |h|, u, x, w, r, p, e);
  }

  /** Where the header ends, where the separator's closing bar is and what follows it. */
  predicate Located(t: string, n: nat, u: string, x: nat, w: string, r: nat) {
    HeaderAt(t, n) && LineEnd(t) == n && n + 1 < |t| && t[n + 1..] == u && u[0] == '|' &&
    SepEnd(u, SepRun(u, 1)) == Some(x) &&
    n + 1 + x + 2 <= |t| && t[n + 1 + x + 2..] == w && RowsLen(w) == r && r > 0
  }

  lemma LocatedOf(h: string, sp: string, u: string, w: string, r: nat, x: nat)
    requires SepParts(h, sp, u, w, r, x)
    ensures Located(h + "\n" + u, |h|, u, x, w, r)
  {
    HeaderFound(h, u);
    RowsFound(h, sp, u, w, x);
  }

  /** A header line and the newline after it. */
  lemma HeaderFound(h: string, u: string)
    requires RowLine(h) && |u| > 0
    ensures var t := h + "\n" + u; var n := |h|;
      HeaderAt(t, n) && LineEnd(t) == n && n + 1 < |t| && t[n + 1..] == u
  {
    LinesAround(h, u);
    LineEndOf(h + "\n" + u, |h|);
  }

  /** The rows start right after the separator line. */
  lemma RowsFound(h: string, sp: string, u: string, w: string, x: nat)
    requires |sp| == x + 1 && u == sp + "\n" + w
    ensures var t := h + "\n" + u; var n := |h|;
      n + 1 + x + 2 <= |t| && t[n + 1 + x + 2..] == w
  {
    var t := h + "\n" + u;
    LinesAround(h, u);
    LinesAround(sp, w);
    SliceTwice(t, |h| + 1, |sp| + 1);
  }

  /** Two lines joined by a newline split back at the newline. */
  lemma LinesAround(a: string, b: string)
    ensures var t := a + "\n" + b;
      |t| == |a| + 1 + |b| && t[..|a|] == a && t[|a|] == '\n' && t[|a| + 1..] == b
  {
  }

  /** Where each character of `a + "\n" + w` comes from, up to the end of the prefix `b` of `w`. */
  lemma AroundFront(a: string, w: string, b: string)
    requires |b| <= |w| && w[..|b|] == b
    ensures var t := a + "\n" + w;
      && |t| == |a| + 1 + |w|
      && (forall i :: 0 <= i < |a| ==> t[i] == a[i])
      && t[|a|] == '\n'
      && (forall i :: 0 <= i < |b| ==> t[|a| + 1 + i] == b[i])
  {
    var t := a + "\n" + w;
    forall i | 0 <= i < |b| ensures t[|a| + 1 + i] == b[i] {
      assert t[|a| + 1 + i] == w[i];
      assert w[..|b|][i] == w[i];
    }
  }

  lemma SliceTwice(t: string, i: nat, j: nat)
    requires i + j <= |t|
    ensures t[i..][j..] == t[i + j..]
  {
  }

  /** The matcher's verdict once the header, the separator end and the rows are located. */
  /** The extent of a table whose parts are located. */
  lemma SpanFound(t: string, n: nat, u: string, x: nat, w: string, r: nat, p: nat, e: nat)
    requires Located(t, n, u, x, w, r) && p == n + 1 + x + 2 && e == p + r
    ensures TableSpan(t) == Span(n, p, e)
  {
    assert SeparatorSpan(t, n) == RowsSpan(t, n, Some(x));
    RowsSpanFound(t, n, x, r);
  }

  lemma RowsSpanFound(t: string, n: nat, x: nat, r: nat)
    requires n + 1 < |t| && n + 1 + x + 2 <= |t|
    requires RowsLen(t[n + 1 + x + 2..]) == r && r > 0
    ensures RowsSpan(t, n, Some(x)) == Span(n, n + 1 + x + 2, n + 1 + x + 2 + r)
  {
  }

  /** The matcher's verdict on a located table. */
  lemma TableAtSpan(t: string, h: string, b: string, n: nat, p: nat, e: nat)
    requires TableSpan(t) == Span(n, p, e)
    requires t[..n] == h && t[p..e] == b
    ensures TableAt(t) == Matched(TableHtml(h, b), e)
  {
  }

  /** The greedy separator ends at the separator line's closing bar. */
  lemma SeparatorFound(sp: string, r0: string, w: string, u: string)
    requires RowLine(sp) && forall i :: 0 <= i < |sp| ==> SepClass(sp[i])
    requires RowFront(w, r0) && SepRun(r0, 0) < |r0|
    requires u == sp + "\n" + w
    ensures |u| > |sp| + 2 && u[0] == '|' && SepEnd(u, SepRun(u, 1)) == Some(|sp| - 1)
  {
    SepLayoutOf(sp, r0, w, u);
    SepFoundIn(u, |sp|, SepRun(r0, 0));
  }

  /**
   * The shape the separator search sees: a bar at 0, separator characters
   * up to the separator line's closing bar at `l - 1`, a newline at `l`, a row
   * at `l + 1` whose separator characters run for `k` and stop before its end
   * of line.
   */
  predicate SepLayout(u: string, l: nat, k: nat) {
    && 3 <= l && l + 1 + k < |u| && u[0] == '|' && u[l - 1] == '|' && u[l] == '\n'
    && RowEnd(u[l + 1..]).Some?
    && (forall j :: 1 <= j < 1 + l + k ==> SepClass(u[j]))
    && !SepClass(u[l + 1 + k])
    && NoBarBreak(u, l - 1, l + k)
  }

  /** The layout of a separator line followed by a row line. */
  lemma SepLayoutOf(sp: string, r0: string, w: string, u: string)
    requires RowLine(sp) && forall i :: 0 <= i < |sp| ==> SepClass(sp[i])
    requires RowFront(w, r0) && SepRun(r0, 0) < |r0|
    requires u == sp + "\n" + w
    ensures SepLayout(u, |sp|, SepRun(r0, 0))
  {
    var k := SepRun(r0, 0);
    AroundFront(sp, w, r0);
    LinesAround(sp, w);
    RowEndFront(w, r0);
    assert u[|sp| + 1 + k] == r0[k];
    forall j | 1 <= j < 1 + |sp| + k ensures SepClass(u[j]) {
      if j > |sp| {
        assert u[j] == r0[j - |sp| - 1];
      }
    }
    forall y | |sp| - 1 < y <= |sp| + k ensures !BarBreak(u, y) {
      if y > |sp| {
        assert u[y + 1] == r0[y - |sp|];
      }
    }
  }

  /** In that shape the search from the end of the run stops at the closing bar. */
  lemma SepFoundIn(u: string, l: nat, k: nat)
    requires SepLayout(u, l, k)
    ensures |u| > l + 2 && u[0] == '|' && SepEnd(u, SepRun(u, 1)) == Some(l - 1)
  {
    SepRunExact(u, 1, l + k);
    SepEndHit(u, l - 1);
    SepEndDown(u, l - 1, l + k);
  }

  /** A row with a character outside the separator class ends the separator run inside it. */
  lemma SepRunStops(r0: string)
    requires exists i :: 0 <= i < |r0| && !SepClass(r0[i])
    ensures SepRun(r0, 0) < |r0|
  {
  }

  /** Position `y` holds a bar followed by a newline. */
  predicate BarBreak(u: string, y: nat) {
    y < |u| && u[y] == '|' && y + 1 < |u| && u[y + 1] == '\n'
  }

  /** No position in `(k, x]` holds a bar followed by a newline. */
  predicate NoBarBreak(u: string, k: nat, x: nat) {
    forall y :: k < y <= x ==> !BarBreak(u, y)
  }

  /**
   * The downward search passes every position that is not a bar followed
   * by a newline and stops at the bar `k` that is.
   */
  lemma {:induction false} SepEndDown(u: string, k: nat, x: nat)
    requires 2 <= k <= x < |u|
    requires SepEnd(u, k) == Some(k) && NoBarBreak(u, k, x)
    ensures SepEnd(u, x) == Some(k)
    decreases x
  {
    if x > k {
      assert !BarBreak(u, x);
      SepEndSkip(u, x);
      SepEndDown(u, k, x - 1);
    }
  }

  /** A bar followed by a newline and a row stops the search. */
  lemma SepEndHit(u: string, k: nat)
    requires 2 <= k && k + 1 < |u|
    requires u[k] == '|' && u[k + 1] == '\n' && RowEnd(u[k + 2..]).Some?
    ensures SepEnd(u, k) == Some(k)
  {
  }

  /** A position that is not a bar followed by a newline hands the search down. */
  lemma SepEndSkip(u: string, x: nat)
    requires 2 <= x < |u|
    requires !BarBreak(u, x)
    ensures SepEnd(u, x) == SepEnd(u, x - 1)
  {
  }

  /** A run of separator characters ended by another character has exactly that length. */
  lemma {:induction false} SepRunExact(s: string, i: nat, n: nat)
    requires i + n < |s| && !SepClass(s[i + n])
    requires forall j :: i <= j < i + n ==> SepClass(s[j])
    ensures SepRun(s, i) == n
    decreases n
  {
    if n > 0 {
      SepRunExact(s, i + 1, n - 1);
    }
  }
}

=== FILE: text.dfy ===
/**
 * Character classes and string helpers shared by the renderer, the speech
 * text cleaner and the server. Strings are `seq<char>`; the character
 * classes follow the ECMAScript definitions the browser code relies on.
 */
module Text {

  datatype Option<T> = None | Some(value: T)

  /** ECMAScript LineTerminator: what `.` refuses and where `^`/`$` anchor with the `m` flag. */
  predicate IsLineTerminator(c: char) {
    c == '\n' || c == '\r' || c == '\U{2028}' || c == '\U{2029}'
  }

  /** ECMAScript WhiteSpace or LineTerminator: the class `\s` and what `trim()` removes. */
  predicate IsSpace(c: char) {
    || c == '\t' || c == '\n' || c == '\U{B}' || c == '\U{C}' || c == '\r' || c == ' '
    || c == '\U{A0}' || c == '\U{1680}' || ('\U{2000}' <= c <= '\U{200A}')
    || c == '\U{2028}' || c == '\U{2029}' || c == '\U{202F}' || c == '\U{205F}'
    || c == '\U{3000}' || c == '\U{FEFF}'
  }

  /** The regex class `\w`. */
  predicate IsWordChar(c: char) {
    ('a' <= c <= 'z') || ('A' <= c <= 'Z') || ('0' <= c <= '9') || c == '_'
  }

  /** The regex class `\d`. */
  predicate IsDigit(c: char) {
    '0' <= c <= '9'
  }

  predicate NoLineTerminator(s: string) {
    forall i :: 0 <= i < |s| ==> !IsLineTerminator(s[i])
  }

  predicate IsBlank(s: string) {
    forall i :: 0 <= i < |s| ==> IsSpace(s[i])
  }

  predicate StartsWith(s: string, p: string) {
    |p| <= |s| && s[..|p|] == p
  }

  /** True iff `p` occurs somewhere in `s`. */
  predicate Contains(s: string, p: string)
    decreases |s|
  {
    StartsWith(s, p) || (|s| > 0 && Contains(s[1..], p))
  }

  /** Index of the first `c` in `s`, or `|s|` when there is none. */
  function IndexOf(s: string, c: char): (k: nat)
    ensures k <= |s|
    ensures k < |s| ==> s[k] == c
    ensures forall j :: 0 <= j < k ==> s[j] != c
    decreases |s|
  {
    if |s| == 0 then 0
    else if s[0] == c then 0
    else 1 + IndexOf(s[1..], c)
  }

  /** Index of the first occurrence of `p` in `s`, if any. */
  function Find(s: string, p: string): (r: Option<nat>)
    requires |p| > 0
    ensures r.Some? ==> r.value + |p| <= |s| && s[r.value..r.value + |p|] == p
    decreases |s|
  {
    if StartsWith(s, p) then Some(0)
    else if |s| == 0 then None
    else
      var r := Find(s[1..], p);
      if r.Some? then Some(r.value + 1) else None
  }

  /** `Find` reports the first occurrence, and reports none only when there is none. */
  lemma {:induction false} FindIsFirst(s: string, p: string)
    requires |p| > 0
    ensures Find(s, p).Some? ==> forall j :: 0 <= j < Find(s, p).value ==> !StartsWith(s[j..], p)
    ensures Find(s, p).None? ==> forall j :: 0 <= j <= |s| ==> !StartsWith(s[j..], p)
    decreases |s|
  {
    if !StartsWith(s, p) && |s| > 0 {
      FindIsFirst(s[1..], p);
      assert forall j :: 1 <= j <= |s| ==> s[j..] == s[1..][j - 1..];
    }
  }

  /** The last start of `p` in `s` at or before `i`. */
  function LastFrom(s: string, p: string, i: nat): (r: Option<nat>)
    requires i <= |s|
    ensures r.Some? ==> r.value <= i && StartsWith(s[r.value..], p)
    decreases i
  {
    if StartsWith(s[i..], p) then Some(i)
    else if i == 0 then None
    else LastFrom(s, p, i - 1)
  }

  /** Index of the first line terminator in `s`, or `|s|`: the end of the first line. */
  function LineEnd(s: string): (k: nat)
    ensures k <= |s|
    ensures k < |s| ==> IsLineTerminator(s[k])
    ensures NoLineTerminator(s[..k])
    decreases |s|
  {
    if |s| == 0 then 0
    else if IsLineTerminator(s[0]) then 0
    else
      var k := 1 + LineEnd(s[1..]);
      assert s[..k] == [s[0]] + s[1..][..k - 1];
      k
  }

  /** `trimStart()`: drops the leading whitespace. */
  function TrimStart(s: string): string
    decreases |s|
  {
    if |s| > 0 && IsSpace(s[0]) then TrimStart(s[1..]) else s
  }

  /** `trimEnd()`: drops the trailing whitespace. */
  function TrimEnd(s: string): string
    decreases |s|
  {
    if |s| > 0 && IsSpace(s[|s| - 1]) then TrimEnd(s[..|s| - 1]) else s
  }

  /** `trim()`, as JavaScript defines it: whitespace off both ends. */
  function Trim(s: string): string {
    TrimEnd(TrimStart(s))
  }

  /** `trimStart()` drops exactly the leading whitespace. */
  lemma {:induction false} TrimStartSpec(s: string)
    ensures var r := TrimStart(s);
      && |r| <= |s| && r == s[|s| - |r|..]
      && IsBlank(s[..|s| - |r|])
      && (|r| == 0 || !IsSpace(r[0]))
    decreases |s|
  {
    if |s| > 0 && IsSpace(s[0]) {
      TrimStartSpec(s[1..]);
      var r := TrimStart(s);
      assert s[..|s| - |r|] == [s[0]] + s[1..][..|s| - 1 - |r|];
    }
  }

  /** `trimEnd()` drops exactly the trailing whitespace. */
  lemma {:induction false} TrimEndSpec(s: string)
    ensures var r := TrimEnd(s);
      && |r| <= |s| && r == s[..|r|]
      && IsBlank(s[|r|..])
      && (|r| == 0 || !IsSpace(r[|r| - 1]))
    decreases |s|
  {
    if |s| > 0 && IsSpace(s[|s| - 1]) {
      TrimEndSpec(s[..|s| - 1]);
      var r := TrimEnd(s);
      assert s[|r|..] == s[..|s| - 1][|r|..] + [s[|s| - 1]];
    }
  }

  /**
   * `trim()` keeps the infix between the blank prefix and the blank suffix,
   * so the result has no whitespace at either end, and it is empty exactly
   * when the input is blank.
   */
  lemma TrimSpec(s: string)
    ensures var r := Trim(s);
      && (exists a, b :: 0 <= a <= b <= |s| && r == s[a..b] && IsBlank(s[..a]) && IsBlank(s[b..]))
      && (|r| == 0 || (!IsSpace(r[0]) && !IsSpace(r[|r| - 1])))
      && (|r| == 0 <==> IsBlank(s))
  {
    var t := TrimStart(s);
    TrimStartSpec(s);
    TrimEndSpec(t);
    var r := TrimEnd(t);
    var a := |s| - |t|;
    assert r == s[a..a + |r|];
    assert s[a + |r|..] == t[|r|..];
    if |r| == 0 {
      assert |t| == 0;
    }
  }

  /** Text already free of whitespace at both ends is its own trim. */
  lemma TrimOfTrimmed(s: string)
    requires |s| > 0 && !IsSpace(s[0]) && !IsSpace(s[|s| - 1])
    ensures Trim(s) == s
  {
  }

  /** Length of the maximal run of `\s` characters at the front of `s`. */
  function SpaceRun(s: string): (n: nat)
    ensures n <= |s|
    ensures forall i :: 0 <= i < n ==> IsSpace(s[i])
    ensures n < |s| ==> !IsSpace(s[n])
    decreases |s|
  {
    if |s| > 0 && IsSpace(s[0]) then 1 + SpaceRun(s[1..]) else 0
  }

  /**
   * `s.replace(/pat/g, rep)` for a literal pattern: scans left to right and
   * replaces every non-overlapping occurrence of `pat`.
   */
  function ReplaceAll(s: string, pat: string, rep: string): string
    requires |pat| > 0
    decreases |s|
  {
    if |s| == 0 then []
    else if StartsWith(s, pat) then rep + ReplaceAll(s[|pat|..], pat, rep)
    else [s[0]] + ReplaceAll(s[1..], pat, rep)
  }

  /** `s.split(sep)` with a one-character separator (the same in JavaScript and Python). */
  function Split(s: string, sep: char): (parts: seq<string>)
    ensures |parts| >= 1
    ensures forall i :: 0 <= i < |parts| ==> sep !in parts[i]
    decreases |s|
  {
    var k := IndexOf(s, sep);
    if k == |s| then [s] else [s[..k]] + Split(s[k + 1..], sep)
  }

  /** `sep.join(parts)`: the inverse of `Split`. */
  function Join(parts: seq<string>, sep: char): string
    decreases |parts|
  {
    if |parts| == 0 then []
    else if |parts| == 1 then parts[0]
    else parts[0] + [sep] + Join(parts[1..], sep)
  }

  /** Concatenation of a sequence of strings (`join('')`). */
  function Concat(parts: seq<string>): string
    decreases |parts|
  {
    if |parts| == 0 then [] else parts[0] + Concat(parts[1..])
  }

  /** Lower-cases the ASCII letters and keeps every other character. */
  function ToLowerAscii(s: string): (r: string)
    ensures |r| == |s|
    ensures forall i :: 0 <= i < |s| ==> (('A' <= s[i] <= 'Z') ==> r[i] as int == s[i] as int + 32)
    ensures forall i :: 0 <= i < |s| ==> (!('A' <= s[i] <= 'Z') ==> r[i] == s[i])
  {
    seq(|s|, i requires 0 <= i < |s| => if 'A' <= s[i] <= 'Z' then (s[i] as int + 32) as char else s[i])
  }

  // ---------------------------------------------------------------------
  // Lemmas

  /** A white-space prefix followed by a non-space character gives the run's length. */
  lemma {:induction false} SpaceRunOver(x: string, rest: string)
    requires IsBlank(x) && |rest| > 0 && !IsSpace(rest[0])
    ensures SpaceRun(x + rest) == |x|
    decreases |x|
  {
    if |x| == 0 {
      assert x + rest == rest;
    } else {
      assert (x + rest)[1..] == x[1..] + rest;
      SpaceRunOver(x[1..], rest);
    }
  }

  /** A terminator-free prefix followed by a terminator ends the first line. */
  lemma LineEndOf(t: string, n: nat)
    requires n < |t| && NoLineTerminator(t[..n]) && IsLineTerminator(t[n])
    ensures LineEnd(t) == n
  {
  }

  /** Joining the pieces of a split gives back the original string. */
  lemma {:induction false} JoinSplit(s: string, sep: char)
    ensures Join(Split(s, sep), sep) == s
    decreases |s|
  {
    var k := IndexOf(s, sep);
    if k < |s| {
      var rest := Split(s[k + 1..], sep);
      SplitCons(s, sep, k);
      JoinSplit(s[k + 1..], sep);
      JoinCons(s[..k], rest, sep);
      SliceAround(s, k);
    }
  }

  /** The last part of a split is a suffix of the text, all of it or following a separator. */
  lemma SplitLastSuffix(s: string, sep: char)
    ensures var parts := Split(s, sep); var last := parts[|parts| - 1];
      && |last| <= |s| && s[|s| - |last|..] == last
      && (|last| == |s| || s[|s| - |last| - 1] == sep)
  {
    var parts := Split(s, sep);
    JoinSplit(s, sep);
    if |parts| > 1 {
      JoinLast(parts, sep);
      SuffixAfterSep(s, Join(parts[..|parts| - 1], sep), parts[|parts| - 1], sep);
    }
  }

  /** The last of several joined pieces follows the last separator. */
  lemma {:induction false} JoinLast(parts: seq<string>, sep: char)
    requires |parts| >= 2
    ensures Join(parts, sep) == Join(parts[..|parts| - 1], sep) + [sep] + parts[|parts| - 1]
    decreases |parts|
  {
    var n := |parts|;
    if n > 2 {
      var front := parts[..n - 1];
      assert parts[1..][..n - 2] == front[1..];
      JoinLast(parts[1..], sep);
      assert Join(front, sep) == parts[0] + [sep] + Join(front[1..], sep);
    }
  }

  /** In `a + [sep] + b`, `b` is the suffix after a separator. */
  lemma SuffixAfterSep(s: string, a: string, b: string, sep: char)
    requires s == a + [sep] + b
    ensures |b| < |s| && s[|s| - |b|..] == b && s[|s| - |b| - 1] == sep
  {
  }

  /** A split at the first separator. */
  lemma SplitCons(s: string, sep: char, k: nat)
    requires k == IndexOf(s, sep) && k < |s|
    ensures Split(s, sep) == [s[..k]] + Split(s[k + 1..], sep)
  {
  }

  /** A string is the text before position `k`, the character there, and the rest. */
  lemma SliceAround(s: string, k: nat)
    requires k < |s|
    ensures s == s[..k] + [s[k]] + s[k + 1..]
  {
  }

  /** Joining a piece in front of at least one more. */
  lemma JoinCons(a: string, rest: seq<string>, sep: char)
    requires |rest| >= 1
    ensures Join([a] + rest, sep) == a + [sep] + Join(rest, sep)
  {
    assert ([a] + rest)[1..] == rest;
  }

  /** Splitting a join of separator-free pieces gives back the pieces. */
  lemma {:induction false} SplitJoin(parts: seq<string>, sep: char)
    requires |parts| >= 1
    requires forall i :: 0 <= i < |parts| ==> sep !in parts[i]
    ensures Split(Join(parts, sep), sep) == parts
    decreases |parts|
  {
    if |parts| > 1 {
      var s := Join(parts, sep);
      var p := parts[0];
      assert s == p + [sep] + Join(parts[1..], sep);
      assert s[..|p|] == p;
      assert s[|p|] == sep;
      IndexOfPrefix(s, p, sep);
      assert s[|p| + 1..] == Join(parts[1..], sep);
      SplitJoin(parts[1..], sep);
    } else {
      IndexOfPrefix(parts[0], parts[0], sep);
    }
  }

  lemma IndexOfPrefix(s: string, p: string, c: char)
    requires StartsWith(s, p) && c !in p
    requires |s| > |p| ==> s[|p|] == c
    ensures IndexOf(s, c) == |p|
  {
    assert forall j :: 0 <= j < |p| ==> s[j] == p[j];
  }

  /** A literal replacement never re-introduces the characters it removed. */
  lemma {:induction false} ReplaceAllRemoves(s: string, c: char, rep: string)
    requires c !in rep
    ensures c !in ReplaceAll(s, [c], rep)
    decreases |s|
  {
    if |s| > 0 {
      ReplaceAllRemoves(s[1..], c, rep);
      if !StartsWith(s, [c]) {
        assert s[0] != c;
      }
    }
  }

  lemma AppendAssoc(a: string, b: string, c: string)
    ensures a + (b + c) == a + b + c
  {
  }

  /** One replacement step where the pattern occurs at the front. */
  lemma ReplaceHit(s: string, pat: string, rep: string)
    requires |pat| > 0 && StartsWith(s, pat)
    ensures ReplaceAll(s, pat, rep) == rep + ReplaceAll(s[|pat|..], pat, rep)
  {
  }

  /** One replacement step where the pattern does not occur at the front. */
  lemma ReplaceMiss(s: string, pat: string, rep: string)
    requires |pat| > 0 && |s| > 0 && !StartsWith(s, pat)
    ensures ReplaceAll(s, pat, rep) == [s[0]] + ReplaceAll(s[1..], pat, rep)
  {
  }

  /** Concatenation regrouped to the right. */
  lemma Regroup(a: string, b: string, c: string)
    ensures a + b + c == a + (b + c)
  {
  }

  /** A text starts with its own prefix, and dropping the prefix leaves the rest. */
  lemma PrefixOf(p: string, rest: string)
    ensures StartsWith(p + rest, p) && (p + rest)[|p|..] == rest
  {
    assert (p + rest)[..|p|] == p;
  }

  /** One differing character rules a prefix out. */
  lemma NotStartsAt(s: string, p: string, i: nat)
    requires i < |p| && i < |s| && s[i] != p[i]
    ensures !StartsWith(s, p)
  {
    if |p| <= |s| {
      assert s[..|p|][i] == s[i];
    }
  }

  /** A text that lacks the pattern's first character does not start with it. */
  lemma NotStartsWithout(s: string, p: string)
    requires |p| > 0 && p[0] !in s
    ensures !StartsWith(s, p)
  {
    if |s| > 0 {
      NotStartsAt(s, p, 0);
    }
  }

  /** Text that holds no first character of the pattern is left untouched. */
  lemma {:induction false} ReplaceAllAbsent(s: string, pat: string, rep: string)
    requires |pat| > 0 && pat[0] !in s
    ensures ReplaceAll(s, pat, rep) == s
    decreases |s|
  {
    if |s| > 0 {
      assert s[0] != pat[0];
      ReplaceAllAbsent(s[1..], pat, rep);
      assert s == [s[0]] + s[1..];
    }
  }

  /** Replacement distributes over concatenation when the pattern cannot straddle the seam. */
  lemma {:induction false} ReplaceAllAppend(a: string, b: string, pat: string, rep: string)
    requires |pat| > 0 && pat[0] !in a
    ensures ReplaceAll(a + b, pat, rep) == a + ReplaceAll(b, pat, rep)
    decreases |a|
  {
    if |a| == 0 {
      assert a + b == b;
    } else {
      assert (a + b)[0] == a[0] && a[0] != pat[0];
      assert !StartsWith(a + b, pat);
      assert (a + b)[1..] == a[1..] + b;
      assert pat[0] !in a[1..];
      ReplaceAllAppend(a[1..], b, pat, rep);
      assert ReplaceAll(a + b, pat, rep) == [a[0]] + ReplaceAll(a[1..] + b, pat, rep);
      assert a == [a[0]] + a[1..];
    }
  }

  /** A replacement that never writes `c` cannot introduce `c`. */
  lemma {:induction false} ReplaceAllKeepsAbsent(s: string, pat: string, rep: string, c: char)
    requires |pat| > 0 && c !in s && c !in rep
    ensures c !in ReplaceAll(s, pat, rep)
    decreases |s|
  {
    if |s| > 0 {
      if StartsWith(s, pat) {
        assert forall i :: |pat| <= i < |s| ==> s[|pat|..][i - |pat|] == s[i];
        ReplaceAllKeepsAbsent(s[|pat|..], pat, rep, c);
      } else {
        assert forall i :: 1 <= i < |s| ==> s[1..][i - 1] == s[i];
        ReplaceAllKeepsAbsent(s[1..], pat, rep, c);
      }
    }
  }

  /** Text in which the pattern starts nowhere is left untouched. */
  lemma {:induction false} ReplaceAllNoHit(s: string, pat: string, rep: string)
    requires |pat| > 0
    requires forall k :: 0 <= k < |s| ==> !StartsWith(s[k..], pat)
    ensures ReplaceAll(s, pat, rep) == s
    decreases |s|
  {
    if |s| > 0 {
      assert s[0..] == s;
      forall k | 0 <= k < |s| - 1 ensures !StartsWith(s[1..][k..], pat) {
        assert s[1..][k..] == s[k + 1..];
      }
      ReplaceAllNoHit(s[1..], pat, rep);
      assert s == [s[0]] + s[1..];
    }
  }
}

=== FILE: tts.dfy ===
/**
 * `/api/tts`: the request is checked (text required), the text is cut to
 * the provider's limit, model and voice get their defaults, and a failure of
 * the Groq client is classified: a message about terms acceptance becomes a
 * 403 with its own error type, anything else a 500 carrying the message.
 */
module TtsEndpoint {
  import opened Text
  import opened Server

  /** The JSON body of `/api/tts`; a missing key is `None`. */
  datatype TtsRequest = TtsRequest(text: Option<string>, model: Option<string>, voice: Option<string>)

  /** What the Groq client's `text_to_speech` gives: the audio, or the text of what it raised. */
  datatype Spoken = Audio(wav: seq<bv8>) | Raised(error: string)

  /** The Groq client's `text_to_speech(text, model, voice)`. */
  type Speaker = (string, string, string) -> Spoken

  const Limit: nat := 10000
  const DefaultTtsModel: string := "playai-tts"
  const DefaultVoice: string := "Fritz-PlayAI"
  const TermsPattern: string := "terms acceptance"
  const TermsMessage: string := "TTS requires terms acceptance. Please visit https://console.groq.com/playground?model=playai-tts to accept terms."
  /**
   * What Python raises when the Groq client is absent. It is written in short
   * pieces so that the absence of `m` can be checked one piece at a time.
   */
  const NoSpeaker: string := "'NoneType'" + " object" + " has no" + " attribute" + " 'text_to" + "_speech'"

  /** `text[:10000]` when longer. */
  function Truncate(text: string): (t: string)
    ensures |t| == if |text| <= Limit then |text| else Limit
    ensures t == text[..|t|]
  {
    if |text| > Limit then text[..Limit] else text
  }

  /** The error branch: 403 with `terms_required` when the lower-cased message mentions terms acceptance. */
  function Classify(error: string): (r: Response)
    ensures r.status == 403 <==> Contains(ToLowerAscii(error), TermsPattern)
    ensures r.status == 403 || r.status == 500
    ensures r.body.Failure?
    ensures r.status == 403 ==> r.body.errorType == Some("terms_required")
    ensures r.status == 500 ==> r.body == Failure(error, None)
  {
    if Contains(ToLowerAscii(error), TermsPattern) then Response(403, Failure(TermsMessage, Some("terms_required")))
    else Response(500, Failure(error, None))
  }

  /** `text_to_speech`; `groq` is the Groq client, if configured. */
  function TextToSpeech(req: TtsRequest, groq: Option<Speaker>): (r: Response)
    ensures (req.text.None? || req.text.value == "") <==> r.status == 400
    ensures r.status == 200 ==> r.body.Wav?
    ensures r.status in {200, 400, 403, 500}
  {
    var text := if req.text.Some? then req.text.value else "";
    if text == "" then Response(400, Failure("Text is required", None))
    else
      var model := if req.model.Some? then req.model.value else DefaultTtsModel;
      var voice := if req.voice.Some? then req.voice.value else DefaultVoice;
      var spoken := if groq.None? then Raised(NoSpeaker) else groq.value(Truncate(text), model, voice);
      match spoken
      case Audio(wav) => Response(200, Wav(wav))
      case Raised(e) => Classify(e)
  }

  // ---------------------------------------------------------------------
  // Lemmas

  /** Cutting twice is cutting once, and text within the limit is not cut. */
  lemma TruncateIdempotent(text: string)
    ensures Truncate(Truncate(text)) == Truncate(text)
    ensures Truncate(text) == text <==> |text| <= Limit
  {
  }

  /** The client is asked for the cut text with the defaults filled in, and its audio is returned as is. */
  lemma SpeakerCalled(req: TtsRequest, speak: Speaker)
    requires req.text.Some? && req.text.value != ""
    ensures var model := if req.model.Some? then req.model.value else DefaultTtsModel;
      var voice := if req.voice.Some? then req.voice.value else DefaultVoice;
      var spoken := speak(Truncate(req.text.value), model, voice);
      && (spoken.Audio? ==> TextToSpeech(req, Some(speak)) == Response(200, Wav(spoken.wav)))
      && (spoken.Raised? ==> TextToSpeech(req, Some(speak)) == Classify(spoken.error))
  {
  }

  /** Without a Groq client the call fails with a plain server error. */
  lemma NoClientIsServerError(req: TtsRequest)
    requires req.text.Some? && req.text.value != ""
    ensures TextToSpeech(req, None) == Response(500, Failure(NoSpeaker, None))
  {
    NoSpeakerNotTerms();
  }

  /** Python's message for the missing client does not mention terms acceptance in any case. */
  lemma NoSpeakerNotTerms()
    ensures !Contains(ToLowerAscii(NoSpeaker), TermsPattern)
  {
    NoSpeakerLacksM();
    var s := ToLowerAscii(NoSpeaker);
    forall i | 0 <= i < |s| ensures s[i] != 'm' {
      assert NoSpeaker[i] in NoSpeaker;
    }
    MissingChar(s, TermsPattern, 'm');
  }

  lemma NoSpeakerLacksM()
    ensures 'm' !in NoSpeaker && 'M' !in NoSpeaker
  {
    assert 'm' !in "'NoneType'" && 'M' !in "'NoneType'";
    assert 'm' !in " object" && 'M' !in " object";
    assert 'm' !in " has no" && 'M' !in " has no";
    assert 'm' !in " attribute" && 'M' !in " attribute";
    assert 'm' !in " 'text_to" && 'M' !in " 'text_to";
    assert 'm' !in "_speech'" && 'M' !in "_speech'";
  }

  /** A text without one of the pattern's characters does not contain the pattern. */
  lemma MissingChar(s: string, p: string, c: char)
    requires |p| > 0 && c in p && c !in s
    ensures !Contains(s, p)
  {
    var j :| 0 <= j < |p| && p[j] == c;
    forall k | 0 <= k <= |s| ensures !StartsWith(s[k..], p) {
      if |p| <= |s| - k {
        assert s[k + j] in s;
        assert s[k..][..|p|][j] != c;
      }
    }
    NotContains(s, p);
  }

  /** `s` does not contain `p` when no position of `s` starts it. */
  lemma {:induction false} NotContains(s: string, p: string)
    requires |p| > 0
    requires forall k :: 0 <= k <= |s| ==> !StartsWith(s[k..], p)
    ensures !Contains(s, p)
    decreases |s|
  {
    assert s[0..] == s;
    if |s| > 0 {
      forall k | 0 <= k <= |s| - 1 ensures !StartsWith(s[1..][k..], p) {
        assert s[1..][k..] == s[k + 1..];
      }
      NotContains(s[1..], p);
    }
  }

  /** Lower-casing distributes over concatenation. */
  lemma LowerAppend(a: string, b: string)
    ensures ToLowerAscii(a + b) == ToLowerAscii(a) + ToLowerAscii(b)
  {
  }

  /** A pattern in the middle of a text is contained in it. */
  lemma {:induction false} ContainsMiddle(a: string, p: string, b: string)
    ensures Contains(a + p + b, p)
    decreases |a|
  {
    var s := a + p + b;
    if |a| == 0 {
      assert s[..|p|] == p;
    } else {
      assert s[1..] == a[1..] + p + b;
      ContainsMiddle(a[1..], p, b);
    }
  }

  /** The classification ignores case: a capitalised mention of terms acceptance is still a 403. */
  lemma TermsAnyCase(a: string, w: string, b: string)
    requires ToLowerAscii(w) == TermsPattern
    ensures Classify(a + w + b).status == 403
    ensures Classify(a + w + b).body.errorType == Some("terms_required")
  {
    LowerAppend(a + w, b);
    LowerAppend(a, w);
    ContainsMiddle(ToLowerAscii(a), TermsPattern, ToLowerAscii(b));
  }
}
